=== FILE: README.md ===
# Tushare market-analysis labels, modelled in Dafny

This project models the decision logic of a Tushare-based market-analysis
server and its two index-valuation scripts. Most of the repository forwards
parameters to the Tushare data API. The part modelled here is the layer that
turns fetched indicator values into labels:

- **The five technical-analysis tools** of `tech_ext.py`. Each takes a
  date-sorted table of daily factor rows and labels a row:
  - `get_trend_signals` (module `TrendSignals`);
  - `get_sentiment_volume` (`SentimentVolume`);
  - `get_valuation_metrics` (`ValuationMetrics`);
  - `get_oscillator_signals` (`OscillatorSignals`);
  - `get_volatility_profile` (`VolatilityProfile`).

  A missing or NaN cell is `Base.Option<real>`'s `None`. Python's
  comparisons with NaN are false, and `Base.Lt/Le/Gt/Ge` reproduce that, so
  a missing previous value falls through a chain of comparisons just as it
  does in the tools. `Table.Find` is the shared "first row of the requested
  day" lookup.
- **The Shenwan level-1 industry scripts** of `sector_index.py`:
  - `SectorValuation`: the ≤-based percentile, the status rule with its
    per-industry primary metric, and the status ordering of the result
    table;
  - `SectorProfit`: the report-period choice, market-cap weights, the
    growth-rate filter, the weighted mean and the data-quality flag;
  - `SectorDaily`: the segmented, de-duplicated daily fetch;
  - `Calendar`: `get_last_month_dates`, `strptime`'s reading of `%Y%m%d` and
    the `YYYYMMDD` round trip.
- **The broad-index valuation script** `broad_based_index.py`
  (`BroadIndex`): the strict-less-than percentile, the two-metric status
  rule, the latest complete row, and the ten-year segmented fetch.

The modules shared by the scripts are:

- `Segments`: splitting a date range into requests of at most 366 days,
  with days as day numbers;
- `IndexTable`: daily PE/PB rows, sorting by date, de-duplication, and the
  latest complete row.

The data service, the clock and the index list are function parameters. A
request that raises is `None`.

## Model

| member | source | states |
|---|---|---|
| TrendSignals.PriceVsMa5 | src/tushare_mcp_server/tech_ext.py:90-112 | null exactly when close or MA5 is missing; `crossing_up` exactly when the previous close ≤ previous MA5 and today's close > MA5, `crossing_down` symmetrically; otherwise `above` only when close > MA5 |
| TrendSignals.Ma5VsMa20 | src/tushare_mcp_server/tech_ext.py:115-120 | null exactly when MA5 or MA20 is missing; bullish alignment exactly when MA5 > MA20 |
| TrendSignals.MacdLevel | src/tushare_mcp_server/tech_ext.py:142-155 | without a cross: positive momentum iff DIF > DEA and DIF > 0, negative momentum iff DIF < DEA and DIF < 0, never a cross label |
| TrendSignals.MacdStatus | src/tushare_mcp_server/tech_ext.py:123-157 | null iff DIF or DEA missing; golden cross iff previous DIF ≤ DEA and today DIF > DEA, death cross symmetrically; on any other day the level label, so positive momentum iff no cross and DIF > DEA and DIF > 0, negative momentum iff no cross and DIF < DEA and DIF < 0, recovering otherwise |
| TrendSignals.TrendDirection | src/tushare_mcp_server/tech_ext.py:161-179 | null iff any of close, MA5, MA20, DIF, DEA is missing; `up` iff MA5 > MA20, close > MA5, DIF ≥ DEA; `down` iff the mirrored conditions hold |
| TrendSignals.Window | src/tushare_mcp_server/tech_ext.py:192-193 | the trailing window holds the last min(i+1, 20) rows ending with row i, in table order |
| TrendSignals.WindowPercentile | src/tushare_mcp_server/tech_ext.py:197-209 | the share of usable window rows whose relative MACD is strictly below the current one lies in [0, 100] |
| TrendSignals.StrengthPercentile | src/tushare_mcp_server/tech_ext.py:192-209 | when the current row is usable, the window has a usable row and the percentile lies in [0, 100), since the current row is never below itself |
| TrendSignals.TrendStrength | src/tushare_mcp_server/tech_ext.py:183-231 | null iff abs(MACD)/close is undefined; from the tenth row on, strong iff percentile ≥ 75 and weak iff ≤ 25; before it, strong iff relative MACD > 1% and weak iff < 0.1% |
| TrendSignals.MomentumChangeAt | src/tushare_mcp_server/tech_ext.py:234-251 | null iff mtm missing; on the first row accelerating iff mtm > 0, else accelerating_down; later, reversing iff the sign flips against the previous mtm; without a flip, accelerating iff mtm > 0 and mtm > previous mtm, decelerating iff mtm > 0 and not above the previous, accelerating_down iff mtm ≤ 0 and below the previous, decelerating_down iff mtm ≤ 0 and not below the previous (a NaN previous mtm fails both comparisons) |
| TrendSignals.SignalsAt | src/tushare_mcp_server/tech_ext.py:84-253 | the record of row i carries that row's date and each of its labels (price vs MA5, MA alignment, MACD, direction, strength, momentum change); an `up` (`down`) direction comes with bullish (bearish) alignment and a price above or crossing up through (below or crossing down through) MA5 |
| TrendSignals.GetTrendSignals | src/tushare_mcp_server/tech_ext.py:74-253 | an error iff the table is empty; otherwise one record per row, the i-th computed from row i and its predecessor |
| TrendSignals.FirstRowHasNoCrossing | src/tushare_mcp_server/tech_ext.py:108-110 | the first row never gets a price crossing, a MACD cross, `reversing` or `decelerating` |
| TrendSignals.DirectionAgreesWithAlignment | src/tushare_mcp_server/tech_ext.py:169-177 | `up` implies bullish alignment and price above (or crossing up through) MA5; `down` the bearish mirror |
| TrendSignals.SignChangeReverses | src/tushare_mcp_server/tech_ext.py:240-242 | a strict sign change of mtm between two days is always `reversing`, whatever the magnitudes |
| TrendSignals.MissingPreviousMomentumDecelerates | src/tushare_mcp_server/tech_ext.py:237-246 | a NaN previous mtm makes every comparison false, so the label is `decelerating` or `decelerating_down` by today's sign |
| TrendSignals.ZeroMomentumIsDownward | src/tushare_mcp_server/tech_ext.py:243-249 | an mtm of exactly 0 is always labelled on the downward side |
| TrendSignals.EarlyStrengthIgnoresHistory | src/tushare_mcp_server/tech_ext.py:221-229 | before the tenth row, trend strength depends on the row itself only |
| SentimentVolume.TurnoverLevel | src/tushare_mcp_server/tech_ext.py:333-338 | high iff rate ≥ 5, low iff rate < 1 |
| SentimentVolume.TurnoverStatus | src/tushare_mcp_server/tech_ext.py:328-348 | free-float turnover first, total turnover as fallback, null only when both are missing |
| SentimentVolume.VolumeStatus | src/tushare_mcp_server/tech_ext.py:351-362 | null iff the volume ratio is missing; surge iff ≥ 2.0, dry-up iff < 0.8 |
| SentimentVolume.ObvTrendAt | src/tushare_mcp_server/tech_ext.py:365-384 | rising/falling/flat iff there is a previous row and today's OBV is greater/smaller/equal to a present previous OBV; otherwise unavailable |
| SentimentVolume.BrarSentiment | src/tushare_mcp_server/tech_ext.py:387-405 | null iff AR or BR missing; overly bullish iff AR > 150 and BR < 100, overly bearish mirrored; otherwise neutral iff abs(AR − BR) < 5, then bullish iff AR > BR and bearish iff AR ≤ BR, in that order |
| SentimentVolume.VrStatusOf | src/tushare_mcp_server/tech_ext.py:408-418 | null iff VR missing; bullish iff VR > 150, bearish iff VR < 70 |
| SentimentVolume.MfiStateOf | src/tushare_mcp_server/tech_ext.py:428-436 | n/a iff MFI missing; overbought iff ≥ 80; oversold iff ≤ 20 |
| SentimentVolume.PsyStateOf | src/tushare_mcp_server/tech_ext.py:439-447 | n/a iff PSY missing; over-bullish iff ≥ 75; oversold iff ≤ 25 |
| SentimentVolume.MfiPsy | src/tushare_mcp_server/tech_ext.py:450-457 | `mfi_psy_unavailable` iff both are missing; otherwise the pair of the two individual states |
| SentimentVolume.MarketSentiment | src/tushare_mcp_server/tech_ext.py:468-498 | strongly bullish iff its conditions hold; strongly bearish iff its conditions hold and the bullish ones do not; apathetic and neutral split by the apathy conditions |
| SentimentVolume.ReportAt | src/tushare_mcp_server/tech_ext.py:322-498 | the report of row idx carries that row's date and its turnover, volume, OBV, BR/AR, VR and MFI/PSY labels, and its market verdict is the one those labels give |
| SentimentVolume.GetSentimentVolume | src/tushare_mcp_server/tech_ext.py:308-320 | a report iff some row carries the requested date, and then it is the report of the first such row; the no-data error iff the table is empty |
| SentimentVolume.VerdictConditionsExclusive | src/tushare_mcp_server/tech_ext.py:468-488 | the bullish, bearish and apathetic conditions are pairwise exclusive, so the priority order never hides a competing verdict |
| SentimentVolume.StronglyBullishEvidence | src/tushare_mcp_server/tech_ext.py:468-473 | a strongly bullish day is not the first row and has VR > 150, AR > BR, and OBV above the previous day's |
| SentimentVolume.StronglyBearishEvidence | src/tushare_mcp_server/tech_ext.py:476-481 | a strongly bearish day is not the first row and has VR < 70, BR > AR, and OBV below the previous day's |
| SentimentVolume.FirstRowHasNoStrongVerdict | src/tushare_mcp_server/tech_ext.py:368-382 | the first row of the table has no OBV trend, so it is never strongly bullish or bearish |
| SentimentVolume.TurnoverLevelMonotone | src/tushare_mcp_server/tech_ext.py:333-338 | raising the turnover rate never lowers its level |
| ValuationMetrics.Before | src/tushare_mcp_server/tech_ext.py:579-581 | the history is exactly the column over the rows strictly before the current index |
| ValuationMetrics.PeHistory | src/tushare_mcp_server/tech_ext.py:580-592 | if at least 100 rows before idx have a positive pe_ttm, the history has one entry per such row and holds exactly those positive pe_ttm values; otherwise it is the same for positive pe values |
| ValuationMetrics.PbHistory | src/tushare_mcp_server/tech_ext.py:621-627 | one entry per row before idx with a non-negative pb, and exactly those values |
| ValuationMetrics.PsHistory | src/tushare_mcp_server/tech_ext.py:686-698 | if at least 100 rows before idx have a non-negative ps_ttm, one entry per such row and exactly those values; otherwise the same for non-negative ps values |
| ValuationMetrics.PeStatusAt | src/tushare_mcp_server/tech_ext.py:568-614 | null iff both PE columns are missing; unprofitable iff the chosen PE ≤ 0; with ≥ 100 history points the p30/p70 thresholds decide, otherwise 15 and 50 |
| ValuationMetrics.PbStatusAt | src/tushare_mcp_server/tech_ext.py:617-656 | null iff PB missing; deep discount iff PB < 0.5; extreme premium only with ≥ 100 history points and PB > 10; otherwise percentile or absolute thresholds by history length |
| ValuationMetrics.DividendAt | src/tushare_mcp_server/tech_ext.py:659-675 | dv_ttm first, dv_ratio as fallback; no dividend iff both missing; ≥ 5 very attractive, [3, 5) attractive, < 1 low |
| ValuationMetrics.PsStatusAt | src/tushare_mcp_server/tech_ext.py:678-720 | null iff both PS columns are missing; the percentile labels occur only with ≥ 100 history points and the absolute labels only without |
| ValuationMetrics.MarketCapAt | src/tushare_mcp_server/tech_ext.py:723-733 | unknown iff total_mv missing; large iff ≥ 10,000,000; small iff < 2,000,000 |
| ValuationMetrics.Summary | src/tushare_mcp_server/tech_ext.py:736-787 | the verdict follows the priority unprofitable > undervalued > overvalued > growth-priced > speculative > neutral, each iff its case holds and no earlier one does |
| ValuationMetrics.ReportAt | src/tushare_mcp_server/tech_ext.py:562-787 | the report of row idx carries that row's date and its PE, PB, PS, dividend and market-cap labels, and its summary is the one those labels give |
| ValuationMetrics.GetValuationMetrics | src/tushare_mcp_server/tech_ext.py:548-560 | a report iff some row carries the requested date, and then it is the report of the first such row; the no-data error iff the table is empty |
| ValuationMetrics.UnprofitableIffNonPositivePe | src/tushare_mcp_server/tech_ext.py:572-577 | the summary is unprofitable exactly when the chosen PE is ≤ 0, overriding every other verdict |
| ValuationMetrics.BeforeIgnoresLaterRows | src/tushare_mcp_server/tech_ext.py:581 | the history of a day does not depend on the rows from that day on |
| ValuationMetrics.LabelsIgnoreLaterRows | src/tushare_mcp_server/tech_ext.py:579-598 | PE, PB and PS labels of a day are unchanged by replacing every later row |
| ValuationMetrics.ShortPeHistoryIgnoresQuantile | src/tushare_mcp_server/tech_ext.py:605-612 | with fewer than 100 history points the PE label does not depend on the percentile routine |
| ValuationMetrics.FirstRowUsesAbsoluteThresholds | src/tushare_mcp_server/tech_ext.py:591-592 | the first row's whole report does not depend on the percentile routine |
| ValuationMetrics.VerdictCapClasses | src/tushare_mcp_server/tech_ext.py:759-770 | speculative implies a small cap; growth-priced implies total_mv ≥ 2,000,000 |
| OscillatorSignals.RsiStatus | src/tushare_mcp_server/tech_ext.py:855-874 | RSI6 with bounds 70/30 first, RSI12 with 75/25 as fallback, null only when both are missing |
| OscillatorSignals.KdjLevel | src/tushare_mcp_server/tech_ext.py:909-914 | overbought risk iff K > 80, oversold opportunity iff K < 20, neutral otherwise |
| OscillatorSignals.KdjStatus | src/tushare_mcp_server/tech_ext.py:877-934 | null iff K or D missing; a bullish cross iff the previous K ≤ D and today K > D, a bearish cross mirrored; on a bullish cross the oversold variant iff K < 50, on a bearish cross the overbought variant iff K > 50; otherwise the level of K |
| OscillatorSignals.WilliamsLevel | src/tushare_mcp_server/tech_ext.py:941-946 | overbought iff %R ≥ −20, oversold iff %R ≤ −80 |
| OscillatorSignals.WilliamsStatus | src/tushare_mcp_server/tech_ext.py:937-955 | WR1 first, WR as fallback, null only when both are missing |
| OscillatorSignals.BiasLevel | src/tushare_mcp_server/tech_ext.py:964-968 | high positive iff bias > bound, high negative iff bias < −bound |
| OscillatorSignals.BiasStatus | src/tushare_mcp_server/tech_ext.py:958-980 | the first present of BIAS1/2/3 with bounds 5/6/7; normal deviation when all are missing |
| OscillatorSignals.CciStatus | src/tushare_mcp_server/tech_ext.py:983-993 | null iff CCI missing; overbought iff > 100, oversold iff < −100 |
| OscillatorSignals.TallyBalanced | src/tushare_mcp_server/tech_ext.py:997-1042 | every vote is bullish, bearish or neither, so the extreme count equals bullish + bearish and is at most the number of indicators |
| OscillatorSignals.BiasCurrent | src/tushare_mcp_server/tech_ext.py:1045-1051 | the value the strong-signal test reads is the 6-day BIAS cell, NaN included, since a NaN cell is not `None` |
| OscillatorSignals.ReversalSignal | src/tushare_mcp_server/tech_ext.py:1053-1081 | no signal iff fewer than two extremes; strong bullish iff ≥ 2 extremes, a bullish KDJ cross and bias ≤ −4; then, unless ≥ 2 bullish votes with bias ≤ −4 intervene, strong bearish iff ≥ 2 bearish votes and a bearish KDJ cross; every other case with ≥ 2 extremes is moderate reversal risk, and only those |
| OscillatorSignals.ReportAt | src/tushare_mcp_server/tech_ext.py:849-1083 | the report of row idx carries that row's date and its RSI, KDJ, Williams, BIAS and CCI labels, and its reversal signal is the one those five labels vote for, with that row's BIAS |
| OscillatorSignals.GetOscillatorSignals | src/tushare_mcp_server/tech_ext.py:835-847 | a report iff some row carries the requested date, and then it is the report of the first such row; the no-data error iff the table is empty |
| OscillatorSignals.ExtremesSplitIntoSides | src/tushare_mcp_server/tech_ext.py:1009-1042 | over the five indicators of a day, extremes = bullish + bearish ≤ 5 |
| OscillatorSignals.StrongBullishNeedsGoldenCross | src/tushare_mcp_server/tech_ext.py:1056-1065 | a strong bullish reversal needs a KDJ golden cross against the previous row and BIAS1 ≤ −4 |
| OscillatorSignals.NanBias1BlocksStrongBullish | src/tushare_mcp_server/tech_ext.py:1045-1061 | a NaN BIAS1 is still chosen by the `is not None` test and is never ≤ −4, so no strong bullish reversal |
| VolatilityProfile.AtrAbsolute | src/tushare_mcp_server/tech_ext.py:1174-1179 | high iff ATR > 2.0, low iff ATR < 0.5 |
| VolatilityProfile.AtrRelative | src/tushare_mcp_server/tech_ext.py:1166-1171 | high iff ATR > 1.5 × mean, low iff not high and ATR < 0.7 × mean |
| VolatilityProfile.AtrWindow | src/tushare_mcp_server/tech_ext.py:1159-1161 | the 20 ATR cells ending at the current row, in order |
| VolatilityProfile.AtrStatus | src/tushare_mcp_server/tech_ext.py:1155-1189 | null iff ATR missing; relative to the 20-day mean when there are ≥ 20 rows with ≥ 15 present ATRs, absolute otherwise |
| VolatilityProfile.SteadyAtrIsNormal | src/tushare_mcp_server/tech_ext.py:1159-1171 | an ATR constant over the last 20 days is normal volatility |
| VolatilityProfile.BandPosition | src/tushare_mcp_server/tech_ext.py:1201-1208 | above the upper band iff close ≥ upper; below the lower band iff not above and close ≤ lower; upper half iff strictly inside and above mid |
| VolatilityProfile.BandWidth | src/tushare_mcp_server/tech_ext.py:1211-1216 | wide iff (upper − lower)/mid > 0.15, narrow iff < 0.08; a zero mid gives an infinite or NaN width decided by the sign of the numerator |
| VolatilityProfile.CombineReadsBack | src/tushare_mcp_server/tech_ext.py:1219-1243 | the label contains `narrow_band` iff the width is narrow, `wide_band` iff wide outside the bands, and `above_upper`/`below_lower` iff that position |
| VolatilityProfile.CombineInjective | src/tushare_mcp_server/tech_ext.py:1219-1243 | the ten labels are distinct: equal labels mean equal positions, and equal widths except where the wide width is dropped inside the bands |
| VolatilityProfile.BollingerStatus | src/tushare_mcp_server/tech_ext.py:1192-1245 | null iff any of close, upper, lower, mid is missing; otherwise the combination of position and width |
| VolatilityProfile.MassLevel | src/tushare_mcp_server/tech_ext.py:1261-1266 | high iff mass > 27, low iff mass < 26.5 |
| VolatilityProfile.MassStatus | src/tushare_mcp_server/tech_ext.py:1248-1284 | null iff mass missing; reversal signal iff today < 27 and a present previous mass ≥ 27; otherwise the level |
| VolatilityProfile.KeltnerStatus | src/tushare_mcp_server/tech_ext.py:1287-1298 | null iff close or a channel line is missing; above iff close ≥ upper; below iff not above and close ≤ lower |
| VolatilityProfile.MaxPresent | src/tushare_mcp_server/tech_ext.py:1321 | the maximum of the present cells, one of them, and None iff all are NaN |
| VolatilityProfile.MinPresent | src/tushare_mcp_server/tech_ext.py:1322 | the minimum of the present cells, one of them, and None iff all are NaN |
| VolatilityProfile.PriorHighs | src/tushare_mcp_server/tech_ext.py:1320 | the highs of exactly the 20 rows before the current one |
| VolatilityProfile.ExtremeStatus | src/tushare_mcp_server/tech_ext.py:1301-1335 | with streak data, new high iff topdays ≥ 20, else new low iff lowdays ≥ 20; without it and with 20 prior rows, new high iff high > the prior 20-day highest high, else new low iff low < the prior 20-day lowest low, else near new high iff high ≥ 0.98 × that highest high, else no extreme (NaN failing every comparison); with fewer than 20 prior rows, no extreme |
| VolatilityProfile.PriceNewHighTopsHistory | src/tushare_mcp_server/tech_ext.py:1318-1325 | a price-based new high exceeds every present high of the previous 20 rows |
| VolatilityProfile.RegimeAsWritten | src/tushare_mcp_server/tech_ext.py:1343-1356 | as written, the regime raises exactly when the Bollinger label is null |
| VolatilityProfile.RegimeOf | src/tushare_mcp_server/tech_ext.py:1343-1356 | elevated iff high ATR, a wide band and a 20-day extreme; compression iff low ATR and (a narrow band or low mass) |
| VolatilityProfile.RegimeGuardKeepsAnswers | src/tushare_mcp_server/tech_ext.py:1351-1352 | wherever the written regime answers, the guarded one answers the same |
| VolatilityProfile.RiskWarning | src/tushare_mcp_server/tech_ext.py:1362-1377 | high risk iff above the upper band with a new high and high ATR; opportunity mirrored; low-risk consolidation iff a narrow band with low ATR |
| VolatilityProfile.ConsolidationIsNarrowCompression | src/tushare_mcp_server/tech_ext.py:1351-1374 | low-risk consolidation is exactly a compression regime on a narrow band |
| VolatilityProfile.WideBreakoutRiskIsElevated | src/tushare_mcp_server/tech_ext.py:1347-1369 | a high short-term risk or opportunity on a wide band is always an elevated regime |
| VolatilityProfile.ReportAt | src/tushare_mcp_server/tech_ext.py:1338-1379 | the profile of row idx carries that row's date and its ATR, Bollinger, Mass, Keltner and extreme labels, and its regime and risk warning are the ones those labels give |
| VolatilityProfile.GetVolatilityProfile | src/tushare_mcp_server/tech_ext.py:1135-1147 | a profile iff some row carries the requested date, and then it is the profile of the first such row; the no-data error iff the table is empty |
| VolatilityProfile.GetVolatilityProfileAsWritten | src/tushare_mcp_server/tech_ext.py:1351-1384 | as written, for the first row of the requested date: the `TypeError` object iff that row's Bollinger label is null, otherwise that row's profile |
| VolatilityProfile.AsWrittenFailsOnlyWithoutBand | src/tushare_mcp_server/tech_ext.py:1383-1384 | the written tool agrees with the corrected one when it answers, and returns the error for every found day with a null Bollinger label |
| VolatilityProfile.MissingCloseRejected | src/tushare_mcp_server/tech_ext.py:1192-1197 | a concrete day with NaN close and known ATR: the written tool returns an error, the corrected one a profile |
| Table.Find | src/tushare_mcp_server/tech_ext.py:1135-1147 | the first row of the requested date; "no data" iff the table is empty, "date not found" iff no row has the date |
| Calendar.PrevDay | src/tool_kits/sector_index.py:213-214 | the day before a valid date is valid, and the next day after it is the original date |
| Calendar.OrdinalNextDay | src/tool_kits/sector_index.py:101 | adding one calendar day increases the day number by exactly one |
| Calendar.Parse | src/tool_kits/sector_index.py:210 | `strptime`'s `%Y%m%d` grammar: four year digits, then the first month alternative (`1[0-2]`, `0[1-9]`, `[1-9]`) after which a day alternative matches; a date only if that match consumes the whole text and forms a valid date, so the text is 6 to 8 characters and the year is its first four digits |
| Calendar.ParseEightDigits | src/tool_kits/sector_index.py:210 | on eight digits the text is read as 4 + 2 + 2 digits, and parses iff those form a valid date |
| Calendar.ParseOneDigitDay | src/tool_kits/sector_index.py:210 | "2025111" is 1 November 2025 |
| Calendar.ParseOneDigitMonthAndDay | src/tool_kits/sector_index.py:210 | "202511" is 1 January 2025 |
| Calendar.ParseBacktracksMonth | src/tool_kits/sector_index.py:210 | "2025110" is 10 January 2025: the month falls back to one digit when no day follows two |
| Calendar.ParseBlankDay | src/tool_kits/sector_index.py:210 | "202511 1" is 1 November 2025 |
| Calendar.ParseRejectsLeftover | src/tool_kits/sector_index.py:210 | "20251310" raises: the match stops after seven characters and is not retried |
| Calendar.Format | src/tool_kits/sector_index.py:219 | `strftime('%Y%m%d')` of a valid date is eight digits |
| Calendar.ParseFormat | src/tool_kits/sector_index.py:210-219 | formatting a valid date and parsing it back gives the date |
| Calendar.FormatParse | src/tool_kits/sector_index.py:210-219 | a text that parses formats back to itself iff it is eight digits |
| Calendar.PreviousMonth | src/tool_kits/sector_index.py:213-217 | undefined only in January of year 1, the first representable month; otherwise two valid dates |
| Calendar.PreviousMonthIsWholeMonth | src/tool_kits/sector_index.py:213-217 | the first and last day of the same month, the one before the given date's month, and the day after the last is the first of the current month |
| Calendar.LastMonthDates | src/tool_kits/sector_index.py:207-222 | none exactly when the text does not parse or there is no previous month; otherwise two parseable dates |
| Calendar.LastMonthOfOneDigitDay | src/tool_kits/sector_index.py:207-222 | `get_last_month_dates("2025111")` is ('20251001', '20251031') |
| Calendar.LastMonthDatesReadBack | src/tool_kits/sector_index.py:207-222 | the two strings read back as the previous month's first and last day, and the start string sorts no later than the end string |
| Segments.Plan | src/tool_kits/broad_based_index.py:57-80 | the segments abut, each spans at most 366 days, and they run from the start to the end; none iff the range is empty |
| Segments.PlanCoversRange | src/tool_kits/broad_based_index.py:57-80 | a day is requested iff it lies in the range |
| Segments.PlanAsWritten | src/tool_kits/sector_index.py:80-101 | the `<`-guarded loop: no segment iff start ≥ end; otherwise the first starts at start and the last ends on end or the day before |
| Segments.AsWrittenDropsLastDay | src/tool_kits/sector_index.py:80-101 | the `<`-guarded loop plans the same segments except the single-day final segment, dropped exactly when the end lies a whole number of 366-day strides after the start |
| Segments.AsWrittenMissesEndDay | src/tool_kits/sector_index.py:81-82 | over a 367-day range the `<`-guarded loop never requests the last day |
| Segments.Gather | src/tool_kits/sector_index.py:87-103 | every answering request's rows are included with their multiplicities; a row is in the result iff some answering request returned it; the length is the total number of rows the answering requests returned, so a raising request contributes nothing |
| Segments.GatherAll | src/tool_kits/broad_based_index.py:50-84 | none iff some request raised; otherwise all requests' rows in request order |
| IndexTable.SortByDate | src/tool_kits/sector_index.py:106 | a date-sorted permutation of the rows with the same dates |
| IndexTable.SortUniqueIsStrict | src/tool_kits/sector_index.py:106 | rows with distinct dates sort into strictly increasing dates |
| IndexTable.Dedup | src/tool_kits/sector_index.py:106 | never longer than the input; one row per date, each the first row of its date, and every date of the input kept |
| IndexTable.CompleteRows | src/tool_kits/sector_index.py:153 | only rows with both PE and PB, one per complete input row, and a row is kept iff it is in the input and complete |
| IndexTable.Latest | src/tool_kits/broad_based_index.py:93-100 | none iff no row has both PE and PB; otherwise the row at the index of the last complete row (`iloc[-1]` after `dropna`) |
| IndexTable.NoCompleteRows | src/tool_kits/broad_based_index.py:93-97 | the cleaned table is empty iff no row has both PE and PB |
| IndexTable.LatestHasMaxDate | src/tool_kits/broad_based_index.py:90-102 | in a date-sorted table the chosen row has the greatest date among the complete rows |
| SectorDaily.IndexDailyData | src/tool_kits/sector_index.py:69-109 | strictly date-sorted, with exactly the dates of the rows the requests returned, and empty iff they returned none |
| SectorDaily.IndexDailyDataAsWritten | src/tool_kits/sector_index.py:80-107 | as written: strictly sorted, with the dates of the rows the `<`-guarded requests returned |
| SectorDaily.IndexDailyDataKeepsFirst | src/tool_kits/sector_index.py:103-107 | of rows sharing a date, the first one fetched is kept |
| SectorDaily.AsWrittenAgreesOffStride | src/tool_kits/sector_index.py:80-107 | when the range is not a whole number of 366-day strides, the written and corrected series are equal |
| SectorDaily.DefaultRangeUnaffected | src/tool_kits/sector_index.py:69-109 | over the default 2020-11-10 to 2025-11-10 range (1826 days) the written and corrected series are equal for every service |
| SectorDaily.AsWrittenLosesLastDay | src/tool_kits/sector_index.py:80-107 | a concrete range whose only data is on its last day: the written loop returns nothing, the corrected loop that row |
| SectorValuation.RoundHalfEven | src/tool_kits/sector_index.py:124 | the nearest integer, ties to even, as Python's `round` |
| SectorValuation.RoundMonotone | src/tool_kits/sector_index.py:124 | rounding never reverses an order |
| SectorValuation.Percentile | src/tool_kits/sector_index.py:111-125 | NaN iff the series is empty, the current value is NaN, or no value is present; otherwise an integer in [0, 100] |
| SectorValuation.PercentileIsNearestShare | src/tool_kits/sector_index.py:116-124 | the percentile is the rounded share of present values at most the current value |
| SectorValuation.PercentileMonotone | src/tool_kits/sector_index.py:116-124 | for a fixed series the percentile is non-decreasing in the current value |
| SectorValuation.MaximumIsHundred | src/tool_kits/sector_index.py:116-124 | a value at least every present value has percentile 100 |
| SectorValuation.StatusOf | src/tool_kits/sector_index.py:176-183 | unknown iff NaN; overvalued iff ≥ 80; undervalued iff ≤ 20; neutral otherwise |
| SectorValuation.PrimaryMetric | src/tool_kits/sector_index.py:26-58 | the primary metric is PB exactly for the thirteen asset-heavy industries, and PE for every other code, listed or not |
| SectorValuation.Rank | src/tool_kits/sector_index.py:201 | overvalued ranks first and unknown last |
| SectorValuation.EvaluateIndex | src/tool_kits/sector_index.py:145-195 | an evaluation iff some row has both PE and PB; it carries the index's code and name, the last complete row's PE and PB, their percentiles among the complete rows, and the status of the industry's primary metric |
| SectorValuation.EvaluatedStatusIsKnown | src/tool_kits/sector_index.py:159-183 | the latest value is in its own series, so an evaluated index has both percentiles and never the status unknown |
| SectorValuation.OrderByStatusSpec | src/tool_kits/sector_index.py:200-203 | ordered overvalued, neutral, undervalued, unknown, and a permutation of the evaluations |
| SectorValuation.OrderByStatus | src/tool_kits/sector_index.py:201-203 | the rows of each status, in input order, concatenated overvalued, neutral, undervalued, unknown; its ordering and permutation are stated by OrderByStatusSpec |
| SectorValuation.EvaluateFetched | src/tool_kits/sector_index.py:138-195 | the evaluation of the index's five-year daily series (skipped iff that series has no complete row), with a known status and its own code |
| SectorValuation.EvaluateAll | src/tool_kits/sector_index.py:136-195 | the present evaluations of the listed indices in list order; an evaluation appears iff some listed index yields it; none has status unknown |
| SectorValuation.EvaluateSectorValuationAsWritten | src/tool_kits/sector_index.py:197-205 | as written: raises iff the index list is non-empty and no index could be evaluated |
| SectorValuation.EvaluateSectorValuation | src/tool_kits/sector_index.py:197-205 | the evaluations grouped by status in the stated order, none lost or added, none unknown |
| SectorValuation.AsWrittenFailsOnlyWhenEmpty | src/tool_kits/sector_index.py:197-203 | the written tool agrees with the corrected one whenever it answers, and raises exactly when the corrected one returns an empty table for a non-empty index list |
| SectorValuation.AsWrittenRaisesWithoutData | src/tool_kits/sector_index.py:147-203 | a concrete case: one index whose requests all return nothing makes the written tool raise |
| SectorProfit.ReportPeriod | src/tool_kits/sector_index.py:314-322 | a quarter end 4 to 6 months before the trade month: previous-year Q3 for Jan–Mar, previous-year Q4 for Apr–Jun, Q1 for Jul–Sep, Q2 for Oct–Dec |
| SectorProfit.ReportPeriodUnique | src/tool_kits/sector_index.py:314-322 | the quarter end chosen is the only quarter end 4 to 6 months back |
| SectorProfit.MarketCapWeight | src/tool_kits/sector_index.py:287-307 | always positive; the market cap when it is present and positive, 1.0 otherwise (no row, NaN, non-positive, or a failed request) |
| SectorProfit.ChooseGrowth | src/tool_kits/sector_index.py:346-356 | the deducted growth when present, the plain growth as flagged fallback, nothing when both are NaN |
| SectorProfit.MemberOutcome | src/tool_kits/sector_index.py:333-371 | the fallback flag is set iff the plain growth was chosen; a contribution iff a finite rate with abs(rate) ≤ 1000 was chosen, carrying the member's weight |
| SectorProfit.RejectedFallbackStillFlags | src/tool_kits/sector_index.py:349-362 | a concrete member whose fallback rate is rejected as out of range still sets the fallback flag |
| SectorProfit.DeductedGrowthPreferred | src/tool_kits/sector_index.py:347-348 | an in-range deducted growth is used, whatever the plain growth is, without the fallback flag |
| SectorProfit.TotalWeightPositive | src/tool_kits/sector_index.py:386 | positive weights sum to a positive total, so the division is defined |
| SectorProfit.WeightedMean | src/tool_kits/sector_index.py:386-387 | Σ g·w / Σ w over the valid members lies between their smallest and largest rate |
| SectorProfit.MeanBetween | src/tool_kits/sector_index.py:386-387 | the weighted mean lies between any lower and upper bound of the valid rates |
| SectorProfit.ComputeWeightedGrowth | src/tool_kits/sector_index.py:386-387 | the accumulating loop computes Σ g·w / Σ w |
| SectorProfit.MarketCapWeighted | src/tool_kits/sector_index.py:390 | market-cap weighting iff more than half of the valid members weigh more than 1.0 |
| SectorProfit.NoCapsMeansEqualWeight | src/tool_kits/sector_index.py:390 | when every weight is the 1.0 default, the flag is equal weight |
| SectorProfit.AllCapsMeansMarketCapWeight | src/tool_kits/sector_index.py:390 | when every weight exceeds 1.0, the flag is market-cap weight |
| SectorProfit.FallbackSuffixIffFallback | src/tool_kits/sector_index.py:390-392 | the flag ends with `_with_netprofit_fallback` iff some member used the plain growth |
| SectorProfit.MarketCapPrefixIffMarketCap | src/tool_kits/sector_index.py:390-392 | the flag starts with `used_market_cap_weight` iff the market-cap rule held |
| SectorProfit.Outcomes | src/tool_kits/sector_index.py:333-371 | one outcome per member, each from that member's weight and financial data for the report period |
| SectorProfit.Valid | src/tool_kits/sector_index.py:364-366 | exactly the contributions of the members that passed, one per passing member in member order (the present entries of the contribution column), so its length is the number of passing members |
| SectorProfit.ValidNonEmpty | src/tool_kits/sector_index.py:374 | the valid list is non-empty iff some member contributed |
| SectorProfit.ValidBounds | src/tool_kits/sector_index.py:359-366 | the valid contributions have positive weights and rates within [−1000, 1000] |
| SectorProfit.Aggregate | src/tool_kits/sector_index.py:374-405 | weighted iff some member contributed, else no valid data; fallback-flagged iff some member used the fallback; growth present iff weighted and within [−1000, 1000]; when weighted, the valid count is the number of passing members, the growth is Σ w·g / Σ w taken over every passing member and lies between their smallest and largest rate, and the market-cap flag holds iff more than half of them weigh more than 1.0; valid ≤ total |
| SectorProfit.ValidSums | src/tool_kits/sector_index.py:364-387 | the total weight and the weighted sum of the valid list equal the sums of weight and weight × rate over all passing members |
| SectorProfit.IndustryProfitGrowth | src/tool_kits/sector_index.py:236-416 | member API error iff the member request failed; no member data iff no members; processing error iff `strptime` rejects the trade date; otherwise exactly the aggregate of all members' outcomes for the report period of the parsed date |
| BroadIndex.StrictPercentile | src/tool_kits/broad_based_index.py:109-110 | within [0, 100], and strictly below 100 when the value occurs in the column |
| BroadIndex.ValueNotBelowItself | src/tool_kits/broad_based_index.py:100-110 | a value occurring in the column is not counted below itself |
| BroadIndex.MinimumIsZero | src/tool_kits/broad_based_index.py:109-110 | the column minimum has percentile 0 |
| BroadIndex.StrictPercentileMonotone | src/tool_kits/broad_based_index.py:109-110 | the percentile is non-decreasing in the value |
| BroadIndex.ValuationStatus | src/tool_kits/broad_based_index.py:113-118 | undervalued iff both percentiles < 20; overvalued iff both > 80; neutral iff neither holds |
| BroadIndex.OneMetricNeverDecides | src/tool_kits/broad_based_index.py:113-118 | one cheap metric with the other in the middle band is neutral, in either order |
| BroadIndex.Assess | src/tool_kits/broad_based_index.py:99-129 | the latest complete row's PE and PB, the strict-below percentile of each within its own column of the complete rows (both in [0, 100)), and the two-metric status |
| BroadIndex.AnalyzeRows | src/tool_kits/broad_based_index.py:86-131 | an analysis iff some row has both PE and PB; it reports the last complete row of the date-sorted rows, with PE and PB percentiles that are the strict-below shares within the PE and PB columns of the complete rows, and the two-metric status |
| BroadIndex.AnalyzedRowIsNewest | src/tool_kits/broad_based_index.py:90-102 | the analysed day is at least as late as every complete row |
| BroadIndex.AnalyzeRowsAsWritten | src/tool_kits/broad_based_index.py:104-106 | as written, an analysis only when the latest PE and PB both lie in [0, 100] |
| BroadIndex.AsWrittenDropsOutOfRange | src/tool_kits/broad_based_index.py:104-110 | the written analysis is the corrected one, dropped whenever the latest PE or PB lies outside [0, 100] |
| BroadIndex.AsWrittenSkipsHighPe | src/tool_kits/broad_based_index.py:105 | a concrete index with PE 120: the written script skips it, the corrected one reports it undervalued |
| BroadIndex.AnalyzeIndex | src/tool_kits/broad_based_index.py:50-131 | none iff some request of the ten-year plan raises or the gathered rows have no complete row; otherwise the analysis of the gathered rows, with its code and the two-metric status |
| BroadIndex.FailedRequestSkipsIndex | src/tool_kits/broad_based_index.py:134-136 | one raising request skips the whole index, whatever the other requests returned |
| BroadIndex.AnalyzeIndexAsWritten | src/tool_kits/broad_based_index.py:50-136 | the corrected analysis of the index when its PE and PB lie within [0, 100], and none otherwise; an answer is the written analysis of the gathered rows |
| BroadIndex.AnalyzeAll | src/tool_kits/broad_based_index.py:47-136 | the analyses are exactly the present results of analysing each index, one per analysable index in list order; every index that yields an analysis appears, and nothing else does |
| BroadIndex.IndexValuationAnalysis | src/tool_kits/broad_based_index.py:32-144 | the present analyses of the listed indices, in list order: every analysable index included, nothing else, each with the two-metric status |
| BroadIndex.IndexValuationAnalysisAsWritten | src/tool_kits/broad_based_index.py:32-144 | as written, the present as-written analyses of the listed indices in list order, so only indices whose latest PE and PB lie within [0, 100] are reported |

## Left out

- The Tushare API calls (`pro.*`), token loading, MCP registration, `time.sleep` throttling, `json.dumps`, CSV/JSON file output and printing. These are I/O. Fetched tables are inputs, and requests are function parameters whose failure is `None`.
- Sorting the fetched factor table by `trade_date` in the five tools. The tools' `rows` are taken as already date-sorted.
- The date window of each tool's request (the `YYYYMMDD` integer subtraction, e.g. `tech_ext.py:304`). The fetched table is an input.
- The single-object versus list shape of the trend tool's JSON output. It is serialisation.
- The tools' outer `except Exception` paths, other than the volatility `TypeError`. No other modelled step raises.
- `ts_code` echoed into each record. It is copied through unchanged.
- numpy's interpolating `np.percentile` in the valuation tool. It is the parameter `ValuationMetrics.Quantile`; its p30/p70 values are used as returned.
- ValuationMetrics.PeStatusAt: the ensures relate the label to whatever the `Quantile` parameter returns, not to numpy's interpolation rule.
- IEEE floating point. Values are Dafny reals and NaN is `None`, except for the Bollinger width with a zero mid, modelled by the sign of the numerator.
- SectorValuation.EvaluateIndex: `pe_latest`/`pb_latest` are not rounded to 2 decimals. The percentiles are `int(...)` of an integer already.
- SectorValuation.EvaluateSectorValuation: the order inside a status group is not promised, because pandas' default `sort_values` is not a stable sort. The contract states the grouping and the permutation only.
- SectorProfit.IndustryProfitGrowth: the weighted growth is not rounded to 2 decimals.
- SectorProfit.IndustryProfitGrowth: the industry name comes from a lookup that may fail silently. It is a parameter.
- SectorProfit.IndustryProfitGrowth: an exception while fetching one member's financial data is modelled as that member being skipped (`FinaError`), as the source does. Other exceptions are modelled only for an unparseable trade date.
- The counters of skipped members in `get_industry_profit_growth`. They are only printed.
- Calendar.Format: the year is always zero-padded to four digits. Some C libraries print `%Y` for years below 1000 without padding, which is not modelled.
- `SectorProfit.ReportPeriod` produces a (year, quarter) pair. Rendering it as a `YYYYMMDD` string is not modelled, and neither are years below 1000, for which Python would not zero-pad.
- `evaluate_all_industries_profit_growth`. It is a loop over the same per-industry function followed by a pandas sort by growth with NaN last, whose sort is not modelled.
- BroadIndex.Assess: the PE, PB and percentiles are not rounded (2 and 1 decimals in the output).
- BroadIndex.AnalyzeRows: when two complete rows share the greatest date, the model reports the later one in fetch order. `sort_values('trade_date')` at `broad_based_index.py:90` is not a stable sort, so pandas may place either of them last and report it.
- `server.py`, `comprehensive_analysis.py`, the example demo and the two exploratory test scripts. They are pass-throughs, pandas merges over network data, UI text, or live-API scripts.
- The dead `np.percentile(series, value)` results in `broad_based_index.py`. They are overwritten; only the exception they can raise is modelled (see Findings).
- Calendar.Parse: `\d` is read as the ASCII digits 0 to 9. Python's regular expressions also match other Unicode decimal digits there, and `int` converts them.
- SectorValuation.Percentile: the share is computed exactly, then rounded half to even. Python divides in floating point first, so at an exact half the labels can differ: 23 of 40 values is 57.49999999999999 in Python, hence 57, and exactly 57.5, hence 58, here.
- Converting `YYYYMMDD` strings to day numbers for segmentation. `Segments` works on day numbers, with `Calendar.Ordinal` and `Calendar.OrdinalNextDay` connecting them.
- The default `datetime.now()` in `broad_based_index.py`. "Today" is a parameter.

## Findings

| source | as written | input that shows it | evidently intended | confidence | as-written member | corrected member |
|---|---|---|---|---|---|---|
| src/tool_kits/sector_index.py:81 | `while current_start < end` stops before a final segment that is the single day `end` | start day 0, end day 366: segment [0, 365], then the start 366 equals the end and the loop stops; the script's default range (1826 days) is not affected (SectorDaily.DefaultRangeUnaffected) | request every day of [start, end], as `broad_based_index.py:57` does with `<=` | high, not executed | SectorDaily.IndexDailyDataAsWritten | SectorDaily.IndexDailyData |
| src/tushare_mcp_server/tech_ext.py:1351 | `"narrow_band" in bollinger_status` runs even when the Bollinger label is `None`, raising `TypeError`, so the whole profile becomes an error object | a day with NaN close but known ATR, mass and extremes | guard the test as lines 1344 and 1372 do, so a missing label is neither narrow nor wide | high, not executed | VolatilityProfile.GetVolatilityProfileAsWritten | VolatilityProfile.GetVolatilityProfile |
| src/tool_kits/sector_index.py:202 | reading `valuation_status` from `pd.DataFrame([])` raises `KeyError` when no index could be evaluated | one industry index whose every request returns an empty table | return an empty result table, as the empty index list already does at line 134 | high, not executed | SectorValuation.EvaluateSectorValuationAsWritten | SectorValuation.EvaluateSectorValuation |
| src/tool_kits/broad_based_index.py:105-106 | `np.percentile(series, current_value)` uses the PE or PB value as the percentile rank, so numpy raises `ValueError` for a value outside [0, 100] and the index is skipped | an index whose latest PE_TTM is 120 | the strict-less-than share of lines 109-110, which do not depend on that call | high, not executed | BroadIndex.AnalyzeRowsAsWritten | BroadIndex.AnalyzeRows |

=== FILE: base.dfy ===
/**
 * Values read from the fetched factor tables, and the rules Python applies to them.
 *
 * Every numeric cell of a table is an `Option<real>`: `None` stands for NaN
 * (a cell the data provider left empty). Python evaluates every ordered
 * comparison that involves NaN to `false`; `Lt`, `Le`, `Gt` and `Ge` below are
 * those comparisons, used wherever the source compares cells it has not first
 * checked with `pd.notna`.
 */
module Base {

  datatype Option<+T> = None | Some(value: T)

  /** The outcome of a tool: a report, or the error object the tool returns instead. */
  datatype Result<+T, +E> = Ok(value: T) | Err(error: E)

  predicate Lt(a: Option<real>, b: Option<real>) {
    a.Some? && b.Some? && a.value < b.value
  }

  predicate Le(a: Option<real>, b: Option<real>) {
    a.Some? && b.Some? && a.value <= b.value
  }

  predicate Gt(a: Option<real>, b: Option<real>) {
    Lt(b, a)
  }

  predicate Ge(a: Option<real>, b: Option<real>) {
    Le(b, a)
  }

  /** A cell scaled by a constant; NaN stays NaN. */
  function Times(a: Option<real>, k: real): Option<real> {
    if a.Some? then Some(a.value * k) else None
  }

  function Abs(x: real): real {
    if x < 0.0 then -x else x
  }

  function Min(a: int, b: int): int {
    if a <= b then a else b
  }

  /** Number of elements of `s` that satisfy `p`. */
  function Count<T>(s: seq<T>, p: T -> bool): (n: nat)
    ensures n <= |s|
  {
    if |s| == 0 then 0 else (if p(s[0]) then 1 else 0) + Count(s[1..], p)
  }

  /** The elements of `s` that satisfy `p`, in their original order. */
  function Filter<T>(s: seq<T>, p: T -> bool): (r: seq<T>)
    ensures |r| == Count(s, p)
    ensures forall i :: 0 <= i < |r| ==> p(r[i])
    ensures multiset(r) <= multiset(s)
  {
    if |s| == 0 then []
    else
      assert s == [s[0]] + s[1..];
      (if p(s[0]) then [s[0]] else []) + Filter(s[1..], p)
  }

  /** Every element that satisfies `p` is kept. */
  lemma {:induction false} FilterKeeps<T>(s: seq<T>, p: T -> bool, i: int)
    requires 0 <= i < |s| && p(s[i])
    ensures s[i] in Filter(s, p)
  {
    if i > 0 {
      FilterKeeps(s[1..], p, i - 1);
    }
  }

  /** Every kept element comes from `s`. */
  lemma FilterFrom<T>(s: seq<T>, p: T -> bool, k: int)
    requires 0 <= k < |Filter(s, p)|
    ensures Filter(s, p)[k] in s
  {
    var r := Filter(s, p);
    assert r[k] in multiset(r);
    assert r[k] in multiset(s);
  }

  /** No element of `s` after index `k` satisfies `p`. */
  predicate NoneAfter<T>(s: seq<T>, k: int, p: T -> bool) {
    forall j :: 0 <= j < |s| && k < j ==> !p(s[j])
  }

  /** The last kept element sits at an index of `s` after which nothing satisfies `p`. */
  lemma {:induction false} FilterLast<T>(s: seq<T>, p: T -> bool)
    requires |Filter(s, p)| > 0
    ensures exists k :: 0 <= k < |s| && s[k] == Filter(s, p)[|Filter(s, p)| - 1] && NoneAfter(s, k, p)
  {
    var rest := Filter(s[1..], p);
    if |rest| > 0 {
      FilterLast(s[1..], p);
      var k :| 0 <= k < |s[1..]| && s[1..][k] == rest[|rest| - 1] && NoneAfter(s[1..], k, p);
      assert s[k + 1] == Filter(s, p)[|Filter(s, p)| - 1];
      forall j | k + 1 < j < |s|
        ensures !p(s[j])
      {
        assert s[j] == s[1..][j - 1];
      }
      assert NoneAfter(s, k + 1, p);
    } else {
      forall j | 0 < j < |s|
        ensures !p(s[j])
      {
        if p(s[j]) {
          FilterKeeps(s[1..], p, j - 1);
        }
      }
      assert NoneAfter(s, 0, p);
    }
  }

  /** The present values of `s`, in order: what a loop that skips the missing ones collects. */
  function Somes<T(!new)>(s: seq<Option<T>>): (r: seq<T>)
    ensures |r| <= |s|
    ensures forall x :: x in r <==> Some(x) in s
  {
    if |s| == 0 then []
    else
      assert s == [s[0]] + s[1..];
      (if s[0].Some? then [s[0].value] else []) + Somes(s[1..])
  }

  /** The kept elements are exactly the elements of `s` that satisfy `p`. */
  lemma FilterMembers<T>(s: seq<T>, p: T -> bool)
    ensures forall x :: x in Filter(s, p) <==> x in s && p(x)
  {
    forall x | x in s && p(x)
      ensures x in Filter(s, p)
    {
      var i :| 0 <= i < |s| && s[i] == x;
      FilterKeeps(s, p, i);
    }
    forall x | x in Filter(s, p)
      ensures x in s && p(x)
    {
      var k :| 0 <= k < |Filter(s, p)| && Filter(s, p)[k] == x;
      FilterFrom(s, p, k);
    }
  }

  lemma MultisetCons<T>(s: seq<T>)
    requires |s| > 0
    ensures multiset(s) == multiset{s[0]} + multiset(s[1..])
  {
    assert s == [s[0]] + s[1..];
  }

  /** Sequences with the same elements hold each other's elements. */
  lemma SameElements<T>(a: seq<T>, b: seq<T>, i: int)
    requires multiset(a) == multiset(b) && 0 <= i < |a|
    ensures exists j :: 0 <= j < |b| && b[j] == a[i]
  {
    assert a[i] in multiset(a);
    assert a[i] in b;
  }

  /** The present (non-NaN) values of a column. */
  function Present(s: seq<Option<real>>): (r: seq<real>)
    ensures |r| <= |s|
    ensures forall i :: 0 <= i < |s| && s[i].Some? ==> s[i].value in r
    ensures forall x :: x in r ==> Some(x) in s
  {
    if |s| == 0 then []
    else (if s[0].Some? then [s[0].value] else []) + Present(s[1..])
  }

  function Sum(s: seq<real>): real {
    if |s| == 0 then 0.0 else s[0] + Sum(s[1..])
  }

  lemma {:induction false} CountAppend<T>(a: seq<T>, b: seq<T>, p: T -> bool)
    ensures Count(a + b, p) == Count(a, p) + Count(b, p)
  {
    if |a| == 0 {
      assert a + b == b;
    } else {
      assert (a + b)[1..] == a[1..] + b;
      CountAppend(a[1..], b, p);
    }
  }

  /** Counting is monotone in the predicate. */
  lemma {:induction false} CountMonotone<T>(s: seq<T>, p: T -> bool, q: T -> bool)
    requires forall i :: 0 <= i < |s| && p(s[i]) ==> q(s[i])
    ensures Count(s, p) <= Count(s, q)
  {
    if |s| > 0 {
      assert forall i :: 0 <= i < |s[1..]| ==> s[1..][i] == s[i + 1];
      CountMonotone(s[1..], p, q);
    }
  }

  /** An element that fails `p` keeps the count strictly below the length. */
  lemma {:induction false} CountBelowLength<T>(s: seq<T>, p: T -> bool, k: int)
    requires 0 <= k < |s| && !p(s[k])
    ensures Count(s, p) < |s|
  {
    if k > 0 {
      CountBelowLength(s[1..], p, k - 1);
    }
  }

  /** An element that satisfies `p` makes the count positive. */
  lemma {:induction false} CountPositive<T>(s: seq<T>, p: T -> bool, k: int)
    requires 0 <= k < |s| && p(s[k])
    ensures Count(s, p) > 0
  {
    if k > 0 {
      CountPositive(s[1..], p, k - 1);
    }
  }

  /** The count is the length exactly when every element satisfies `p`. */
  lemma {:induction false} CountAll<T>(s: seq<T>, p: T -> bool)
    requires forall i :: 0 <= i < |s| ==> p(s[i])
    ensures Count(s, p) == |s|
  {
    if |s| > 0 {
      assert forall i :: 0 <= i < |s[1..]| ==> s[1..][i] == s[i + 1];
      CountAll(s[1..], p);
    }
  }

  /** A pointwise-stronger predicate that misses one element counts strictly fewer. */
  lemma {:induction false} CountStrictlyMonotone<T>(s: seq<T>, p: T -> bool, q: T -> bool, k: int)
    requires forall i :: 0 <= i < |s| && p(s[i]) ==> q(s[i])
    requires 0 <= k < |s| && q(s[k]) && !p(s[k])
    ensures Count(s, p) < Count(s, q)
  {
    assert forall i :: 0 <= i < |s[1..]| ==> s[1..][i] == s[i + 1];
    if k == 0 {
      CountMonotone(s[1..], p, q);
    } else {
      CountStrictlyMonotone(s[1..], p, q, k - 1);
    }
  }

  // ---------------------------------------------------------------- shares

  /** 100 times `part / whole`: a percentage, which lies between 0 and 100 when the part is at most the whole. */
  function Share(part: nat, whole: nat): (r: real)
    requires 0 < whole
    ensures part <= whole ==> 0.0 <= r <= 100.0
    ensures part == whole ==> r == 100.0
    ensures part < whole ==> r < 100.0
  {
    ShareBounds(part as real, whole as real);
    100.0 * (part as real) / (whole as real)
  }

  lemma ShareBounds(a: real, b: real)
    requires 0.0 <= a && 0.0 < b
    ensures 0.0 <= 100.0 * a / b
    ensures a <= b ==> 100.0 * a / b <= 100.0
    ensures a == b ==> 100.0 * a / b == 100.0
    ensures a < b ==> 100.0 * a / b < 100.0
  {
    DivMono(0.0, 100.0 * a, b);
    assert 100.0 * b / b == 100.0;
    if a <= b {
      DivMono(100.0 * a, 100.0 * b, b);
    }
    if a < b {
      DivStrict(100.0 * a, 100.0 * b, b);
    }
  }

  /** Dividing by a positive number keeps the order. */
  lemma DivMono(x: real, y: real, c: real)
    requires x <= y && c > 0.0
    ensures x / c <= y / c
  {
  }

  lemma DivStrict(x: real, y: real, c: real)
    requires x < y && c > 0.0
    ensures x / c < y / c
  {
  }

  /** A larger part is a larger share of the same whole. */
  lemma ShareMonotone(a: nat, b: nat, whole: nat)
    requires a <= b && 0 < whole
    ensures Share(a, whole) <= Share(b, whole)
  {
    DivMono(100.0 * (a as real), 100.0 * (b as real), whole as real);
  }
}

=== FILE: broad.dfy ===
/**
 * `get_index_valuation_analysis`: six broad A-share indices judged by where
 * their latest PE (TTM) and PB stand within the last ten years. An index is
 * undervalued only when both stand in the bottom fifth, overvalued only when
 * both stand in the top fifth, and neutral otherwise.
 *
 * Days are day numbers (`Calendar.Ordinal`); the clock reading `datetime.now()`
 * is the parameter `today`, and the data service is the parameter `fetch`,
 * which answers None when a request raises.
 */
module BroadIndex {
  import opened Base
  import opened IndexTable
  import Segments

  datatype Status = Undervalued | Overvalued | Neutral
  {
    function Name(): string {
      match this
      case Undervalued => "低估"
      case Overvalued => "高估"
      case Neutral => "中性"
    }
  }

  datatype IndexInfo = IndexInfo(code: string, name: string)

  /** The indices analysed, in the order they are reported. */
  const Indices: seq<IndexInfo> := [
    IndexInfo("000001.SH", "上证综指"),
    IndexInfo("399001.SZ", "深证成指"),
    IndexInfo("000016.SH", "上证50"),
    IndexInfo("000905.SH", "中证500"),
    IndexInfo("399005.SZ", "中小板指"),
    IndexInfo("399006.SZ", "创业板指")]

  /** Ten years back, as `timedelta(days=365*10)`. */
  const Lookback: int := 3650

  // ---------------------------------------------------------------- percentile and status

  function Below(v: real): Option<real> -> bool {
    (x: Option<real>) => Lt(x, Some(v))
  }

  /** `(column < v).mean() * 100`: the percentage of the column strictly below `v`. */
  function StrictPercentile(column: seq<Option<real>>, v: real): (p: real)
    requires |column| > 0
    ensures 0.0 <= p <= 100.0
    ensures (exists i :: 0 <= i < |column| && column[i] == Some(v)) ==> p < 100.0
  {
    ValueNotBelowItself(column, v);
    Share(Count(column, Below(v)), |column|)
  }

  lemma ValueNotBelowItself(column: seq<Option<real>>, v: real)
    ensures (exists i :: 0 <= i < |column| && column[i] == Some(v)) ==> Count(column, Below(v)) < |column|
  {
    if exists i :: 0 <= i < |column| && column[i] == Some(v) {
      var i :| 0 <= i < |column| && column[i] == Some(v);
      CountBelowLength(column, Below(v), i);
    }
  }

  /** A value at most every value of the column is at the 0th percentile. */
  lemma MinimumIsZero(column: seq<Option<real>>, v: real)
    requires |column| > 0
    requires forall i :: 0 <= i < |column| ==> column[i].Some? && v <= column[i].value
    ensures StrictPercentile(column, v) == 0.0
  {
    NothingBelow(column, v);
  }

  lemma {:induction false} NothingBelow(column: seq<Option<real>>, v: real)
    requires forall i :: 0 <= i < |column| ==> column[i].Some? && v <= column[i].value
    ensures Count(column, Below(v)) == 0
  {
    if |column| > 0 {
      assert forall i :: 0 <= i < |column[1..]| ==> column[1..][i] == column[i + 1];
      NothingBelow(column[1..], v);
    }
  }

  /** A larger value never stands lower in the same column. */
  lemma StrictPercentileMonotone(column: seq<Option<real>>, v: real, w: real)
    requires |column| > 0 && v <= w
    ensures StrictPercentile(column, v) <= StrictPercentile(column, w)
  {
    CountMonotone(column, Below(v), Below(w));
    ShareMonotone(Count(column, Below(v)), Count(column, Below(w)), |column|);
  }

  /** Both metrics in the bottom fifth, both in the top fifth, or neither. */
  function ValuationStatus(pePercentile: real, pbPercentile: real): (s: Status)
    ensures s == Undervalued <==> pePercentile < 20.0 && pbPercentile < 20.0
    ensures s == Overvalued <==> pePercentile > 80.0 && pbPercentile > 80.0
    ensures s == Neutral <==> !(pePercentile < 20.0 && pbPercentile < 20.0) && !(pePercentile > 80.0 && pbPercentile > 80.0)
  {
    if pePercentile < 20.0 && pbPercentile < 20.0 then Undervalued
    else if pePercentile > 80.0 && pbPercentile > 80.0 then Overvalued
    else Neutral
  }

  /** One cheap metric is not enough: with the other out of the bottom fifth the index is neutral, whatever the first. */
  lemma OneMetricNeverDecides(pePercentile: real, pbPercentile: real)
    requires pePercentile < 20.0 && 20.0 <= pbPercentile <= 80.0
    ensures ValuationStatus(pePercentile, pbPercentile) == Neutral
    ensures ValuationStatus(pbPercentile, pePercentile) == Neutral
  {
  }

  // ---------------------------------------------------------------- one index

  datatype Analysis = Analysis(
    code: string,
    name: string,
    date: int,
    pe: real,
    pb: real,
    pePercentile: real,
    pbPercentile: real,
    status: Status)

  /** The figures for `latest`, one of the complete rows `clean`, against all of them. */
  function Assess(info: IndexInfo, clean: seq<Day>, latest: Day): (a: Analysis)
    requires Complete(latest) && latest in clean
    ensures a.code == info.code && a.name == info.name && a.date == latest.date
    ensures Some(a.pe) == latest.pe && Some(a.pb) == latest.pb
    ensures 0.0 <= a.pePercentile < 100.0 && 0.0 <= a.pbPercentile < 100.0
    ensures a.pePercentile == StrictPercentile(PeColumn(clean), a.pe)
    ensures a.pbPercentile == StrictPercentile(PbColumn(clean), a.pb)
    ensures a.status == ValuationStatus(a.pePercentile, a.pbPercentile)
  {
    var k :| 0 <= k < |clean| && clean[k] == latest;
    assert PeColumn(clean)[k] == latest.pe && PbColumn(clean)[k] == latest.pb;
    var pe := StrictPercentile(PeColumn(clean), latest.pe.value);
    var pb := StrictPercentile(PbColumn(clean), latest.pb.value);
    Analysis(info.code, info.name, latest.date, latest.pe.value, latest.pb.value, pe, pb, ValuationStatus(pe, pb))
  }

  /**
   * The gathered rows of one index: sorted by date, rows lacking PE or PB
   * dropped, the last remaining row assessed. None when nothing is left,
   * which the script reports and skips.
   */
  function AnalyzeRows(info: IndexInfo, rows: seq<Day>): (r: Option<Analysis>)
    ensures r.Some? <==> exists i :: 0 <= i < |rows| && Complete(rows[i])
    ensures r.Some? ==> r.value.code == info.code
    ensures r.Some? ==> 0.0 <= r.value.pePercentile < 100.0 && 0.0 <= r.value.pbPercentile < 100.0
    ensures r.Some? ==> r.value.status == ValuationStatus(r.value.pePercentile, r.value.pbPercentile)
    ensures r.Some? ==> exists i :: 0 <= i < |rows| && rows[i].date == r.value.date && rows[i].pe == Some(r.value.pe) && rows[i].pb == Some(r.value.pb)
    ensures r.Some? ==>
      var clean := CompleteRows(SortByDate(rows));
      && r.value.name == info.name && Latest(SortByDate(rows)) == Some(Day(r.value.date, Some(r.value.pe), Some(r.value.pb)))
      && |clean| > 0
      && r.value.pePercentile == StrictPercentile(PeColumn(clean), r.value.pe)
      && r.value.pbPercentile == StrictPercentile(PbColumn(clean), r.value.pb)
  {
    var sorted := SortByDate(rows);
    match Latest(sorted)
    case None =>
      NoCompleteAfterSort(rows, sorted);
      None
    case Some(latest) =>
      CompleteSurvivesSort(rows, sorted, latest);
      Some(Assess(info, CompleteRows(sorted), latest))
  }

  lemma NoCompleteAfterSort(rows: seq<Day>, sorted: seq<Day>)
    requires multiset(rows) == multiset(sorted)
    requires forall j :: 0 <= j < |sorted| ==> !Complete(sorted[j])
    ensures forall i :: 0 <= i < |rows| ==> !Complete(rows[i])
  {
    forall i | 0 <= i < |rows|
      ensures !Complete(rows[i])
    {
      SameElements(rows, sorted, i);
    }
  }

  lemma CompleteSurvivesSort(rows: seq<Day>, sorted: seq<Day>, latest: Day)
    requires multiset(rows) == multiset(sorted)
    requires latest in sorted
    ensures exists i :: 0 <= i < |rows| && rows[i] == latest
  {
    var k :| 0 <= k < |sorted| && sorted[k] == latest;
    SameElements(sorted, rows, k);
  }

  /** The assessed row carries the latest date of every row that has both PE and PB. */
  lemma AnalyzedRowIsNewest(info: IndexInfo, rows: seq<Day>, i: nat)
    requires i < |rows| && Complete(rows[i])
    ensures AnalyzeRows(info, rows).Some?
    ensures rows[i].date <= AnalyzeRows(info, rows).value.date
  {
    var sorted := SortByDate(rows);
    SameElements(rows, sorted, i);
    var j :| 0 <= j < |sorted| && sorted[j] == rows[i];
    LatestHasMaxDate(sorted, j);
  }

  /** `np.percentile(column, q)` accepts only `q` between 0 and 100. */
  predicate PercentRange(q: real) {
    0.0 <= q <= 100.0
  }

  /**
   * As written: before the strict percentiles are taken, the latest PE and PB
   * are passed to `np.percentile` as the percentile to compute, which raises
   * outside [0, 100]; the handler then skips the index.
   */
  function AnalyzeRowsAsWritten(info: IndexInfo, rows: seq<Day>): (r: Option<Analysis>)
    ensures r.Some? ==> PercentRange(r.value.pe) && PercentRange(r.value.pb)
  {
    var sorted := SortByDate(rows);
    match Latest(sorted)
    case None => None
    case Some(latest) =>
      if !PercentRange(latest.pe.value) || !PercentRange(latest.pb.value) then None
      else
        Some(Assess(info, CompleteRows(sorted), latest))
  }

  /** The written analysis agrees with the corrected one except that it drops an index whose latest PE or PB lies outside [0, 100]. */
  lemma AsWrittenDropsOutOfRange(info: IndexInfo, rows: seq<Day>)
    ensures AnalyzeRowsAsWritten(info, rows) ==
      match AnalyzeRows(info, rows)
      case None => None
      case Some(a) => if PercentRange(a.pe) && PercentRange(a.pb) then Some(a) else None
  {
  }

  /** A growth index trading at 120 times earnings is analysed by the corrected version and silently skipped as written. */
  lemma AsWrittenSkipsHighPe()
    ensures var rows := [Day(20240102, Some(120.0), Some(4.0))];
      var info := Indices[5];
      && AnalyzeRowsAsWritten(info, rows).None?
      && AnalyzeRows(info, rows).Some?
      && AnalyzeRows(info, rows).value.status == Undervalued
  {
    var rows := [Day(20240102, Some(120.0), Some(4.0))];
    assert Complete(rows[0]);
    var sorted := SortByDate(rows);
    assert |sorted| == 1 && sorted[0] in multiset(rows);
    var clean := CompleteRows(sorted);
    assert clean == [rows[0]];
    MinimumIsZero(PeColumn(clean), 120.0);
    MinimumIsZero(PbColumn(clean), 4.0);
  }

  /**
   * One index over the ten years up to `today`, `request` answering for that
   * index: every yearly request must answer, since a request that raises
   * abandons the whole index.
   */
  function AnalyzeIndex(info: IndexInfo, today: int, request: Segments.Segment -> Option<seq<Day>>): (r: Option<Analysis>)
    ensures r.Some? ==> r.value.code == info.code
    ensures r.Some? ==> r.value.status == ValuationStatus(r.value.pePercentile, r.value.pbPercentile)
    ensures var gathered := Segments.GatherAll(Segments.Plan(today - Lookback, today), request);
      && (r.None? <==> gathered.None? || forall i :: 0 <= i < |gathered.value| ==> !Complete(gathered.value[i]))
      && (r.Some? ==> r == AnalyzeRows(info, gathered.value))
  {
    match Segments.GatherAll(Segments.Plan(today - Lookback, today), request)
    case None => None
    case Some(rows) => AnalyzeRows(info, rows)
  }

  /** A single request that raises skips the index, whatever the other requests returned. */
  lemma FailedRequestSkipsIndex(info: IndexInfo, today: int, request: Segments.Segment -> Option<seq<Day>>, i: int)
    requires var segs := Segments.Plan(today - Lookback, today);
      0 <= i < |segs| && request(segs[i]).None?
    ensures AnalyzeIndex(info, today, request).None?
  {
  }

  function AnalyzeIndexAsWritten(info: IndexInfo, today: int, request: Segments.Segment -> Option<seq<Day>>): (r: Option<Analysis>)
    ensures r.Some? ==> r.value.code == info.code
    ensures r.Some? ==> PercentRange(r.value.pe) && PercentRange(r.value.pb)
    ensures var gathered := Segments.GatherAll(Segments.Plan(today - Lookback, today), request);
      r.Some? ==> gathered.Some? && r == AnalyzeRowsAsWritten(info, gathered.value)
    ensures r == match AnalyzeIndex(info, today, request)
      case None => None
      case Some(a) => if PercentRange(a.pe) && PercentRange(a.pb) then Some(a) else None
  {
    match Segments.GatherAll(Segments.Plan(today - Lookback, today), request)
    case None => None
    case Some(rows) =>
      AsWrittenDropsOutOfRange(info, rows);
      AnalyzeRowsAsWritten(info, rows)
  }

  // ---------------------------------------------------------------- all indices

  /** Each listed index with its analysis, or None where the index is skipped. */
  function Analyses(infos: seq<IndexInfo>, analyze: IndexInfo -> Option<Analysis>): (r: seq<Option<Analysis>>)
    ensures |r| == |infos|
    ensures forall i :: 0 <= i < |infos| ==> r[i] == analyze(infos[i])
  {
    seq(|infos|, i requires 0 <= i < |infos| => analyze(infos[i]))
  }

  lemma AnalysesCons(infos: seq<IndexInfo>, analyze: IndexInfo -> Option<Analysis>)
    requires |infos| > 0
    ensures Somes(Analyses(infos, analyze)) ==
      (if analyze(infos[0]).Some? then [analyze(infos[0]).value] else []) + Somes(Analyses(infos[1..], analyze))
  {
    assert Analyses(infos, analyze)[1..] == Analyses(infos[1..], analyze);
  }

  /** The analyses of the indices that yield one: one entry per such index, in list order. */
  function AnalyzeAll(infos: seq<IndexInfo>, analyze: IndexInfo -> Option<Analysis>): (r: seq<Analysis>)
    ensures |r| <= |infos|
    ensures forall i :: 0 <= i < |infos| && analyze(infos[i]).Some? ==> analyze(infos[i]).value in r
    ensures forall a :: a in r ==> exists i :: 0 <= i < |infos| && analyze(infos[i]) == Some(a)
    ensures r == Somes(Analyses(infos, analyze))
  {
    if |infos| == 0 then []
    else
      var rest := AnalyzeAll(infos[1..], analyze);
      AnalysesCons(infos, analyze);
      assert forall i :: 1 <= i < |infos| ==> infos[i] == infos[1..][i - 1];
      match analyze(infos[0])
      case None => rest
      case Some(a) => [a] + rest
  }

  /** The requests of one index, given the data service for all of them. */
  function Analyze(today: int, fetch: (string, Segments.Segment) -> Option<seq<Day>>): IndexInfo -> Option<Analysis> {
    (info: IndexInfo) => AnalyzeIndex(info, today, Segments.Requests(info.code, fetch))
  }

  /** The report: one analysis per index that could be analysed, in the order of `Indices`, each labelled by the two-metric rule. */
  function IndexValuationAnalysis(today: int, fetch: (string, Segments.Segment) -> Option<seq<Day>>): (r: seq<Analysis>)
    ensures |r| <= |Indices|
    ensures r == Somes(Analyses(Indices, Analyze(today, fetch)))
    ensures forall i :: 0 <= i < |Indices| && Analyze(today, fetch)(Indices[i]).Some? ==> Analyze(today, fetch)(Indices[i]).value in r
    ensures forall a :: a in r ==> exists i :: 0 <= i < |Indices| && Analyze(today, fetch)(Indices[i]) == Some(a)
    ensures forall a :: a in r ==> a.status == ValuationStatus(a.pePercentile, a.pbPercentile)
  {
    AnalyzeAll(Indices, Analyze(today, fetch))
  }

  function AnalyzeAsWritten(today: int, fetch: (string, Segments.Segment) -> Option<seq<Day>>): IndexInfo -> Option<Analysis> {
    (info: IndexInfo) => AnalyzeIndexAsWritten(info, today, Segments.Requests(info.code, fetch))
  }

  /** The report as written: the same list, minus the indices whose latest PE or PB lies outside [0, 100]. */
  function IndexValuationAnalysisAsWritten(today: int, fetch: (string, Segments.Segment) -> Option<seq<Day>>): (r: seq<Analysis>)
    ensures |r| <= |Indices|
    ensures r == Somes(Analyses(Indices, AnalyzeAsWritten(today, fetch)))
    ensures forall i :: 0 <= i < |Indices| && AnalyzeAsWritten(today, fetch)(Indices[i]).Some? ==>
      AnalyzeAsWritten(today, fetch)(Indices[i]).value in r
    ensures forall a :: a in r ==> exists i :: 0 <= i < |Indices| && AnalyzeAsWritten(today, fetch)(Indices[i]) == Some(a)
    ensures forall a :: a in r ==> PercentRange(a.pe) && PercentRange(a.pb)
  {
    AnalyzeAll(Indices, AnalyzeAsWritten(today, fetch))
  }
}

=== FILE: calendar.dfy ===
/**
 * Proleptic Gregorian dates as Python's `datetime` represents them (years 1 to
 * 9999), the `%Y%m%d` texts the scripts parse with `strptime` and print with
 * `strftime`, and the day numbers `timedelta` arithmetic moves along.
 */
module Calendar {
  import opened Base

  datatype Date = Date(year: int, month: int, day: int)

  predicate IsLeap(y: int) {
    y % 4 == 0 && (y % 100 != 0 || y % 400 == 0)
  }

  function DaysInMonth(y: int, m: int): (n: int)
    requires 1 <= m <= 12
    ensures 28 <= n <= 31
    ensures n == 29 <==> m == 2 && IsLeap(y)
  {
    if m == 2 then (if IsLeap(y) then 29 else 28)
    else if m == 4 || m == 6 || m == 9 || m == 11 then 30
    else 31
  }

  /** The dates a `datetime` can hold. */
  predicate Valid(d: Date) {
    1 <= d.year <= 9999 && 1 <= d.month <= 12 && 1 <= d.day <= DaysInMonth(d.year, d.month)
  }

  /** The following calendar day; past 9999-12-31 the result is no longer `Valid`. */
  function NextDay(d: Date): (r: Date)
    requires Valid(d)
    ensures d.year < 9999 || d.month < 12 || d.day < 31 ==> Valid(r)
  {
    if d.day < DaysInMonth(d.year, d.month) then Date(d.year, d.month, d.day + 1)
    else if d.month < 12 then Date(d.year, d.month + 1, 1)
    else Date(d.year + 1, 1, 1)
  }

  /** The preceding calendar day; None before 0001-01-01, where `datetime` overflows. */
  function PrevDay(d: Date): (r: Option<Date>)
    requires Valid(d)
    ensures r.None? <==> d == Date(1, 1, 1)
    ensures r.Some? ==> Valid(r.value) && NextDay(r.value) == d
  {
    if d.day > 1 then Some(Date(d.year, d.month, d.day - 1))
    else if d.month > 1 then Some(Date(d.year, d.month - 1, DaysInMonth(d.year, d.month - 1)))
    else if d.year > 1 then Some(Date(d.year - 1, 12, 31))
    else None
  }

  // ---------------------------------------------------------------- day numbers

  function DaysBeforeYear(y: int): int
    requires y >= 1
  {
    var p := y - 1;
    p * 365 + p / 4 - p / 100 + p / 400
  }

  function DaysBeforeMonth(y: int, m: int): int
    requires 1 <= m <= 12
  {
    [0, 31, 59, 90, 120, 151, 181, 212, 243, 273, 304, 334][m - 1] + (if m > 2 && IsLeap(y) then 1 else 0)
  }

  /** The day number of a date, 0001-01-01 being day 1 (Python's `toordinal`). */
  function Ordinal(d: Date): int
    requires Valid(d)
  {
    DaysBeforeYear(d.year) + DaysBeforeMonth(d.year, d.month) + d.day
  }

  lemma DaysBeforeNextYear(y: int)
    requires y >= 1
    ensures DaysBeforeYear(y + 1) == DaysBeforeYear(y) + (if IsLeap(y) then 366 else 365)
  {
    var p := y - 1;
    assert (p + 1) / 4 == p / 4 + (if y % 4 == 0 then 1 else 0);
    assert (p + 1) / 100 == p / 100 + (if y % 100 == 0 then 1 else 0);
    assert (p + 1) / 400 == p / 400 + (if y % 400 == 0 then 1 else 0);
  }

  /** Adding one day with `timedelta(days=1)` moves the day number by exactly one. */
  lemma OrdinalNextDay(d: Date)
    requires Valid(d) && Valid(NextDay(d))
    ensures Ordinal(NextDay(d)) == Ordinal(d) + 1
  {
    if d.day == DaysInMonth(d.year, d.month) && d.month == 12 {
      DaysBeforeNextYear(d.year);
    }
  }

  // ---------------------------------------------------------------- YYYYMMDD

  predicate IsDigit(c: char) {
    '0' <= c <= '9'
  }

  predicate AllDigits(s: string) {
    forall i :: 0 <= i < |s| ==> IsDigit(s[i])
  }

  function Pow10(n: nat): (p: nat)
    ensures p >= 1
  {
    if n == 0 then 1 else 10 * Pow10(n - 1)
  }

  /** The number a string of decimal digits spells. */
  function Value(s: string): (v: nat)
    requires AllDigits(s)
    ensures v < Pow10(|s|)
  {
    if |s| == 0 then 0
    else Value(s[..|s| - 1]) * 10 + ((s[|s| - 1] as int) - ('0' as int))
  }

  /** The last `width` decimal digits of `n`, zero-padded on the left. */
  function Pad(n: nat, width: nat): (s: string)
    ensures |s| == width && AllDigits(s)
  {
    if width == 0 then "" else Pad(n / 10, width - 1) + [(('0' as int) + n % 10) as char]
  }

  lemma {:induction false} ValueOfPad(n: nat, width: nat)
    requires n < Pow10(width)
    ensures Value(Pad(n, width)) == n
  {
    if width > 0 {
      var s := Pad(n, width);
      assert s[..|s| - 1] == Pad(n / 10, width - 1);
      ValueOfPad(n / 10, width - 1);
    }
  }

  lemma {:induction false} PadOfValue(s: string)
    requires AllDigits(s)
    ensures Pad(Value(s), |s|) == s
  {
    if |s| > 0 {
      var init := s[..|s| - 1];
      PadOfValue(init);
      assert Value(s) / 10 == Value(init);
      assert s == init + [s[|s| - 1]];
    }
  }

  // `strptime(s, '%Y%m%d')` turns the format into the regular expression
  // `(\d\d\d\d)(1[0-2]|0[1-9]|[1-9])(3[0-1]|[1-2]\d|0[1-9]|[1-9]| [1-9])`,
  // matches it at the start of the text, raises unless the match consumed the whole
  // text, and raises again unless the three numbers form a date.

  /**
   * The widths of the month alternatives `1[0-2]`, `0[1-9]` and `[1-9]` that match
   * at the start of `s`, in the order the regular expression tries them.
   */
  function MonthWidths(s: string): (w: seq<nat>)
    ensures forall k :: 0 <= k < |w| ==> 1 <= w[k] <= 2 && w[k] <= |s| && AllDigits(s[..w[k]])
  {
    (if |s| >= 2 && s[0] == '1' && '0' <= s[1] <= '2' then [2] else [])
    + (if |s| >= 2 && s[0] == '0' && '1' <= s[1] <= '9' then [2] else [])
    + (if |s| >= 1 && '1' <= s[0] <= '9' then [1] else [])
  }

  /**
   * The width of the first day alternative, of `3[0-1]`, `[1-2]\d`, `0[1-9]`,
   * `[1-9]` and ` [1-9]`, that matches at the start of `s`.
   */
  function DayWidth(s: string): (w: Option<nat>)
    ensures w.Some? ==> 1 <= w.value <= 2 && w.value <= |s|
    ensures w.Some? ==> AllDigits(s[..w.value]) || (w.value == 2 && s[0] == ' ' && IsDigit(s[1]))
  {
    if |s| >= 2 && s[0] == '3' && '0' <= s[1] <= '1' then Some(2)
    else if |s| >= 2 && '1' <= s[0] <= '2' && IsDigit(s[1]) then Some(2)
    else if |s| >= 2 && s[0] == '0' && '1' <= s[1] <= '9' then Some(2)
    else if |s| >= 1 && '1' <= s[0] <= '9' then Some(1)
    else if |s| >= 2 && s[0] == ' ' && '1' <= s[1] <= '9' then Some(2)
    else None
  }

  /** The number a matched day spells; `int` ignores the leading blank of ` [1-9]`. */
  function DayValue(t: string): nat
    requires AllDigits(t) || (|t| == 2 && t[0] == ' ' && IsDigit(t[1]))
  {
    if |t| > 0 && t[0] == ' ' then Value(t[1..]) else Value(t)
  }

  /**
   * Backtracking over the month alternatives: the first one after which some day
   * alternative matches, with that day's width. Nothing follows the day in the
   * pattern, so the first day alternative that matches ends the search.
   */
  function FirstMatch(widths: seq<nat>, s: string): (r: Option<(nat, nat)>)
    requires forall k :: 0 <= k < |widths| ==> widths[k] <= |s|
    ensures r.Some? ==> r.value.0 in widths && DayWidth(s[r.value.0..]) == Some(r.value.1)
    ensures r.None? <==> forall k :: 0 <= k < |widths| ==> DayWidth(s[widths[k]..]).None?
  {
    if |widths| == 0 then None
    else
      match DayWidth(s[widths[0]..])
      case Some(dw) => Some((widths[0], dw))
      case None =>
        assert forall k :: 1 <= k < |widths| ==> widths[k] == widths[1..][k - 1];
        FirstMatch(widths[1..], s)
  }

  /**
   * `datetime.strptime(s, '%Y%m%d')`: None where it raises. Besides the eight-digit
   * form it accepts a one-digit month or day, and a blank before a one-digit day,
   * whenever the backtracking match happens to consume the whole text.
   */
  function Parse(s: string): (r: Option<Date>)
    ensures r.Some? ==> Valid(r.value)
    ensures r.Some? ==> 6 <= |s| <= 8 && AllDigits(s[..4]) && r.value.year == Value(s[..4])
  {
    if |s| < 4 || !AllDigits(s[..4]) then None
    else
      var rest := s[4..];
      match FirstMatch(MonthWidths(rest), rest)
      case None => None
      case Some((mw, dw)) =>
        if 4 + mw + dw != |s| then None
        else
          var d := Date(Value(s[..4]), Value(rest[..mw]), DayValue(rest[mw..]));
          if Valid(d) then Some(d) else None
  }

  /** `strftime('%Y%m%d')`: year, month and day zero-padded to 4, 2 and 2 digits. */
  function Format(d: Date): (s: string)
    requires Valid(d)
    ensures |s| == 8 && AllDigits(s)
  {
    Pad(d.year, 4) + Pad(d.month, 2) + Pad(d.day, 2)
  }

  /** Printing a date and reading it back gives the same date. */
  lemma ParseFormat(d: Date)
    requires Valid(d)
    ensures Parse(Format(d)) == Some(d)
  {
    var s := Format(d);
    assert s[..4] == Pad(d.year, 4);
    assert s[4..6] == Pad(d.month, 2);
    assert s[6..] == Pad(d.day, 2);
    ValueOfPad(d.year, 4);
    ValueOfPad(d.month, 2);
    ValueOfPad(d.day, 2);
    ParseEightDigits(s);
  }

  lemma TwoDigits(t: string)
    requires |t| == 2 && AllDigits(t)
    ensures Value(t) == 10 * ((t[0] as int) - ('0' as int)) + ((t[1] as int) - ('0' as int))
  {
    assert t[..1][..0] == [];
  }

  /** On eight digits, `strptime` reads four, two and two of them, and succeeds iff they form a date. */
  lemma ParseEightDigits(s: string)
    requires |s| == 8 && AllDigits(s)
    ensures var d := Date(Value(s[..4]), Value(s[4..6]), Value(s[6..]));
      (Parse(s).Some? <==> Valid(d)) && (Parse(s).Some? ==> Parse(s).value == d)
  {
    var rest := s[4..];
    assert rest[..2] == s[4..6] && rest[2..] == s[6..];
    TwoDigits(s[4..6]);
    TwoDigits(s[6..]);
    var d := Date(Value(s[..4]), Value(s[4..6]), Value(s[6..]));
    var widths := MonthWidths(rest);
    if Valid(d) {
      assert widths[0] == 2;
      assert DayWidth(rest[2..]) == Some(2);
      assert FirstMatch(widths, rest) == Some((2, 2));
    }
    match FirstMatch(widths, rest)
    case None =>
    case Some((mw, dw)) =>
      if 4 + mw + dw == |s| {
        assert mw == 2 && dw == 2;
        assert DayWidth(rest[2..]) == Some(2);
        assert rest[0] == '1' || rest[0] == '0';
      }
  }

  /** A text that parses prints back unchanged exactly when it is the eight-digit form. */
  lemma FormatParse(s: string)
    requires Parse(s).Some?
    ensures Format(Parse(s).value) == s <==> |s| == 8 && AllDigits(s)
  {
    if |s| == 8 && AllDigits(s) {
      ParseEightDigits(s);
      assert s == s[..4] + s[4..6] + s[6..];
      PadOfValue(s[..4]);
      PadOfValue(s[4..6]);
      PadOfValue(s[6..]);
    }
  }

  lemma ValueOf2025()
    ensures Value("2025") == 2025
  {
    assert "2025"[..3] == "202" && "202"[..2] == "20" && "20"[..1] == "2" && "2"[..0] == "";
  }

  /** A one-digit day after a two-digit month: "2025111" is 1 November 2025. */
  lemma ParseOneDigitDay()
    ensures Parse("2025111") == Some(Date(2025, 11, 1))
  {
    ValueOf2025();
    var s := "2025111";
    assert s[..4] == "2025" && s[4..] == "111";
    assert MonthWidths("111") == [2, 1];
    assert "111"[2..] == "1" && DayWidth("1") == Some(1);
    assert "111"[..2] == "11" && "11"[..1] == "1" && "1"[..0] == "";
  }

  /** Two digits after the year: the month gives one back to the day, so "202511" is 1 January 2025. */
  lemma ParseOneDigitMonthAndDay()
    ensures Parse("202511") == Some(Date(2025, 1, 1))
  {
    ValueOf2025();
    var s := "202511";
    assert s[..4] == "2025" && s[4..] == "11";
    assert MonthWidths("11") == [2, 1];
    assert "11"[2..] == "" && DayWidth("").None?;
    assert "11"[1..] == "1" && DayWidth("1") == Some(1);
    assert "11"[..1] == "1" && "1"[..0] == "";
  }

  /** The month backtracks to one digit when no day follows two: "2025110" is 10 January 2025. */
  lemma ParseBacktracksMonth()
    ensures Parse("2025110") == Some(Date(2025, 1, 10))
  {
    ValueOf2025();
    var s := "2025110";
    assert s[..4] == "2025" && s[4..] == "110";
    assert MonthWidths("110") == [2, 1];
    assert "110"[2..] == "0" && DayWidth("0").None?;
    assert "110"[1..] == "10" && DayWidth("10") == Some(2);
    assert "110"[..1] == "1" && "1"[..0] == "";
    assert "10"[..1] == "1";
  }

  /** A blank before a one-digit day is accepted: "202511 1" is 1 November 2025. */
  lemma ParseBlankDay()
    ensures Parse("202511 1") == Some(Date(2025, 11, 1))
  {
    ValueOf2025();
    var s := "202511 1";
    assert s[..4] == "2025" && s[4..] == "11 1";
    assert MonthWidths("11 1") == [2, 1];
    assert "11 1"[2..] == " 1" && DayWidth(" 1") == Some(2);
    assert "11 1"[..2] == "11" && "11"[..1] == "1" && "1"[..0] == "";
    assert " 1"[1..] == "1";
  }

  lemma PadYear2025()
    ensures Pad(2025, 4) == "2025"
  {
    assert Pad(0, 0) == "" && Pad(2, 1) == "2" && Pad(20, 2) == "20" && Pad(202, 3) == "202";
  }

  lemma PadTwoDigits(n: nat)
    requires n < 100
    ensures Pad(n, 2) == [(('0' as int) + n / 10) as char, (('0' as int) + n % 10) as char]
  {
    assert Pad(n / 10 / 10, 0) == "";
    assert n / 10 % 10 == n / 10;
  }

  lemma FormatOctober2025()
    ensures Format(Date(2025, 10, 1)) == "20251001"
    ensures Format(Date(2025, 10, 31)) == "20251031"
  {
    PadYear2025();
    PadTwoDigits(10);
    PadTwoDigits(1);
    PadTwoDigits(31);
  }

  /** `get_last_month_dates("2025111")` reports October 2025. */
  lemma LastMonthOfOneDigitDay()
    ensures LastMonthDates("2025111") == Some(("20251001", "20251031"))
  {
    ParseOneDigitDay();
    assert PreviousMonth(Date(2025, 11, 1)) == Some((Date(2025, 10, 1), Date(2025, 10, 31)));
    FormatOctober2025();
  }

  /** A match that leaves text over raises, without trying other alternatives: "20251310". */
  lemma ParseRejectsLeftover()
    ensures Parse("20251310").None?
  {
    var s := "20251310";
    assert s[..4] == "2025" && s[4..] == "1310";
    assert MonthWidths("1310") == [1];
    assert "1310"[1..] == "310" && DayWidth("310") == Some(2);
  }

  // ---------------------------------------------------------------- previous month

  /**
   * The first and last day of the month before the one holding `d`: the last one
   * is the day before the first of `d`'s month. None in January of year 1, where
   * that subtraction overflows.
   */
  function PreviousMonth(d: Date): (r: Option<(Date, Date)>)
    requires Valid(d)
    ensures r.None? <==> d.year == 1 && d.month == 1
    ensures r.Some? ==> Valid(r.value.0) && Valid(r.value.1)
  {
    match PrevDay(Date(d.year, d.month, 1))
    case None => None
    case Some(last) => Some((Date(last.year, last.month, 1), last))
  }

  /** The two dates span exactly one whole calendar month, the one ending the day before `d`'s month begins. */
  lemma PreviousMonthIsWholeMonth(d: Date)
    requires Valid(d) && PreviousMonth(d).Some?
    ensures var (first, last) := PreviousMonth(d).value;
      && first.year == last.year && first.month == last.month
      && first.day == 1 && last.day == DaysInMonth(last.year, last.month)
      && NextDay(last) == Date(d.year, d.month, 1)
      && Ordinal(first) <= Ordinal(last)
      && (if d.month == 1 then last.year == d.year - 1 && last.month == 12 else last.year == d.year && last.month == d.month - 1)
  {
  }

  /** `get_last_month_dates`: the previous month's first and last day as `YYYYMMDD`, None on any failure. */
  function LastMonthDates(tradeDate: string): (r: Option<(string, string)>)
    ensures r.None? <==> Parse(tradeDate).None? || (Parse(tradeDate).value.year == 1 && Parse(tradeDate).value.month == 1)
    ensures r.Some? ==> Parse(r.value.0).Some? && Parse(r.value.1).Some?
  {
    match Parse(tradeDate)
    case None => None
    case Some(d) =>
      match PreviousMonth(d)
      case None => None
      case Some((first, last)) =>
        ParseFormat(first);
        ParseFormat(last);
        Some((Format(first), Format(last)))
  }

  /** Reading back the two strings gives the previous month's first and last day. */
  lemma LastMonthDatesReadBack(tradeDate: string)
    requires LastMonthDates(tradeDate).Some?
    ensures var d := Parse(tradeDate).value;
      var (start, end) := LastMonthDates(tradeDate).value;
      && PreviousMonth(d).Some?
      && Parse(start) == Some(PreviousMonth(d).value.0)
      && Parse(end) == Some(PreviousMonth(d).value.1)
      && StringLe(start, end)
  {
    var d := Parse(tradeDate).value;
    var (first, last) := PreviousMonth(d).value;
    ParseFormat(first);
    ParseFormat(last);
    PreviousMonthIsWholeMonth(d);
    FormatOrderWithinMonth(first, last);
  }

  /** Two days of one month print in the order of their days. */
  lemma FormatOrderWithinMonth(first: Date, last: Date)
    requires Valid(first) && Valid(last)
    requires first.year == last.year && first.month == last.month && first.day <= last.day
    ensures StringLe(Format(first), Format(last))
  {
    var start, end := Format(first), Format(last);
    assert start[..6] == end[..6] by {
      assert start[..4] == Pad(first.year, 4) == end[..4];
      assert start[4..6] == Pad(first.month, 2) == end[4..6];
    }
    assert start[6..] == Pad(first.day, 2) && end[6..] == Pad(last.day, 2);
    PaddedOrder(first.day, last.day);
    StringLeSharedPrefix(start, end, 6);
  }

  /** Lexicographic `<=` on strings, as Python compares them. */
  predicate StringLe(a: string, b: string) {
    |a| == 0 || (|b| > 0 && (a[0] < b[0] || (a[0] == b[0] && StringLe(a[1..], b[1..]))))
  }

  lemma PaddedOrder(m: nat, n: nat)
    requires m <= n < 100
    ensures StringLe(Pad(m, 2), Pad(n, 2))
  {
    var a, b := Pad(m, 2), Pad(n, 2);
    assert Pad(m / 10, 1) == [(('0' as int) + m / 10) as char];
    assert Pad(n / 10, 1) == [(('0' as int) + n / 10) as char];
    assert a[0] as int == '0' as int + m / 10 && b[0] as int == '0' as int + n / 10;
    assert a[1] as int == '0' as int + m % 10 && b[1] as int == '0' as int + n % 10;
    assert a[1..][1..] == [];
  }

  lemma {:induction false} StringLeSharedPrefix(a: string, b: string, k: nat)
    requires k <= |a| && k <= |b| && a[..k] == b[..k] && StringLe(a[k..], b[k..])
    ensures StringLe(a, b)
  {
    if k > 0 {
      assert a[1..][..k - 1] == a[1..k] == b[1..k] == b[1..][..k - 1];
      assert a[1..][k - 1..] == a[k..] && b[1..][k - 1..] == b[k..];
      StringLeSharedPrefix(a[1..], b[1..], k - 1);
      assert a[0] == a[..k][0];
    }
  }
}

=== FILE: indextable.dfy ===
/**
 * The daily valuation series of an index (`trade_date`, PE, PB) and the pandas
 * steps the index scripts apply to it: sorting by date, dropping repeated
 * dates, dropping incomplete rows and taking the latest remaining row.
 */
module IndexTable {
  import opened Base

  /**
   * One trading day of an index. `date` is the `YYYYMMDD` string read as a
   * number: for eight-digit strings the two orders agree.
   */
  datatype Day = Day(date: int, pe: Option<real>, pb: Option<real>)

  predicate Sorted(rows: seq<Day>) {
    forall i, j :: 0 <= i < j < |rows| ==> rows[i].date <= rows[j].date
  }

  predicate StrictlySorted(rows: seq<Day>) {
    forall i, j :: 0 <= i < j < |rows| ==> rows[i].date < rows[j].date
  }

  /** The dates a table holds. */
  function DateSet(rows: seq<Day>): set<int> {
    if |rows| == 0 then {} else {rows[0].date} + DateSet(rows[1..])
  }

  /** No date occurs twice. */
  predicate UniqueDates(rows: seq<Day>) {
    |rows| == 0 || (rows[0].date !in DateSet(rows[1..]) && UniqueDates(rows[1..]))
  }

  /** Every row is dated no earlier than `d`. */
  predicate From(rows: seq<Day>, d: int) {
    forall i :: 0 <= i < |rows| ==> d <= rows[i].date
  }

  /** `x` placed before the first row dated no earlier than it. */
  function Insert(x: Day, s: seq<Day>): (r: seq<Day>)
    ensures |r| == |s| + 1
    ensures multiset(r) == multiset(s) + multiset{x}
    ensures DateSet(r) == DateSet(s) + {x.date}
  {
    if |s| == 0 then [x]
    else if x.date <= s[0].date then
      assert s == [s[0]] + s[1..];
      [x] + s
    else
      assert s == [s[0]] + s[1..];
      [s[0]] + Insert(x, s[1..])
  }

  lemma {:induction false} InsertSorted(x: Day, s: seq<Day>)
    requires Sorted(s)
    ensures Sorted(Insert(x, s))
  {
    if |s| > 0 && x.date > s[0].date {
      var tail := s[1..];
      InsertSorted(x, tail);
      var rest := Insert(x, tail);
      BelowInserted(x, tail, s[0].date);
      var r := [s[0]] + rest;
      assert Insert(x, s) == r;
      forall i, j | 0 <= i < j < |r|
        ensures r[i].date <= r[j].date
      {
        assert r[j] == rest[j - 1];
        if i > 0 {
          assert r[i] == rest[i - 1];
        }
      }
    } else if |s| > 0 {
      var r := [x] + s;
      assert Insert(x, s) == r;
      forall i, j | 0 <= i < j < |r|
        ensures r[i].date <= r[j].date
      {
        assert r[j] == s[j - 1];
        if i > 0 {
          assert r[i] == s[i - 1];
        }
      }
    }
  }

  /** A date no later than `x` and every row of `s` is no later than any row after inserting `x`. */
  lemma BelowInserted(x: Day, s: seq<Day>, d: int)
    requires From(s, d) && d <= x.date
    ensures From(Insert(x, s), d)
  {
    var r := Insert(x, s);
    forall k | 0 <= k < |r|
      ensures d <= r[k].date
    {
      assert r[k] in multiset(r);
      if r[k] != x {
        assert r[k] in multiset(s);
      }
    }
  }

  /** `sort_values('trade_date')`: the same rows, ordered by date. */
  function SortByDate(s: seq<Day>): (r: seq<Day>)
    ensures |r| == |s|
    ensures Sorted(r)
    ensures multiset(r) == multiset(s)
    ensures DateSet(r) == DateSet(s)
  {
    if |s| == 0 then []
    else
      assert s == [s[0]] + s[1..];
      var rest := SortByDate(s[1..]);
      InsertSorted(s[0], rest);
      Insert(s[0], rest)
  }

  lemma {:induction false} InDateSet(rows: seq<Day>, i: nat)
    requires i < |rows|
    ensures rows[i].date in DateSet(rows)
  {
    if i > 0 {
      InDateSet(rows[1..], i - 1);
    }
  }

  lemma {:induction false} DateSetSize(rows: seq<Day>)
    ensures |DateSet(rows)| <= |rows|
    ensures UniqueDates(rows) <==> |DateSet(rows)| == |rows|
  {
    if |rows| > 0 {
      DateSetSize(rows[1..]);
    }
  }

  /** A sorted table without repeated dates is strictly increasing. */
  lemma {:induction false} SortedUniqueIsStrict(rows: seq<Day>)
    requires Sorted(rows) && UniqueDates(rows)
    ensures StrictlySorted(rows)
  {
    if |rows| > 0 {
      var tail := rows[1..];
      SortedUniqueIsStrict(tail);
      forall j | 0 < j < |rows|
        ensures rows[0].date < rows[j].date
      {
        InDateSet(tail, j - 1);
      }
      forall i, j | 0 < i < j < |rows|
        ensures rows[i].date < rows[j].date
      {
        assert rows[i] == tail[i - 1] && rows[j] == tail[j - 1];
      }
    }
  }

  /** Sorting a table without repeated dates orders it strictly by date. */
  lemma SortUniqueIsStrict(s: seq<Day>)
    requires UniqueDates(s)
    ensures StrictlySorted(SortByDate(s))
  {
    var r := SortByDate(s);
    DateSetSize(s);
    DateSetSize(r);
    SortedUniqueIsStrict(r);
  }

  /** The rows of `s` whose date is not yet in `seen`, each date kept at its first row. */
  function DropSeen(s: seq<Day>, seen: set<int>): (r: seq<Day>)
    ensures |r| <= |s|
  {
    if |s| == 0 then []
    else if s[0].date in seen then DropSeen(s[1..], seen)
    else [s[0]] + DropSeen(s[1..], seen + {s[0].date})
  }

  /**
   * `drop_duplicates(subset=['trade_date'])`: one row per date, the first row of
   * that date, for every date of the table.
   */
  function Dedup(s: seq<Day>): (r: seq<Day>)
    ensures |r| <= |s|
    ensures UniqueDates(r)
    ensures KeepsFirst(s, r)
    ensures DateSet(r) == DateSet(s)
  {
    DropSeenSpec(s, {});
    DropSeen(s, {})
  }

  /** Row `i` is the first row of `s` carrying its date. */
  predicate FirstOfDate(s: seq<Day>, i: int)
    requires 0 <= i < |s|
  {
    forall j :: 0 <= j < i ==> s[j].date != s[i].date
  }

  /** Every row of `r` is the first row of `s` with that date. */
  predicate KeepsFirst(s: seq<Day>, r: seq<Day>) {
    forall k :: 0 <= k < |r| ==> exists i :: 0 <= i < |s| && r[k] == s[i] && FirstOfDate(s, i)
  }

  lemma {:induction false} DropSeenSpec(s: seq<Day>, seen: set<int>)
    decreases |s|, 1
    ensures var r := DropSeen(s, seen);
      && UniqueDates(r)
      && DateSet(r) == DateSet(s) - seen
      && KeepsFirst(s, r)
  {
    if |s| > 0 {
      if s[0].date in seen {
        SkipSeen(s, seen);
      } else {
        KeepUnseen(s, seen);
      }
    }
  }

  /** A row whose date was already seen is dropped. */
  lemma {:induction false} SkipSeen(s: seq<Day>, seen: set<int>)
    requires |s| > 0 && s[0].date in seen
    ensures var r := DropSeen(s, seen);
      && UniqueDates(r)
      && DateSet(r) == DateSet(s) - seen
      && KeepsFirst(s, r)
    decreases |s|, 0
  {
    var tail := s[1..];
    assert DateSet(s) == {s[0].date} + DateSet(tail);
    DropSeenSpec(tail, seen);
    var r := DropSeen(tail, seen);
    assert r == DropSeen(s, seen);
    forall k | 0 <= k < |r|
      ensures exists i :: 0 <= i < |s| && r[k] == s[i] && FirstOfDate(s, i)
    {
      var i :| 0 <= i < |tail| && r[k] == tail[i] && FirstOfDate(tail, i);
      InDateSet(r, k);
      assert s[i + 1] == tail[i];
      assert FirstOfDate(s, i + 1);
    }
  }

  /** A row with a new date is kept, and its date joins the seen ones. */
  lemma {:induction false} KeepUnseen(s: seq<Day>, seen: set<int>)
    requires |s| > 0 && s[0].date !in seen
    ensures var r := DropSeen(s, seen);
      && UniqueDates(r)
      && DateSet(r) == DateSet(s) - seen
      && KeepsFirst(s, r)
    decreases |s|, 0
  {
    var tail := s[1..];
    assert DateSet(s) == {s[0].date} + DateSet(tail);
    var seen' := seen + {s[0].date};
    DropSeenSpec(tail, seen');
    var rest := DropSeen(tail, seen');
    var r := [s[0]] + rest;
    assert r == DropSeen(s, seen);
    assert r[1..] == rest;
    forall k | 0 <= k < |r|
      ensures exists i :: 0 <= i < |s| && r[k] == s[i] && FirstOfDate(s, i)
    {
      if k == 0 {
        assert r[0] == s[0] && FirstOfDate(s, 0);
      } else {
        assert r[k] == rest[k - 1];
        var i :| 0 <= i < |tail| && rest[k - 1] == tail[i] && FirstOfDate(tail, i);
        InDateSet(rest, k - 1);
        assert s[i + 1] == tail[i];
        assert FirstOfDate(s, i + 1);
      }
    }
  }

  /** The PE and PB columns of a table. */
  function PeColumn(rows: seq<Day>): (c: seq<Option<real>>)
    ensures |c| == |rows| && forall i :: 0 <= i < |rows| ==> c[i] == rows[i].pe
  {
    seq(|rows|, i requires 0 <= i < |rows| => rows[i].pe)
  }

  function PbColumn(rows: seq<Day>): (c: seq<Option<real>>)
    ensures |c| == |rows| && forall i :: 0 <= i < |rows| ==> c[i] == rows[i].pb
  {
    seq(|rows|, i requires 0 <= i < |rows| => rows[i].pb)
  }

  /** A row with both PE and PB, the rows `dropna(subset=[pe, pb])` keeps. */
  predicate Complete(row: Day) {
    row.pe.Some? && row.pb.Some?
  }

  /** `dropna(subset=[pe, pb])`: the complete rows, in table order. */
  function CompleteRows(rows: seq<Day>): (r: seq<Day>)
    ensures forall i :: 0 <= i < |r| ==> Complete(r[i])
    ensures |r| == Count(rows, Complete)
    ensures forall x :: x in r <==> x in rows && Complete(x)
  {
    FilterMembers(rows, Complete);
    Filter(rows, Complete)
  }

  lemma {:induction false} FilterKeepsOrder(s: seq<Day>, p: Day -> bool)
    requires Sorted(s)
    ensures Sorted(Filter(s, p))
  {
    if |s| > 0 {
      FilterKeepsOrder(s[1..], p);
      var rest := Filter(s[1..], p);
      forall k | 0 <= k < |rest|
        ensures s[0].date <= rest[k].date
      {
        FilterFrom(s[1..], p, k);
        var i :| 0 <= i < |s[1..]| && s[1..][i] == rest[k];
        assert s[i + 1] == rest[k];
      }
    }
  }

  /** Row `k` is complete and no later row is. */
  predicate LastComplete(rows: seq<Day>, k: int) {
    0 <= k < |rows| && Complete(rows[k]) && NoneAfter(rows, k, Complete)
  }

  /** The last complete row of the table is the last row `dropna` keeps. */
  lemma LastCompleteIsKept(rows: seq<Day>)
    requires |CompleteRows(rows)| > 0
    ensures forall k :: LastComplete(rows, k) ==> rows[k] == CompleteRows(rows)[|CompleteRows(rows)| - 1]
  {
    FilterLast(rows, Complete);
    var k0 :| 0 <= k0 < |rows| && rows[k0] == Filter(rows, Complete)[|Filter(rows, Complete)| - 1]
      && NoneAfter(rows, k0, Complete);
    forall k | LastComplete(rows, k)
      ensures k == k0
    {
      assert Complete(rows[k0]);
    }
  }

  /** `dropna(...)` then `iloc[-1]`: the last complete row, if any. */
  function Latest(rows: seq<Day>): (r: Option<Day>)
    ensures r.None? <==> forall i :: 0 <= i < |rows| ==> !Complete(rows[i])
    ensures r.Some? ==> Complete(r.value) && r.value in rows && r.value in CompleteRows(rows)
    ensures forall k :: LastComplete(rows, k) ==> r == Some(rows[k])
  {
    var complete := CompleteRows(rows);
    NoCompleteRows(rows);
    if |complete| == 0 then None
    else
      FilterFrom(rows, Complete, |complete| - 1);
      LastCompleteIsKept(rows);
      Some(complete[|complete| - 1])
  }

  lemma NoCompleteRows(rows: seq<Day>)
    ensures |CompleteRows(rows)| == 0 <==> forall i :: 0 <= i < |rows| ==> !Complete(rows[i])
  {
    if i :| 0 <= i < |rows| && Complete(rows[i]) {
      FilterKeeps(rows, Complete, i);
    }
    if |CompleteRows(rows)| > 0 {
      FilterFrom(rows, Complete, 0);
    }
  }

  /** On a date-sorted table the latest complete row carries the greatest date of any complete row. */
  lemma LatestHasMaxDate(rows: seq<Day>, i: nat)
    requires Sorted(rows) && i < |rows| && Complete(rows[i])
    ensures Latest(rows).Some? && rows[i].date <= Latest(rows).value.date
  {
    NoCompleteRows(rows);
    FilterLast(rows, Complete);
    var k :| 0 <= k < |rows| && rows[k] == Filter(rows, Complete)[|Filter(rows, Complete)| - 1]
      && NoneAfter(rows, k, Complete);
    assert LastComplete(rows, k);
    assert i <= k;
  }
}

=== FILE: oscillator.dfy ===
/**
 * The oscillator tool (`get_oscillator_signals`): the row of the requested
 * day is labelled with RSI, KDJ (crossings against the previous row),
 * Williams %R, BIAS and CCI states, and the five states are tallied into a
 * reversal signal.
 */
module OscillatorSignals {
  import opened Base
  import Table

  /** The columns of one daily factor row that the oscillator labels read. */
  datatype Row = Row(
    date: string,
    rsi6: Option<real>,   // rsi_qfq_6
    rsi12: Option<real>,  // rsi_qfq_12
    k: Option<real>,      // kdj_k_qfq
    d: Option<real>,      // kdj_d_qfq
    wr1: Option<real>,    // wr1_qfq (6-day Williams %R)
    wr: Option<real>,     // wr_qfq (10-day Williams %R)
    bias1: Option<real>,  // bias1_qfq (6-day)
    bias2: Option<real>,  // bias2_qfq (12-day)
    bias3: Option<real>,  // bias3_qfq (24-day)
    cci: Option<real>)    // cci_qfq

  /** The overbought/oversold/neutral labels shared by RSI and Williams %R. */
  datatype Zone = Overbought | Oversold | NeutralZone

  datatype Kdj =
    | BullishCrossoverInOversold | BullishCrossover
    | BearishCrossoverInOverbought | BearishCrossover
    | OverboughtRisk | OversoldOpportunity | KdjNeutral

  datatype Bias = HighPositiveDeviation | HighNegativeDeviation | NormalDeviation
  datatype Cci = OverboughtOrBreakout | OversoldOrBreakdown | NormalRange
  datatype Reversal = StrongBullishReversal | StrongBearishReversal | ModerateReversalRisk | NoSignificantSignal

  /** How one indicator's state counts toward the reversal signal. */
  datatype Vote = Bullish | Bearish | Abstain

  /** The three counters the reversal tally keeps. */
  datatype Tally = Tally(extreme: nat, bullish: nat, bearish: nat)

  datatype Report = Report(
    date: string,
    rsi: Option<Zone>,
    kdj: Option<Kdj>,
    williamsR: Option<Zone>,
    bias: Bias,
    cci: Option<Cci>,
    reversal: Reversal)

  /** RSI6 with 70/30 bounds; RSI12 with the wider 75/25 bounds when RSI6 is missing. */
  function RsiStatus(row: Row): (r: Option<Zone>)
    ensures r.None? <==> row.rsi6.None? && row.rsi12.None?
    ensures row.rsi6.Some? ==>
      && (r == Some(Overbought) <==> row.rsi6.value >= 70.0)
      && (r == Some(Oversold) <==> row.rsi6.value <= 30.0)
    ensures row.rsi6.None? && row.rsi12.Some? ==>
      && (r == Some(Overbought) <==> row.rsi12.value >= 75.0)
      && (r == Some(Oversold) <==> row.rsi12.value <= 25.0)
  {
    match (row.rsi6, row.rsi12)
    case (Some(rsi), _) =>
      Some(if rsi >= 70.0 then Overbought else if rsi <= 30.0 then Oversold else NeutralZone)
    case (None, Some(rsi)) =>
      Some(if rsi >= 75.0 then Overbought else if rsi <= 25.0 then Oversold else NeutralZone)
    case (None, None) => None
  }

  /** The KDJ label of a day without a crossing: K above 80 or below 20, else neutral. */
  function KdjLevel(k: real): (r: Kdj)
    ensures r == OverboughtRisk <==> k > 80.0
    ensures r == OversoldOpportunity <==> k < 20.0
    ensures r == OverboughtRisk || r == OversoldOpportunity || r == KdjNeutral
  {
    if k > 80.0 then OverboughtRisk else if k < 20.0 then OversoldOpportunity else KdjNeutral
  }

  predicate BullishCross(s: Option<Kdj>) {
    s == Some(BullishCrossover) || s == Some(BullishCrossoverInOversold)
  }

  predicate BearishCross(s: Option<Kdj>) {
    s == Some(BearishCrossover) || s == Some(BearishCrossoverInOverbought)
  }

  /**
   * A golden cross (K rises through D) or a death cross, judged against the
   * previous row when both of its K and D are present; otherwise the level of K.
   */
  function KdjStatus(rows: seq<Row>, idx: nat): (r: Option<Kdj>)
    requires idx < |rows|
    ensures r.None? <==> rows[idx].k.None? || rows[idx].d.None?
    ensures BullishCross(r) <==>
      idx > 0 && Le(rows[idx - 1].k, rows[idx - 1].d) && Gt(rows[idx].k, rows[idx].d)
    ensures BearishCross(r) <==>
      idx > 0 && Ge(rows[idx - 1].k, rows[idx - 1].d) && Lt(rows[idx].k, rows[idx].d)
    ensures r == Some(BullishCrossoverInOversold) <==> BullishCross(r) && Lt(rows[idx].k, Some(50.0))
    ensures r == Some(BearishCrossoverInOverbought) <==> BearishCross(r) && Gt(rows[idx].k, Some(50.0))
    ensures r.Some? && !BullishCross(r) && !BearishCross(r) ==> r.value == KdjLevel(rows[idx].k.value)
  {
    match (rows[idx].k, rows[idx].d)
    case (Some(k), Some(d)) =>
      if idx > 0 && rows[idx - 1].k.Some? && rows[idx - 1].d.Some? then
        var pk, pd := rows[idx - 1].k.value, rows[idx - 1].d.value;
        if pk <= pd && k > d then
          Some(if k < 50.0 then BullishCrossoverInOversold else BullishCrossover)
        else if pk >= pd && k < d then
          Some(if k > 50.0 then BearishCrossoverInOverbought else BearishCrossover)
        else Some(KdjLevel(k))
      else Some(KdjLevel(k))
    case _ => None
  }

  function WilliamsLevel(wr: real): (z: Zone)
    ensures z == Overbought <==> wr >= -20.0
    ensures z == Oversold <==> wr <= -80.0
  {
    if wr >= -20.0 then Overbought else if wr <= -80.0 then Oversold else NeutralZone
  }

  /** The 6-day Williams %R, falling back to the 10-day one, both with -20/-80 bounds. */
  function WilliamsStatus(row: Row): (r: Option<Zone>)
    ensures r.None? <==> row.wr1.None? && row.wr.None?
    ensures row.wr1.Some? ==> r == Some(WilliamsLevel(row.wr1.value))
    ensures row.wr1.None? && row.wr.Some? ==> r == Some(WilliamsLevel(row.wr.value))
  {
    if row.wr1.Some? then Some(WilliamsLevel(row.wr1.value))
    else if row.wr.Some? then Some(WilliamsLevel(row.wr.value))
    else None
  }

  function BiasLevel(bias: real, bound: real): (b: Bias)
    requires bound > 0.0
    ensures b == HighPositiveDeviation <==> bias > bound
    ensures b == HighNegativeDeviation <==> bias < -bound
  {
    if bias > bound then HighPositiveDeviation
    else if bias < -bound then HighNegativeDeviation
    else NormalDeviation
  }

  /** The first present BIAS (6, 12, 24 days) against bounds of 5, 6 and 7 percent; normal when all are NaN. */
  function BiasStatus(row: Row): (b: Bias)
    ensures row.bias1.Some? ==> b == BiasLevel(row.bias1.value, 5.0)
    ensures row.bias1.None? && row.bias2.Some? ==> b == BiasLevel(row.bias2.value, 6.0)
    ensures row.bias1.None? && row.bias2.None? && row.bias3.Some? ==> b == BiasLevel(row.bias3.value, 7.0)
    ensures row.bias1.None? && row.bias2.None? && row.bias3.None? ==> b == NormalDeviation
  {
    if row.bias1.Some? then BiasLevel(row.bias1.value, 5.0)
    else if row.bias2.Some? then BiasLevel(row.bias2.value, 6.0)
    else if row.bias3.Some? then BiasLevel(row.bias3.value, 7.0)
    else NormalDeviation
  }

  function CciStatus(row: Row): (r: Option<Cci>)
    ensures r.None? <==> row.cci.None?
    ensures r == Some(OverboughtOrBreakout) <==> Gt(row.cci, Some(100.0))
    ensures r == Some(OversoldOrBreakdown) <==> Lt(row.cci, Some(-100.0))
  {
    match row.cci
    case None => None
    case Some(cci) =>
      Some(if cci > 100.0 then OverboughtOrBreakout else if cci < -100.0 then OversoldOrBreakdown else NormalRange)
  }

  function ZoneVote(z: Option<Zone>): Vote {
    if z == Some(Oversold) then Bullish else if z == Some(Overbought) then Bearish else Abstain
  }

  function KdjVote(s: Option<Kdj>): Vote {
    if s == Some(OversoldOpportunity) || BullishCross(s) then Bullish
    else if s == Some(OverboughtRisk) || BearishCross(s) then Bearish
    else Abstain
  }

  function BiasVote(b: Bias): Vote {
    if b == HighNegativeDeviation then Bullish else if b == HighPositiveDeviation then Bearish else Abstain
  }

  function CciVote(c: Option<Cci>): Vote {
    if c == Some(OversoldOrBreakdown) then Bullish else if c == Some(OverboughtOrBreakout) then Bearish else Abstain
  }

  /** The counters after adding each vote in turn, as the tool increments them. */
  function TallyOf(votes: seq<Vote>): Tally {
    if |votes| == 0 then Tally(0, 0, 0)
    else
      var t := TallyOf(votes[1..]);
      match votes[0]
      case Bullish => Tally(t.extreme + 1, t.bullish + 1, t.bearish)
      case Bearish => Tally(t.extreme + 1, t.bullish, t.bearish + 1)
      case Abstain => t
  }

  /** Every extreme indicator is counted on exactly one side. */
  lemma {:induction false} TallyBalanced(votes: seq<Vote>)
    ensures TallyOf(votes).extreme == TallyOf(votes).bullish + TallyOf(votes).bearish
    ensures TallyOf(votes).extreme <= |votes|
  {
    if |votes| > 0 {
      TallyBalanced(votes[1..]);
    }
  }

  /**
   * The value the strong-signal test reads. The source takes the first BIAS that
   * `is not None`; a NaN cell is not None, so this is always the 6-day BIAS, NaN included.
   */
  function BiasCurrent(row: Row): Option<real> {
    row.bias1
  }

  /**
   * Fewer than two extreme indicators: no signal. Otherwise a KDJ golden cross with
   * BIAS at most -4 is a strong bullish reversal; two bearish votes with a KDJ death
   * cross a strong bearish one; anything else a moderate reversal risk.
   */
  function ReversalSignal(kdj: Option<Kdj>, votes: seq<Vote>, biasCurrent: Option<real>): (r: Reversal)
    ensures r == NoSignificantSignal <==> TallyOf(votes).extreme < 2
    ensures r == StrongBullishReversal <==>
      TallyOf(votes).extreme >= 2 && BullishCross(kdj) && Le(biasCurrent, Some(-4.0))
    ensures var t, biasExtreme := TallyOf(votes), Le(biasCurrent, Some(-4.0));
      r == StrongBearishReversal <==>
        && t.extreme >= 2 && !(BullishCross(kdj) && biasExtreme) && !(t.bullish >= 2 && biasExtreme)
        && t.bearish >= 2 && BearishCross(kdj)
    ensures var t, biasExtreme := TallyOf(votes), Le(biasCurrent, Some(-4.0));
      r == ModerateReversalRisk <==>
        && t.extreme >= 2 && !(BullishCross(kdj) && biasExtreme)
        && ((t.bullish >= 2 && biasExtreme) || !(t.bearish >= 2 && BearishCross(kdj)))
  {
    var t := TallyOf(votes);
    if t.extreme >= 2 then
      var biasExtreme := Le(biasCurrent, Some(-4.0));
      if BullishCross(kdj) && biasExtreme then StrongBullishReversal
      else if t.bullish >= 2 && biasExtreme then ModerateReversalRisk
      else if t.bearish >= 2 then
        if BearishCross(kdj) then StrongBearishReversal else ModerateReversalRisk
      else ModerateReversalRisk
    else NoSignificantSignal
  }

  function Votes(rsi: Option<Zone>, kdj: Option<Kdj>, wr: Option<Zone>, bias: Bias, cci: Option<Cci>): (v: seq<Vote>)
    ensures |v| == 5
  {
    [ZoneVote(rsi), KdjVote(kdj), ZoneVote(wr), BiasVote(bias), CciVote(cci)]
  }

  /** The report for row `idx`: its date, the labels of row `idx`, and a reversal signal voted by those labels. */
  function ReportAt(rows: seq<Row>, idx: nat): (r: Report)
    requires idx < |rows|
    ensures r.date == rows[idx].date
    ensures r.rsi == RsiStatus(rows[idx]) && r.kdj == KdjStatus(rows, idx)
    ensures r.williamsR == WilliamsStatus(rows[idx]) && r.bias == BiasStatus(rows[idx])
    ensures r.cci == CciStatus(rows[idx])
    ensures r.reversal == ReversalSignal(r.kdj, Votes(r.rsi, r.kdj, r.williamsR, r.bias, r.cci), BiasCurrent(rows[idx]))
  {
    var row := rows[idx];
    var rsi := RsiStatus(row);
    var kdj := KdjStatus(rows, idx);
    var wr := WilliamsStatus(row);
    var bias := BiasStatus(row);
    var cci := CciStatus(row);
    var votes := Votes(rsi, kdj, wr, bias, cci);
    Report(row.date, rsi, kdj, wr, bias, cci, ReversalSignal(kdj, votes, BiasCurrent(row)))
  }

  /** The tool: locate the requested day in the sorted table and label it. */
  function GetOscillatorSignals(rows: seq<Row>, date: string): (r: Result<Report, Table.Error>)
    ensures r.Ok? <==> exists j :: 0 <= j < |rows| && rows[j].date == date
    ensures r.Ok? ==> r.value.date == date
    ensures r.Err? ==> (r.error == Table.NoData <==> |rows| == 0)
    ensures forall k :: 0 <= k < |rows| && rows[k].date == date && (forall j :: 0 <= j < k ==> rows[j].date != date) ==>
      r == Ok(ReportAt(rows, k))
  {
    var dateOf := (row: Row) => row.date;
    Table.FindIsFirst(rows, dateOf, date);
    match Table.Find(rows, dateOf, date)
    case Err(e) => Err(e)
    case Ok(idx) => Ok(ReportAt(rows, idx))
  }

  // ---------------------------------------------------------------- properties

  /** Five indicators vote: at most five extremes, each counted once as bullish or bearish. */
  lemma ExtremesSplitIntoSides(rows: seq<Row>, idx: nat)
    requires idx < |rows|
    ensures var row := rows[idx];
      var t := TallyOf(Votes(RsiStatus(row), KdjStatus(rows, idx), WilliamsStatus(row), BiasStatus(row), CciStatus(row)));
      t.extreme == t.bullish + t.bearish <= 5
  {
    var row := rows[idx];
    TallyBalanced(Votes(RsiStatus(row), KdjStatus(rows, idx), WilliamsStatus(row), BiasStatus(row), CciStatus(row)));
  }

  /** A strong bullish reversal needs a KDJ golden cross against the previous row, so never on the first row. */
  lemma StrongBullishNeedsGoldenCross(rows: seq<Row>, idx: nat)
    requires idx < |rows| && ReportAt(rows, idx).reversal == StrongBullishReversal
    ensures idx > 0 && Le(rows[idx - 1].k, rows[idx - 1].d) && Gt(rows[idx].k, rows[idx].d)
    ensures Le(rows[idx].bias1, Some(-4.0))
  {
  }

  /**
   * With a NaN 6-day BIAS no reversal is strong bullish, even when the 12- or 24-day
   * BIAS (which the BIAS label does fall back to) is deeply negative.
   */
  lemma NanBias1BlocksStrongBullish(rows: seq<Row>, idx: nat)
    requires idx < |rows| && rows[idx].bias1.None?
    ensures ReportAt(rows, idx).reversal != StrongBullishReversal
  {
  }
}

=== FILE: sector_daily.dfy ===
/**
 * `get_index_daily_data` in the industry-index script: fetch an index's daily
 * PE/PB series in year-long requests, then drop repeated dates and sort.
 */
module SectorDaily {
  import opened Base
  import opened Segments
  import opened IndexTable
  import Calendar

  /** The default range of the script, 2020-11-10 to 2025-11-10, as day numbers. */
  function DefaultStart(): int {
    Calendar.Ordinal(Calendar.Date(2020, 11, 10))
  }

  function DefaultEnd(): int {
    Calendar.Ordinal(Calendar.Date(2025, 11, 10))
  }

  /**
   * The series for the days `start` to `end`: the rows of every request over the
   * corrected plan, the first row of each date kept, ordered by date; empty when
   * no request returned a row.
   */
  function IndexDailyData(start: int, end: int, fetch: Segment -> Option<seq<Day>>): (r: seq<Day>)
    ensures |r| == 0 <==> |Gather(Plan(start, end), fetch)| == 0
    ensures StrictlySorted(r)
    ensures DateSet(r) == DateSet(Gather(Plan(start, end), fetch))
  {
    var all := Gather(Plan(start, end), fetch);
    if |all| == 0 then []
    else
      SortUniqueIsStrict(Dedup(all));
      DateSetSize(all);
      DateSetSize(Dedup(all));
      SortByDate(Dedup(all))
  }

  /** The same over the plan as written, which can leave out the last day. */
  function IndexDailyDataAsWritten(start: int, end: int, fetch: Segment -> Option<seq<Day>>): (r: seq<Day>)
    ensures StrictlySorted(r)
    ensures DateSet(r) == DateSet(Gather(PlanAsWritten(start, end), fetch))
  {
    var all := Gather(PlanAsWritten(start, end), fetch);
    if |all| == 0 then []
    else
      SortUniqueIsStrict(Dedup(all));
      SortByDate(Dedup(all))
  }

  /** The default range is 1826 days long, not a whole number of 366-day strides. */
  lemma DefaultRangeLength()
    ensures DefaultEnd() - DefaultStart() == 1826
  {
  }

  /** When the range is not a whole number of 366-day strides, the written loop requests every day. */
  lemma AsWrittenAgreesOffStride(start: int, end: int, fetch: Segment -> Option<seq<Day>>)
    requires (end - start) % (Span + 1) != 0
    ensures IndexDailyDataAsWritten(start, end, fetch) == IndexDailyData(start, end, fetch)
  {
    AsWrittenDropsLastDay(start, end);
    assert Dropped(start, end) == [];
    assert Plan(start, end) == PlanAsWritten(start, end);
  }

  /**
   * Over the script's default range the written and the corrected series
   * coincide, whatever the service returns.
   */
  lemma DefaultRangeUnaffected(fetch: Segment -> Option<seq<Day>>)
    ensures IndexDailyDataAsWritten(DefaultStart(), DefaultEnd(), fetch) == IndexDailyData(DefaultStart(), DefaultEnd(), fetch)
  {
    DefaultRangeLength();
    AsWrittenAgreesOffStride(DefaultStart(), DefaultEnd(), fetch);
  }

  /** Every row of the series is the first row any request returned for its date. */
  lemma IndexDailyDataKeepsFirst(start: int, end: int, fetch: Segment -> Option<seq<Day>>)
    ensures KeepsFirst(Gather(Plan(start, end), fetch), IndexDailyData(start, end, fetch))
  {
    var all := Gather(Plan(start, end), fetch);
    if |all| > 0 {
      var deduped := Dedup(all);
      var r := SortByDate(deduped);
      forall k | 0 <= k < |r|
        ensures exists i :: 0 <= i < |all| && r[k] == all[i] && FirstOfDate(all, i)
      {
        assert r[k] in multiset(deduped);
        var m :| 0 <= m < |deduped| && deduped[m] == r[k];
      }
    }
  }

  /**
   * A source that holds a row only for the last day of a 367-day range: the
   * corrected plan returns it, the written plan never asks for it.
   */
  lemma AsWrittenLosesLastDay(row: Day)
    ensures var fetch := (s: Segment) => if s.lo <= 366 <= s.hi then Some([row]) else Some([]);
      && IndexDailyDataAsWritten(0, 366, fetch) == []
      && IndexDailyData(0, 366, fetch) == [row]
  {
    var fetch := (s: Segment) => if s.lo <= 366 <= s.hi then Some([row]) else Some([]);
    AsWrittenMissesEndDay();
    assert Gather([Segment(0, 365)], fetch) == [];
    assert Gather([Segment(366, 366)], fetch) == [row];
    assert Gather(Plan(0, 366), fetch) == [] + [row];
    assert Dedup([row]) == [row];
  }
}

=== FILE: sector_profit.dfy ===
/**
 * `get_industry_profit_growth`: the market-cap-weighted year-on-year net profit
 * growth of one Shenwan level-1 industry, over the report period that the
 * trade date selects, with a flag that says how the figure was obtained.
 *
 * The data service is reached through three parameters: the member list of
 * the industry (None when the call raised), the market-cap answer per member,
 * and the financial-indicator answer per member and report period.
 */
module SectorProfit {
  import opened Base
  import Calendar

  // ---------------------------------------------------------------- report period

  /** A fiscal quarter: the quarter ending in month `3 * quarter` of `year`. */
  datatype Period = Period(year: int, quarter: int)

  /** The month count of the month a period ends in, so that consecutive months differ by one. */
  function PeriodMonth(p: Period): int {
    p.year * 12 + 3 * p.quarter
  }

  /**
   * The latest report expected to be published by the trade date: January to
   * March use the previous year's third quarter, April to June its annual
   * report, July to September the current first quarter, October to December
   * the current half year.
   */
  function ReportPeriod(d: Calendar.Date): (p: Period)
    requires Calendar.Valid(d)
    ensures 1 <= p.quarter <= 4
    ensures 4 <= (d.year * 12 + d.month) - PeriodMonth(p) <= 6
  {
    if d.month <= 3 then Period(d.year - 1, 3)
    else if d.month <= 6 then Period(d.year - 1, 4)
    else if d.month <= 9 then Period(d.year, 1)
    else Period(d.year, 2)
  }

  /** Quarter ends are three months apart, so only one of them lies four to six months back. */
  lemma ReportPeriodUnique(d: Calendar.Date, q: Period)
    requires Calendar.Valid(d)
    requires 1 <= q.quarter <= 4
    requires 4 <= (d.year * 12 + d.month) - PeriodMonth(q) <= 6
    ensures q == ReportPeriod(d)
  {
    var p := ReportPeriod(d);
    var diff := PeriodMonth(p) - PeriodMonth(q);
    assert -2 <= diff <= 2;
    assert diff == (p.year - q.year) * 12 + 3 * (p.quarter - q.quarter);
  }

  // ---------------------------------------------------------------- weights

  /** The `daily_basic` answer for one member: a row with `total_mv`, no row, or a raised call. */
  datatype CapFetch = CapRow(totalMv: Option<real>) | CapEmpty | CapError

  /** The member's weight: its total market value, or 1.0 when that is NaN, not positive, or unavailable. */
  function MarketCapWeight(f: CapFetch): (w: real)
    ensures w > 0.0
    ensures w != 1.0 ==> f.CapRow? && f.totalMv == Some(w)
    ensures f.CapRow? && f.totalMv.Some? && f.totalMv.value > 0.0 ==> w == f.totalMv.value
  {
    match f
    case CapRow(mv) => if mv.Some? && mv.value > 0.0 then mv.value else 1.0
    case CapEmpty => 1.0
    case CapError => 1.0
  }

  // ---------------------------------------------------------------- growth per member

  /** A growth cell: NaN, an infinity, or a finite rate in percent. */
  datatype Growth = NaN | Infinite | Finite(rate: real)

  /** The first `fina_indicator` row; a field the row lacks reads as NaN, since both are skipped alike. */
  datatype Financials = Financials(dtNetprofitYoy: Growth, netprofitYoy: Growth)

  datatype FinaFetch = FinaRows(latest: Financials) | FinaEmpty | FinaError

  datatype Pick = NoGrowth | Picked(growth: Growth, fallback: bool)

  /**
   * The deducted growth (`dt_netprofit_yoy`) when it is not NaN, otherwise the
   * plain one (`netprofit_yoy`) with the fallback noted. An infinity is not NaN
   * and is picked.
   */
  function ChooseGrowth(f: Financials): (p: Pick)
    ensures p.NoGrowth? <==> f.dtNetprofitYoy.NaN? && f.netprofitYoy.NaN?
    ensures p.Picked? ==> !p.growth.NaN?
    ensures p.Picked? && p.fallback <==> f.dtNetprofitYoy.NaN? && !f.netprofitYoy.NaN?
    ensures p.Picked? && !p.fallback ==> p.growth == f.dtNetprofitYoy
    ensures p.Picked? && p.fallback ==> p.growth == f.netprofitYoy
  {
    if !f.dtNetprofitYoy.NaN? then Picked(f.dtNetprofitYoy, false)
    else if !f.netprofitYoy.NaN? then Picked(f.netprofitYoy, true)
    else NoGrowth
  }

  /** The quality check: finite and at most 1000 percent either way. */
  predicate Acceptable(g: Growth) {
    g.Finite? && Abs(g.rate) <= 1000.0
  }

  /** One member that enters the average. */
  datatype Contribution = Contribution(weight: real, rate: real)

  /**
   * What one member leaves behind: possibly a contribution, and whether the
   * fallback flag was raised. The flag is raised as soon as the plain growth
   * is picked, before the quality check can still reject it.
   */
  datatype Outcome = Outcome(contribution: Option<Contribution>, fallback: bool)

  function MemberOutcome(weight: real, f: FinaFetch): (o: Outcome)
    ensures o.fallback <==> f.FinaRows? && f.latest.dtNetprofitYoy.NaN? && !f.latest.netprofitYoy.NaN?
    ensures o.contribution.Some? <==> f.FinaRows? && ChooseGrowth(f.latest).Picked? && Acceptable(ChooseGrowth(f.latest).growth)
    ensures o.contribution.Some? ==> o.contribution.value.weight == weight
    ensures o.contribution.Some? ==> Abs(o.contribution.value.rate) <= 1000.0
    ensures o.contribution.Some? && !f.latest.dtNetprofitYoy.NaN? ==> f.latest.dtNetprofitYoy == Finite(o.contribution.value.rate)
    ensures o.contribution.Some? && f.latest.dtNetprofitYoy.NaN? ==> f.latest.netprofitYoy == Finite(o.contribution.value.rate)
  {
    match f
    case FinaEmpty => Outcome(None, false)
    case FinaError => Outcome(None, false)
    case FinaRows(latest) =>
      match ChooseGrowth(latest)
      case NoGrowth => Outcome(None, false)
      case Picked(g, fallback) =>
        if Acceptable(g) then Outcome(Some(Contribution(weight, g.rate)), fallback)
        else Outcome(None, fallback)
  }

  /** A member whose deducted growth is NaN and whose plain growth is out of range is rejected, yet still raises the fallback flag. */
  lemma RejectedFallbackStillFlags()
    ensures var o := MemberOutcome(2.0, FinaRows(Financials(NaN, Finite(5000.0))));
      o.contribution.None? && o.fallback
  {
  }

  // ---------------------------------------------------------------- weighted mean

  predicate PositiveWeights(cs: seq<Contribution>) {
    forall i :: 0 <= i < |cs| ==> cs[i].weight > 0.0
  }

  function TotalWeight(cs: seq<Contribution>): real {
    if |cs| == 0 then 0.0 else TotalWeight(cs[..|cs| - 1]) + cs[|cs| - 1].weight
  }

  function WeightedSum(cs: seq<Contribution>): real {
    if |cs| == 0 then 0.0 else WeightedSum(cs[..|cs| - 1]) + cs[|cs| - 1].weight * cs[|cs| - 1].rate
  }

  lemma {:induction false} TotalWeightPositive(cs: seq<Contribution>)
    requires PositiveWeights(cs) && |cs| > 0
    ensures TotalWeight(cs) > 0.0
  {
    if |cs| > 1 {
      TotalWeightPositive(cs[..|cs| - 1]);
    }
  }

  /** The smallest rate of a non-empty list of contributions. */
  function MinRate(cs: seq<Contribution>): (m: real)
    requires |cs| > 0
    ensures forall i :: 0 <= i < |cs| ==> m <= cs[i].rate
    ensures exists i :: 0 <= i < |cs| && cs[i].rate == m
  {
    if |cs| == 1 then cs[0].rate
    else
      var rest := MinRate(cs[1..]);
      assert forall i :: 1 <= i < |cs| ==> cs[i] == cs[1..][i - 1];
      if cs[0].rate <= rest then cs[0].rate else rest
  }

  /** The largest rate of a non-empty list of contributions. */
  function MaxRate(cs: seq<Contribution>): (m: real)
    requires |cs| > 0
    ensures forall i :: 0 <= i < |cs| ==> cs[i].rate <= m
    ensures exists i :: 0 <= i < |cs| && cs[i].rate == m
  {
    if |cs| == 1 then cs[0].rate
    else
      var rest := MaxRate(cs[1..]);
      assert forall i :: 1 <= i < |cs| ==> cs[i] == cs[1..][i - 1];
      if cs[0].rate >= rest then cs[0].rate else rest
  }

  /** `sum(g * w) / sum(w)` over the members that passed: a value between the smallest and largest rate. */
  function WeightedMean(cs: seq<Contribution>): (m: real)
    requires PositiveWeights(cs) && |cs| > 0
    ensures MinRate(cs) <= m <= MaxRate(cs)
  {
    var lo, hi, sum, total := MinRate(cs), MaxRate(cs), WeightedSum(cs), TotalWeight(cs);
    TotalWeightPositive(cs);
    WeightedSumBounds(cs, lo, hi);
    QuotientBetween(sum, total, lo, hi);
    sum / total
  }

  lemma ScaleLe(w: real, a: real, b: real)
    requires w > 0.0 && a <= b
    ensures w * a <= w * b
  {
  }

  lemma {:induction false} WeightedSumBounds(cs: seq<Contribution>, lo: real, hi: real)
    requires PositiveWeights(cs)
    requires forall i :: 0 <= i < |cs| ==> lo <= cs[i].rate <= hi
    ensures lo * TotalWeight(cs) <= WeightedSum(cs) <= hi * TotalWeight(cs)
  {
    if |cs| > 0 {
      var init, last := cs[..|cs| - 1], cs[|cs| - 1];
      WeightedSumBounds(init, lo, hi);
      ScaleLe(last.weight, lo, last.rate);
      ScaleLe(last.weight, last.rate, hi);
      assert TotalWeight(cs) == TotalWeight(init) + last.weight;
      assert WeightedSum(cs) == WeightedSum(init) + last.weight * last.rate;
      Distribute(lo, TotalWeight(init), last.weight);
      Distribute(hi, TotalWeight(init), last.weight);
      assert lo * last.weight == last.weight * lo && hi * last.weight == last.weight * hi;
    }
  }

  lemma Distribute(a: real, x: real, y: real)
    ensures a * (x + y) == a * x + a * y
  {
  }

  /** With positive weights the weighted mean lies between the smallest and the largest rate. */
  lemma MeanBetween(cs: seq<Contribution>, lo: real, hi: real)
    requires PositiveWeights(cs) && |cs| > 0
    requires forall i :: 0 <= i < |cs| ==> lo <= cs[i].rate <= hi
    ensures lo <= WeightedMean(cs) <= hi
  {
    var i :| 0 <= i < |cs| && cs[i].rate == MinRate(cs);
    var j :| 0 <= j < |cs| && cs[j].rate == MaxRate(cs);
  }

  lemma QuotientBetween(s: real, t: real, lo: real, hi: real)
    requires t > 0.0 && lo * t <= s <= hi * t
    ensures lo <= s / t <= hi
  {
    DivMono(lo * t, s, t);
    DivMono(s, hi * t, t);
    assert lo * t / t == lo;
    assert hi * t / t == hi;
  }

  /** The weighted average as the loop over the valid members computes it. */
  method ComputeWeightedGrowth(cs: seq<Contribution>) returns (avg: real)
    requires PositiveWeights(cs) && |cs| > 0
    ensures avg == WeightedMean(cs)
  {
    var total, sum := 0.0, 0.0;
    var i := 0;
    while i < |cs|
      invariant 0 <= i <= |cs|
      invariant total == TotalWeight(cs[..i])
      invariant sum == WeightedSum(cs[..i])
    {
      assert cs[..i + 1][..i] == cs[..i];
      total := total + cs[i].weight;
      sum := sum + cs[i].weight * cs[i].rate;
      i := i + 1;
    }
    assert cs[..|cs|] == cs;
    TotalWeightPositive(cs);
    avg := sum / total;
  }

  // ---------------------------------------------------------------- quality flag

  predicate HeavyWeight(c: Contribution) {
    c.weight > 1.0
  }

  /** More than half of the valid members carry a weight above 1.0, i.e. a real market value. */
  predicate MarketCapWeighted(cs: seq<Contribution>) {
    2 * Count(cs, HeavyWeight) > |cs|
  }

  lemma {:induction false} CountNone(cs: seq<Contribution>)
    requires forall i :: 0 <= i < |cs| ==> !HeavyWeight(cs[i])
    ensures Count(cs, HeavyWeight) == 0
  {
    if |cs| > 0 {
      assert forall i :: 0 <= i < |cs[1..]| ==> cs[1..][i] == cs[i + 1];
      CountNone(cs[1..]);
    }
  }

  /** Members without a usable market value all weigh 1.0, so an industry without any is flagged as equally weighted. */
  lemma NoCapsMeansEqualWeight(cs: seq<Contribution>)
    requires forall i :: 0 <= i < |cs| ==> cs[i].weight == 1.0
    ensures !MarketCapWeighted(cs)
  {
    CountNone(cs);
  }

  /** An industry whose every valid member weighs more than 1.0 is flagged as market-cap weighted. */
  lemma AllCapsMeansMarketCapWeight(cs: seq<Contribution>)
    requires |cs| > 0 && forall i :: 0 <= i < |cs| ==> cs[i].weight > 1.0
    ensures MarketCapWeighted(cs)
  {
    CountAll(cs, HeavyWeight);
  }

  datatype Quality =
    | NoMemberData
    | MemberApiError
    | NoValidData
    | ProcessingError
    | Weighted(marketCap: bool, fallback: bool)
  {
    /** The `data_quality_flag` string. */
    function Name(): string {
      match this
      case NoMemberData => "no_member_data"
      case MemberApiError => "member_api_error"
      case NoValidData => "no_valid_data"
      case ProcessingError => "processing_error"
      case Weighted(marketCap, fallback) =>
        (if marketCap then MarketCapPrefix else "used_equal_weight")
        + (if fallback then FallbackSuffix else "")
    }
  }

  const FallbackSuffix: string := "_with_netprofit_fallback"

  /** The flag ends in the fallback suffix exactly when the plain growth was used somewhere. */
  lemma FallbackSuffixIffFallback(q: Quality)
    requires q.Weighted?
    ensures var n := q.Name();
      q.fallback <==> |n| >= |FallbackSuffix| && n[|n| - |FallbackSuffix|..] == FallbackSuffix
  {
    var n := q.Name();
    if q.fallback {
      var head := if q.marketCap then MarketCapPrefix else "used_equal_weight";
      assert n == head + FallbackSuffix;
      assert n[|n| - |FallbackSuffix|..] == FallbackSuffix;
    }
  }

  const MarketCapPrefix: string := "used_market_cap_weight"

  /** The flag starts with the market-cap wording exactly when most valid members weigh more than 1.0. */
  lemma MarketCapPrefixIffMarketCap(q: Quality)
    requires q.Weighted?
    ensures var n := q.Name();
      q.marketCap <==> |n| >= |MarketCapPrefix| && n[..|MarketCapPrefix|] == MarketCapPrefix
  {
    var n := q.Name();
    if q.marketCap {
      assert n[..|MarketCapPrefix|] == MarketCapPrefix;
    } else if |n| >= |MarketCapPrefix| {
      assert n[5] == 'e';
      assert n[..|MarketCapPrefix|][5] != MarketCapPrefix[5];
    }
  }

  // ---------------------------------------------------------------- one industry

  datatype ProfitReport = ProfitReport(
    code: string,
    name: string,
    growth: Option<real>,
    validCount: nat,
    totalCount: nat,
    quality: Quality)

  function Outcomes(members: seq<string>, caps: string -> CapFetch, fina: (string, Period) -> FinaFetch, period: Period): (os: seq<Outcome>)
    ensures |os| == |members|
    ensures forall i :: 0 <= i < |members| ==> os[i] == MemberOutcome(MarketCapWeight(caps(members[i])), fina(members[i], period))
  {
    if |members| == 0 then []
    else
      var rest := Outcomes(members[1..], caps, fina, period);
      assert forall i :: 1 <= i < |members| ==> members[i] == members[1..][i - 1];
      [MemberOutcome(MarketCapWeight(caps(members[0])), fina(members[0], period))] + rest
  }

  /** A member that passed every check and so enters `valid_weights`. */
  predicate Passed(o: Outcome) {
    o.contribution.Some?
  }

  /** The contribution column of the outcomes, None where a member was skipped. */
  function ContributionColumn(os: seq<Outcome>): (r: seq<Option<Contribution>>)
    ensures |r| == |os|
    ensures forall j :: 0 <= j < |os| ==> r[j] == os[j].contribution
  {
    seq(|os|, j requires 0 <= j < |os| => os[j].contribution)
  }

  /** The contributions of the members that passed, in member order: every passing member, once. */
  function Valid(os: seq<Outcome>): (cs: seq<Contribution>)
    ensures |cs| <= |os|
    ensures forall c :: c in cs <==> exists j :: 0 <= j < |os| && os[j].contribution == Some(c)
    ensures forall i :: 0 <= i < |cs| ==> exists j :: 0 <= j < |os| && os[j].contribution == Some(cs[i])
    ensures (exists j :: 0 <= j < |os| && os[j].contribution.Some?) ==> |cs| > 0
    ensures |cs| == Count(os, Passed)
  {
    var column := ContributionColumn(os);
    ValidCount(os);
    assert forall c :: Some(c) in column <==> exists j :: 0 <= j < |os| && os[j].contribution == Some(c);
    Somes(column)
  }

  lemma ColumnCons(os: seq<Outcome>)
    requires |os| > 0
    ensures Somes(ContributionColumn(os)) ==
      (if os[0].contribution.Some? then [os[0].contribution.value] else []) + Somes(ContributionColumn(os[1..]))
  {
    assert ContributionColumn(os)[1..] == ContributionColumn(os[1..]);
  }

  lemma {:induction false} ValidCount(os: seq<Outcome>)
    ensures |Somes(ContributionColumn(os))| == Count(os, Passed)
  {
    if |os| > 0 {
      ColumnCons(os);
      ValidCount(os[1..]);
    }
  }

  /** The total weight of the passing members, summed over all members with zero for a skipped one. */
  function PassingWeight(os: seq<Outcome>): real {
    if |os| == 0 then 0.0
    else (if Passed(os[0]) then os[0].contribution.value.weight else 0.0) + PassingWeight(os[1..])
  }

  /** The weighted growth of the passing members, summed over all members with zero for a skipped one. */
  function PassingSum(os: seq<Outcome>): real {
    if |os| == 0 then 0.0
    else
      (if Passed(os[0]) then os[0].contribution.value.weight * os[0].contribution.value.rate else 0.0)
      + PassingSum(os[1..])
  }

  lemma {:induction false} TotalWeightCons(c: Contribution, rest: seq<Contribution>)
    ensures TotalWeight([c] + rest) == c.weight + TotalWeight(rest)
    ensures WeightedSum([c] + rest) == c.weight * c.rate + WeightedSum(rest)
  {
    if |rest| > 0 {
      var init := rest[..|rest| - 1];
      TotalWeightCons(c, init);
      assert ([c] + rest)[..|[c] + rest| - 1] == [c] + init;
    }
  }

  lemma ValidCons(os: seq<Outcome>)
    requires |os| > 0
    ensures Valid(os) == (if Passed(os[0]) then [os[0].contribution.value] else []) + Valid(os[1..])
  {
    ColumnCons(os);
  }

  /** The sums over the kept contributions are the sums over every member that passed: none is missed. */
  lemma {:induction false} ValidSums(os: seq<Outcome>)
    ensures TotalWeight(Valid(os)) == PassingWeight(os)
    ensures WeightedSum(Valid(os)) == PassingSum(os)
  {
    if |os| > 0 {
      ValidSums(os[1..]);
      ValidCons(os);
      SumsStep(os, Valid(os), Valid(os[1..]));
    } else {
      assert Valid(os) == [];
    }
  }

  /** The industry's weighted growth, taken over every member that passed. */
  lemma MeanOfPassing(os: seq<Outcome>)
    requires |Valid(os)| > 0 && PositiveWeights(Valid(os))
    ensures PassingWeight(os) > 0.0
    ensures WeightedMean(Valid(os)) == PassingSum(os) / PassingWeight(os)
  {
    ValidSums(os);
    TotalWeightPositive(Valid(os));
  }

  lemma SumsStep(os: seq<Outcome>, kept: seq<Contribution>, rest: seq<Contribution>)
    requires |os| > 0
    requires kept == (if Passed(os[0]) then [os[0].contribution.value] else []) + rest
    requires TotalWeight(rest) == PassingWeight(os[1..]) && WeightedSum(rest) == PassingSum(os[1..])
    ensures TotalWeight(kept) == PassingWeight(os) && WeightedSum(kept) == PassingSum(os)
  {
    if Passed(os[0]) {
      TotalWeightCons(os[0].contribution.value, rest);
    } else {
      assert kept == rest;
    }
  }

  predicate AnyFallback(os: seq<Outcome>) {
    exists i :: 0 <= i < |os| && os[i].fallback
  }

  /**
   * Step 5 of the industry's report, once every member has been visited: no
   * valid member gives `no_valid_data`; otherwise the weighted mean with its
   * weighting flag and fallback suffix.
   */
  function Aggregate(code: string, name: string, total: nat, os: seq<Outcome>): (r: ProfitReport)
    requires |os| == total
    requires forall j :: 0 <= j < |os| && os[j].contribution.Some? ==>
      os[j].contribution.value.weight > 0.0 && Abs(os[j].contribution.value.rate) <= 1000.0
    ensures r.code == code && r.name == name && r.totalCount == total
    ensures r.quality.Weighted? || r.quality == NoValidData
    ensures r.quality.Weighted? <==> exists j :: 0 <= j < |os| && os[j].contribution.Some?
    ensures r.quality.Weighted? ==> (r.quality.fallback <==> exists j :: 0 <= j < |os| && os[j].fallback)
    ensures r.growth.Some? <==> r.quality.Weighted?
    ensures r.quality.Weighted? <==> r.validCount > 0
    ensures r.validCount <= r.totalCount
    ensures r.growth.Some? ==> -1000.0 <= r.growth.value <= 1000.0
    ensures r.quality.Weighted? ==> r.validCount == |Valid(os)| && PositiveWeights(Valid(os))
    ensures r.quality.Weighted? ==> r.growth == Some(WeightedMean(Valid(os)))
    ensures r.quality.Weighted? ==> MinRate(Valid(os)) <= r.growth.value <= MaxRate(Valid(os))
    ensures r.quality.Weighted? ==> (r.quality.marketCap <==> MarketCapWeighted(Valid(os)))
    ensures r.quality.Weighted? ==>
      && r.validCount == Count(os, Passed)
      && PassingWeight(os) > 0.0
      && r.growth == Some(PassingSum(os) / PassingWeight(os))
  {
    var cs := Valid(os);
    ValidNonEmpty(os);
    if |cs| == 0 then ProfitReport(code, name, None, 0, total, NoValidData)
    else
      ValidBounds(os);
      MeanBetween(cs, -1000.0, 1000.0);
      MeanOfPassing(os);
      ProfitReport(code, name, Some(WeightedMean(cs)), |cs|, total, Weighted(MarketCapWeighted(cs), AnyFallback(os)))
  }

  /**
   * The industry's report. The member list is read before the trade date is
   * parsed, so an empty or failed member list wins over a malformed date; a
   * malformed date raises inside the outer handler, which also clears the name.
   */
  function IndustryProfitGrowth(
    code: string, name: string, members: Option<seq<string>>, caps: string -> CapFetch,
    tradeDate: string, fina: (string, Period) -> FinaFetch): (r: ProfitReport)
    ensures r.code == code
    ensures r.quality == MemberApiError <==> members.None?
    ensures r.quality == NoMemberData <==> members == Some([])
    ensures r.quality == ProcessingError <==> members.Some? && |members.value| > 0 && Calendar.Parse(tradeDate).None?
    ensures r.quality == ProcessingError ==> r.name == "" && r.totalCount == 0
    ensures r.quality.Weighted? || r.quality == NoValidData ==> r.totalCount == |members.value|
    ensures r.growth.Some? <==> r.quality.Weighted?
    ensures r.validCount <= r.totalCount
    ensures r.quality.Weighted? <==> r.validCount > 0
    ensures r.growth.Some? ==> -1000.0 <= r.growth.value <= 1000.0
    ensures members.Some? && |members.value| > 0 && Calendar.Parse(tradeDate).Some? ==>
      var period := ReportPeriod(Calendar.Parse(tradeDate).value);
      r == Aggregate(code, name, |members.value|, Outcomes(members.value, caps, fina, period))
  {
    match members
    case None => ProfitReport(code, name, None, 0, 0, MemberApiError)
    case Some(ms) =>
      if |ms| == 0 then ProfitReport(code, name, None, 0, 0, NoMemberData)
      else
        match Calendar.Parse(tradeDate)
        case None => ProfitReport(code, "", None, 0, 0, ProcessingError)
        case Some(d) => Aggregate(code, name, |ms|, Outcomes(ms, caps, fina, ReportPeriod(d)))
  }

  /** Every valid contribution has a positive weight and a rate of at most 1000 percent either way. */
  lemma ValidBounds(os: seq<Outcome>)
    requires forall j :: 0 <= j < |os| && os[j].contribution.Some? ==>
      os[j].contribution.value.weight > 0.0 && Abs(os[j].contribution.value.rate) <= 1000.0
    ensures PositiveWeights(Valid(os))
    ensures forall i :: 0 <= i < |Valid(os)| ==> -1000.0 <= Valid(os)[i].rate <= 1000.0
  {
  }

  lemma ValidNonEmpty(os: seq<Outcome>)
    ensures |Valid(os)| > 0 <==> exists j :: 0 <= j < |os| && os[j].contribution.Some?
  {
    var cs := Valid(os);
    if |cs| > 0 {
      var j :| 0 <= j < |os| && os[j].contribution == Some(cs[0]);
    }
  }

  /** The deducted growth is used whenever it is present and in range, even when the plain growth is also present. */
  lemma DeductedGrowthPreferred(weight: real, dt: real, net: Growth)
    requires Abs(dt) <= 1000.0
    ensures MemberOutcome(weight, FinaRows(Financials(Finite(dt), net))) == Outcome(Some(Contribution(weight, dt)), false)
  {
  }
}

=== FILE: sector_valuation.dfy ===
/**
 * `evaluate_sector_valuation`: each Shenwan level-1 industry index is judged by
 * the historical percentile of its latest PE or PB (whichever suits the
 * industry), and the indices are listed overvalued first.
 */
module SectorValuation {
  import opened Base
  import opened IndexTable
  import Segments
  import SectorDaily

  datatype Metric = PE | PB

  datatype Status = Overvalued | Neutral | Undervalued | Unknown
  {
    function Name(): string {
      match this
      case Overvalued => "高估"
      case Neutral => "中性"
      case Undervalued => "低估"
      case Unknown => "未知"
    }
  }

  // ---------------------------------------------------------------- percentile

  /** Python's `round` to an integer: to the nearest, ties to the even neighbour. */
  function RoundHalfEven(x: real): (n: int)
    ensures -0.5 <= (n as real) - x <= 0.5
    ensures (n as real) - x == 0.5 || x - (n as real) == 0.5 ==> n % 2 == 0
  {
    var f := x.Floor;
    var frac := x - f as real;
    if frac < 0.5 then f
    else if frac > 0.5 then f + 1
    else if f % 2 == 0 then f
    else f + 1
  }

  lemma RoundMonotone(x: real, y: real)
    requires x <= y
    ensures RoundHalfEven(x) <= RoundHalfEven(y)
  {
    var a, b := RoundHalfEven(x), RoundHalfEven(y);
    if a > b {
      assert a == b + 1;
      assert x == y;
    }
  }

  predicate IsPresent(x: Option<real>) {
    x.Some?
  }

  function AtMost(v: real): Option<real> -> bool {
    (x: Option<real>) => x.Some? && x.value <= v
  }

  /**
   * `calculate_percentile`: the share of the non-NaN values that are at most the
   * current one, as a whole percentage; NaN (None) for an empty series, a NaN
   * current value, or a series of NaN only.
   */
  function Percentile(series: seq<Option<real>>, current: Option<real>): (r: Option<int>)
    ensures r.None? <==> |series| == 0 || current.None? || Count(series, IsPresent) == 0
    ensures r.Some? ==> 0 <= r.value <= 100
  {
    if |series| == 0 || current.None? then None
    else
      var total := Count(series, IsPresent);
      if total == 0 then None
      else
        var le := Count(series, AtMost(current.value));
        CountMonotone(series, AtMost(current.value), IsPresent);
        var share := Share(le, total);
        RoundMonotone(0.0, share);
        RoundMonotone(share, 100.0);
        Some(RoundHalfEven(share))
  }

  /** The percentile is the whole number nearest to 100 times the share of values at most the current one. */
  lemma PercentileIsNearestShare(series: seq<Option<real>>, v: real)
    requires Count(series, IsPresent) > 0
    ensures var share := Share(Count(series, AtMost(v)), Count(series, IsPresent));
      Percentile(series, Some(v)).Some? &&
      -0.5 <= (Percentile(series, Some(v)).value as real) - share <= 0.5
  {
  }

  /** A larger current value never has a smaller percentile. */
  lemma PercentileMonotone(series: seq<Option<real>>, v: real, w: real)
    requires v <= w && Count(series, IsPresent) > 0
    ensures Percentile(series, Some(v)).Some? && Percentile(series, Some(w)).Some?
    ensures Percentile(series, Some(v)).value <= Percentile(series, Some(w)).value
  {
    CountMonotone(series, AtMost(v), AtMost(w));
    var total := Count(series, IsPresent);
    var a := Count(series, AtMost(v));
    var b := Count(series, AtMost(w));
    ShareMonotone(a, b, total);
    RoundMonotone(Share(a, total), Share(b, total));
  }

  /** A value at least as large as every present value is at the 100th percentile. */
  lemma MaximumIsHundred(series: seq<Option<real>>, v: real)
    requires Count(series, IsPresent) > 0
    requires forall i :: 0 <= i < |series| && series[i].Some? ==> series[i].value <= v
    ensures Percentile(series, Some(v)) == Some(100)
  {
    CountMonotone(series, IsPresent, AtMost(v));
    CountMonotone(series, AtMost(v), IsPresent);
    var total := Count(series, IsPresent);
    assert Share(Count(series, AtMost(v)), total) == 100.0;
    assert RoundHalfEven(100.0) == 100;
  }

  // ---------------------------------------------------------------- status

  /** At least 80 is overvalued, at most 20 undervalued, NaN unknown. */
  function StatusOf(percentile: Option<int>): (s: Status)
    ensures s == Unknown <==> percentile.None?
    ensures s == Overvalued <==> percentile.Some? && percentile.value >= 80
    ensures s == Undervalued <==> percentile.Some? && percentile.value <= 20
  {
    match percentile
    case None => Unknown
    case Some(p) => if p >= 80 then Overvalued else if p <= 20 then Undervalued else Neutral
  }

  /** The metric chosen per industry index; unlisted codes fall back to PE. */
  const MetricMap: map<string, Metric> := map[
    "801010.SI" := PE, "801030.SI" := PB, "801040.SI" := PB, "801050.SI" := PB,
    "801080.SI" := PE, "801110.SI" := PE, "801120.SI" := PE, "801130.SI" := PE,
    "801140.SI" := PE, "801150.SI" := PE, "801160.SI" := PB, "801170.SI" := PB,
    "801180.SI" := PB, "801200.SI" := PE, "801210.SI" := PE, "801230.SI" := PE,
    "801710.SI" := PB, "801720.SI" := PB, "801730.SI" := PE, "801740.SI" := PE,
    "801750.SI" := PE, "801760.SI" := PE, "801770.SI" := PE, "801780.SI" := PB,
    "801790.SI" := PB, "801880.SI" := PE, "801890.SI" := PB, "801950.SI" := PB,
    "801960.SI" := PB, "801970.SI" := PE, "801980.SI" := PE]

  /**
   * The asset-heavy, cyclical and financial industries: chemicals, steel, non-ferrous
   * metals, utilities, transport, real estate, building materials, construction,
   * banks, non-bank finance, machinery, coal, petroleum.
   */
  const PbIndustries: set<string> := {
    "801030.SI", "801040.SI", "801050.SI", "801160.SI", "801170.SI", "801180.SI", "801710.SI",
    "801720.SI", "801780.SI", "801790.SI", "801890.SI", "801950.SI", "801960.SI"}

  /** Exactly the thirteen asset-heavy industries are judged by PB; every other code, listed or not, by PE. */
  function PrimaryMetric(code: string): (m: Metric)
    ensures m == PB <==> code in PbIndustries
    ensures m == PE <==> code !in PbIndustries
  {
    if code in MetricMap then MetricMap[code] else PE
  }

  /** `status_order`: overvalued, neutral, undervalued, unknown. */
  function Rank(s: Status): (n: nat)
    ensures n <= 3
    ensures n == 0 <==> s == Overvalued
    ensures n == 3 <==> s == Unknown
  {
    match s
    case Overvalued => 0
    case Neutral => 1
    case Undervalued => 2
    case Unknown => 3
  }

  // ---------------------------------------------------------------- one index

  datatype IndexInfo = IndexInfo(code: string, name: string)

  datatype Evaluation = Evaluation(
    code: string,
    name: string,
    peLatest: real,
    pePercentile: Option<int>,
    pbLatest: real,
    pbPercentile: Option<int>,
    metric: Metric,
    status: Status)

  /**
   * One index: the rows with both PE and PB, the latest of them, the percentiles
   * of its PE and PB among them, and the status by the industry's metric. None
   * when the index has no data or no complete row (the script skips it).
   */
  function EvaluateIndex(info: IndexInfo, daily: seq<Day>): (r: Option<Evaluation>)
    ensures r.Some? <==> exists i :: 0 <= i < |daily| && Complete(daily[i])
    ensures r.Some? ==> r.value.code == info.code && r.value.metric == PrimaryMetric(info.code)
    ensures r.Some? ==> r.value.status == StatusOf(
      if r.value.metric == PE then r.value.pePercentile else r.value.pbPercentile)
    ensures r.Some? ==>
      var last, clean := Latest(daily).value, CompleteRows(daily);
      && r.value.name == info.name
      && Some(r.value.peLatest) == last.pe && Some(r.value.pbLatest) == last.pb
      && r.value.pePercentile == Percentile(PeColumn(clean), last.pe)
      && r.value.pbPercentile == Percentile(PbColumn(clean), last.pb)
  {
    if |daily| == 0 then None
    else
      var clean := CompleteRows(daily);
      NoCompleteRows(daily);
      if |clean| == 0 then None
      else
        var latest := clean[|clean| - 1];
        var pe := Percentile(PeColumn(clean), latest.pe);
        var pb := Percentile(PbColumn(clean), latest.pb);
        var metric := PrimaryMetric(info.code);
        Some(Evaluation(info.code, info.name, latest.pe.value, pe, latest.pb.value, pb, metric,
                        StatusOf(if metric == PE then pe else pb)))
  }

  /** The latest value is itself in the series, so an evaluated index always has both percentiles and a known status. */
  lemma EvaluatedStatusIsKnown(info: IndexInfo, daily: seq<Day>)
    requires EvaluateIndex(info, daily).Some?
    ensures EvaluateIndex(info, daily).value.pePercentile.Some?
    ensures EvaluateIndex(info, daily).value.pbPercentile.Some?
    ensures EvaluateIndex(info, daily).value.status != Unknown
  {
    var clean := CompleteRows(daily);
    var k := |clean| - 1;
    CountPositive(PeColumn(clean), IsPresent, k);
    CountPositive(PbColumn(clean), IsPresent, k);
  }

  // ---------------------------------------------------------------- all indices

  /** The rows with status `s`, in their original order. */
  function WithStatus(rows: seq<Evaluation>, s: Status): (r: seq<Evaluation>)
    ensures forall i :: 0 <= i < |r| ==> r[i].status == s
  {
    if |rows| == 0 then []
    else (if rows[0].status == s then [rows[0]] else []) + WithStatus(rows[1..], s)
  }

  /** `sort_values('status_order')`, keeping the original order within a status. */
  function OrderByStatus(rows: seq<Evaluation>): seq<Evaluation> {
    WithStatus(rows, Overvalued) + WithStatus(rows, Neutral) + WithStatus(rows, Undervalued) + WithStatus(rows, Unknown)
  }

  predicate RankSorted(rows: seq<Evaluation>) {
    forall i, j :: 0 <= i < j < |rows| ==> Rank(rows[i].status) <= Rank(rows[j].status)
  }

  lemma RankSortedConcat(a: seq<Evaluation>, b: seq<Evaluation>, k: nat)
    requires RankSorted(a) && RankSorted(b)
    requires forall i :: 0 <= i < |a| ==> Rank(a[i].status) <= k
    requires forall j :: 0 <= j < |b| ==> k <= Rank(b[j].status)
    ensures RankSorted(a + b)
  {
    forall i, j | 0 <= i < j < |a + b|
      ensures Rank((a + b)[i].status) <= Rank((a + b)[j].status)
    {
      if j < |a| {
      } else if i >= |a| {
        assert (a + b)[i] == b[i - |a|] && (a + b)[j] == b[j - |a|];
      } else {
        assert (a + b)[j] == b[j - |a|];
      }
    }
  }

  lemma InsertIntoFour<E>(h: E, a: seq<E>, b: seq<E>, c: seq<E>, d: seq<E>)
    ensures multiset(([h] + a) + b + c + d) == multiset{h} + multiset(a + b + c + d)
    ensures multiset(a + ([h] + b) + c + d) == multiset{h} + multiset(a + b + c + d)
    ensures multiset(a + b + ([h] + c) + d) == multiset{h} + multiset(a + b + c + d)
    ensures multiset(a + b + c + ([h] + d)) == multiset{h} + multiset(a + b + c + d)
  {
    var m := multiset(a) + multiset(b) + multiset(c) + multiset(d);
    assert multiset(a + b + c + d) == m;
    assert multiset([h] + a) == multiset{h} + multiset(a);
    assert multiset([h] + b) == multiset{h} + multiset(b);
    assert multiset([h] + c) == multiset{h} + multiset(c);
    assert multiset([h] + d) == multiset{h} + multiset(d);
  }

  lemma WithStatusCons(rows: seq<Evaluation>, s: Status)
    requires |rows| > 0
    ensures rows[0].status == s ==> WithStatus(rows, s) == [rows[0]] + WithStatus(rows[1..], s)
    ensures rows[0].status != s ==> WithStatus(rows, s) == WithStatus(rows[1..], s)
  {
    if rows[0].status != s {
      assert [] + WithStatus(rows[1..], s) == WithStatus(rows[1..], s);
    }
  }

  /** Moving the first row out of the grouping: it joins its own group, in front. */
  lemma OrderByStatusCons(rows: seq<Evaluation>)
    requires |rows| > 0
    ensures multiset(OrderByStatus(rows)) == multiset{rows[0]} + multiset(OrderByStatus(rows[1..]))
  {
    var h, tail := rows[0], rows[1..];
    InsertIntoFour(h, WithStatus(tail, Overvalued), WithStatus(tail, Neutral), WithStatus(tail, Undervalued), WithStatus(tail, Unknown));
    WithStatusCons(rows, Overvalued);
    WithStatusCons(rows, Neutral);
    WithStatusCons(rows, Undervalued);
    WithStatusCons(rows, Unknown);
  }

  lemma {:induction false} OrderKeepsRows(rows: seq<Evaluation>)
    ensures multiset(OrderByStatus(rows)) == multiset(rows)
  {
    if |rows| > 0 {
      OrderKeepsRows(rows[1..]);
      OrderByStatusCons(rows);
      MultisetCons(rows);
    }
  }

  /** The listing is grouped overvalued, neutral, undervalued, unknown, and holds every evaluated index once. */
  lemma OrderByStatusSpec(rows: seq<Evaluation>)
    ensures RankSorted(OrderByStatus(rows))
    ensures multiset(OrderByStatus(rows)) == multiset(rows)
  {
    var o, n, u, k := WithStatus(rows, Overvalued), WithStatus(rows, Neutral), WithStatus(rows, Undervalued), WithStatus(rows, Unknown);
    RankSortedConcat(o, n, 0);
    RankSortedConcat(o + n, u, 1);
    RankSortedConcat(o + n + u, k, 2);
    OrderKeepsRows(rows);
  }

  /** The series of one index over the default five years. */
  function DailyOf(info: IndexInfo, fetch: (string, Segments.Segment) -> Option<seq<Day>>): seq<Day> {
    SectorDaily.IndexDailyData(SectorDaily.DefaultStart(), SectorDaily.DefaultEnd(), Segments.Requests(info.code, fetch))
  }

  /** One index evaluated on its default five-year series: skipped exactly when that series has no complete row. */
  function EvaluateFetched(info: IndexInfo, fetch: (string, Segments.Segment) -> Option<seq<Day>>): (r: Option<Evaluation>)
    ensures r == EvaluateIndex(info, DailyOf(info, fetch))
    ensures r.None? <==> forall i :: 0 <= i < |DailyOf(info, fetch)| ==> !Complete(DailyOf(info, fetch)[i])
    ensures r.Some? ==> r.value.status != Unknown && r.value.code == info.code
  {
    var daily := DailyOf(info, fetch);
    var r := EvaluateIndex(info, daily);
    if r.Some? then
      EvaluatedStatusIsKnown(info, daily);
      r
    else r
  }

  /** Each listed index with its evaluation, or None where the script skips it. */
  function Evaluations(indices: seq<IndexInfo>, fetch: (string, Segments.Segment) -> Option<seq<Day>>): (r: seq<Option<Evaluation>>)
    ensures |r| == |indices|
    ensures forall k :: 0 <= k < |indices| ==> r[k] == EvaluateFetched(indices[k], fetch)
  {
    seq(|indices|, k requires 0 <= k < |indices| => EvaluateFetched(indices[k], fetch))
  }

  /** The evaluations of the indices that have data, in the order the index list gives them. */
  function EvaluateAll(indices: seq<IndexInfo>, fetch: (string, Segments.Segment) -> Option<seq<Day>>): (r: seq<Evaluation>)
    ensures |r| <= |indices|
    ensures AllKnown(r)
    ensures r == Somes(Evaluations(indices, fetch))
    ensures forall e :: e in r <==> exists k :: 0 <= k < |indices| && EvaluateFetched(indices[k], fetch) == Some(e)
  {
    EvaluatedMembers(indices, fetch);
    if |indices| == 0 then []
    else
      var rest := EvaluateAll(indices[1..], fetch);
      EvaluationsCons(indices, fetch);
      match EvaluateFetched(indices[0], fetch)
      case None => rest
      case Some(e) =>
        KnownCons(e, rest);
        [e] + rest
  }

  lemma EvaluationsCons(indices: seq<IndexInfo>, fetch: (string, Segments.Segment) -> Option<seq<Day>>)
    requires |indices| > 0
    ensures Somes(Evaluations(indices, fetch)) ==
      (if EvaluateFetched(indices[0], fetch).Some? then [EvaluateFetched(indices[0], fetch).value] else [])
      + Somes(Evaluations(indices[1..], fetch))
  {
    var ev := Evaluations(indices, fetch);
    assert ev[1..] == Evaluations(indices[1..], fetch);
  }

  lemma EvaluatedMembers(indices: seq<IndexInfo>, fetch: (string, Segments.Segment) -> Option<seq<Day>>)
    ensures forall e :: e in Somes(Evaluations(indices, fetch)) <==>
      exists k :: 0 <= k < |indices| && EvaluateFetched(indices[k], fetch) == Some(e)
  {
    var ev := Evaluations(indices, fetch);
    forall e | e in Somes(ev)
      ensures exists k :: 0 <= k < |indices| && EvaluateFetched(indices[k], fetch) == Some(e)
    {
      var k :| 0 <= k < |ev| && ev[k] == Some(e);
    }
    forall e, k | 0 <= k < |indices| && EvaluateFetched(indices[k], fetch) == Some(e)
      ensures e in Somes(ev)
    {
      assert ev[k] == Some(e);
    }
  }

  predicate AllKnown(rows: seq<Evaluation>) {
    forall i :: 0 <= i < |rows| ==> rows[i].status != Unknown
  }

  lemma KnownCons(e: Evaluation, rows: seq<Evaluation>)
    requires e.status != Unknown && AllKnown(rows)
    ensures AllKnown([e] + rows)
  {
    assert forall i :: 0 < i < |[e] + rows| ==> ([e] + rows)[i] == rows[i - 1];
  }

  /** Why the written tool stops with an exception instead of returning a table. */
  datatype Failure = MissingStatusColumn

  /**
   * As written: when the index list is non-empty but no index yields an
   * evaluation, `pd.DataFrame([])` has no `valuation_status` column and reading
   * it raises `KeyError`.
   */
  function EvaluateSectorValuationAsWritten(indices: seq<IndexInfo>, fetch: (string, Segments.Segment) -> Option<seq<Day>>): (r: Result<seq<Evaluation>, Failure>)
    ensures r.Err? <==> |indices| > 0 && |EvaluateAll(indices, fetch)| == 0
  {
    if |indices| == 0 then Ok([])
    else
      var results := EvaluateAll(indices, fetch);
      if |results| == 0 then Err(MissingStatusColumn)
      else Ok(OrderByStatus(results))
  }

  /** The tool with an empty evaluation list answered by an empty table, as an empty index list already is. */
  function EvaluateSectorValuation(indices: seq<IndexInfo>, fetch: (string, Segments.Segment) -> Option<seq<Day>>): (r: seq<Evaluation>)
    ensures RankSorted(r)
    ensures multiset(r) == multiset(EvaluateAll(indices, fetch))
    ensures AllKnown(r)
  {
    var results := EvaluateAll(indices, fetch);
    OrderByStatusSpec(results);
    KnownPermutation(results, OrderByStatus(results));
    OrderByStatus(results)
  }

  lemma KnownPermutation(a: seq<Evaluation>, b: seq<Evaluation>)
    requires multiset(a) == multiset(b) && AllKnown(a)
    ensures AllKnown(b)
  {
    forall i | 0 <= i < |b|
      ensures b[i].status != Unknown
    {
      assert b[i] in multiset(a);
    }
  }

  /** Wherever the written tool returns a table, it is this one; it fails exactly when this one is empty for a non-empty list. */
  lemma AsWrittenFailsOnlyWhenEmpty(indices: seq<IndexInfo>, fetch: (string, Segments.Segment) -> Option<seq<Day>>)
    ensures EvaluateSectorValuationAsWritten(indices, fetch).Ok? ==>
      EvaluateSectorValuationAsWritten(indices, fetch).value == EvaluateSectorValuation(indices, fetch)
    ensures EvaluateSectorValuationAsWritten(indices, fetch).Err? <==>
      |indices| > 0 && EvaluateSectorValuation(indices, fetch) == []
  {
    var results := EvaluateAll(indices, fetch);
    OrderByStatusSpec(results);
  }

  /** One industry whose every request returns nothing: the written tool raises. */
  lemma AsWrittenRaisesWithoutData()
    ensures var fetch := (code: string, s: Segments.Segment) => Some([]);
      EvaluateSectorValuationAsWritten([IndexInfo("801010.SI", "农林牧渔")], fetch) == Err(MissingStatusColumn)
  {
    var fetch := (code: string, s: Segments.Segment) => Some([]);
    var info := IndexInfo("801010.SI", "农林牧渔");
    NothingFetchedNoEvaluation(info, fetch);
    assert EvaluateAll([info][1..], fetch) == [];
  }

  lemma NothingFetchedNoEvaluation(info: IndexInfo, fetch: (string, Segments.Segment) -> Option<seq<Day>>)
    requires forall s :: fetch(info.code, s) == Some([])
    ensures EvaluateFetched(info, fetch) == None
  {
    GatherNothing(Segments.Plan(SectorDaily.DefaultStart(), SectorDaily.DefaultEnd()), Segments.Requests(info.code, fetch));
    assert |DailyOf(info, fetch)| == 0;
  }

  lemma {:induction false} GatherNothing(segs: seq<Segments.Segment>, fetch: Segments.Segment -> Option<seq<Day>>)
    requires forall s :: fetch(s) == Some([])
    ensures Segments.Gather(segs, fetch) == []
  {
    if |segs| > 0 {
      GatherNothing(segs[1..], fetch);
    }
  }
}

=== FILE: segments.dfy ===
/**
 * Splitting a date range into fetch requests of at most a year each, as both
 * index scripts do to stay under the data service's row limit. Days are day
 * numbers (`Calendar.Ordinal`), so `timedelta(days=n)` is `+ n`.
 */
module Segments {
  import opened Base

  /** One request: every day from `lo` to `hi`, both included. */
  datatype Segment = Segment(lo: int, hi: int)

  /** A segment ends at most this many days after it starts. */
  const Span: int := 365

  /** The segments are non-empty and abut: each starts the day after the previous one ends. */
  predicate Contiguous(segs: seq<Segment>) {
    && (forall i :: 0 <= i < |segs| ==> segs[i].lo <= segs[i].hi <= segs[i].lo + Span)
    && (forall i :: 0 < i < |segs| ==> segs[i].lo == segs[i - 1].hi + 1)
  }

  predicate Covered(segs: seq<Segment>, day: int) {
    exists i :: 0 <= i < |segs| && segs[i].lo <= day <= segs[i].hi
  }

  /**
   * The loop `while start <= end`: request [start, min(start + 365, end)], then
   * continue the day after. Every day of the range is requested exactly once.
   */
  function Plan(start: int, end: int): (segs: seq<Segment>)
    ensures Contiguous(segs)
    ensures |segs| == 0 <==> start > end
    ensures |segs| > 0 ==> segs[0].lo == start && segs[|segs| - 1].hi == end
    decreases end - start
  {
    if start <= end then
      var hi := if start + Span < end then start + Span else end;
      [Segment(start, hi)] + Plan(hi + 1, end)
    else []
  }

  /**
   * The loop as `get_index_daily_data` writes it, `while start < end`: the loop
   * also stops when the next segment would be the single day `end`.
   */
  function PlanAsWritten(start: int, end: int): (segs: seq<Segment>)
    ensures |segs| == 0 <==> start >= end
    ensures |segs| > 0 ==> segs[0].lo == start && end - 1 <= segs[|segs| - 1].hi <= end
    decreases end - start
  {
    if start < end then
      var hi := if start + Span < end then start + Span else end;
      [Segment(start, hi)] + PlanAsWritten(hi + 1, end)
    else []
  }

  /** A contiguous run of segments covers exactly the days from its first start to its last end. */
  lemma {:induction false} ContiguousCoverage(segs: seq<Segment>, day: int)
    requires Contiguous(segs) && |segs| > 0
    ensures Covered(segs, day) <==> segs[0].lo <= day <= segs[|segs| - 1].hi
  {
    if Covered(segs, day) {
      var i :| 0 <= i < |segs| && segs[i].lo <= day <= segs[i].hi;
      ContiguousStartsIncrease(segs, i);
    }
    if segs[0].lo <= day <= segs[|segs| - 1].hi {
      if day <= segs[0].hi {
        assert segs[0].lo <= day <= segs[0].hi;
      } else {
        var rest := segs[1..];
        assert Contiguous(rest);
        ContiguousCoverage(rest, day);
        var k :| 0 <= k < |rest| && rest[k].lo <= day <= rest[k].hi;
        assert segs[k + 1] == rest[k];
      }
    }
  }

  /** Within a contiguous run, later segments start no earlier and end no earlier. */
  lemma {:induction false} ContiguousStartsIncrease(segs: seq<Segment>, i: nat)
    requires Contiguous(segs) && i < |segs|
    ensures segs[0].lo <= segs[i].lo && segs[i].hi <= segs[|segs| - 1].hi
  {
    if i > 0 {
      ContiguousStartsIncrease(segs[..i], i - 1);
    }
    if i < |segs| - 1 {
      ContiguousStartsIncrease(segs[i + 1..], |segs| - i - 2);
      assert segs[i + 1..][0] == segs[i + 1];
    }
  }

  /** The corrected loop requests every day of the range and nothing else. */
  lemma PlanCoversRange(start: int, end: int, day: int)
    ensures Covered(Plan(start, end), day) <==> start <= day <= end
  {
    if start <= end {
      ContiguousCoverage(Plan(start, end), day);
    }
  }

  /** The single-day segment the written loop leaves out, when there is one. */
  function Dropped(start: int, end: int): seq<Segment> {
    if start <= end && (end - start) % (Span + 1) == 0 then [Segment(end, end)] else []
  }

  /**
   * The written loop agrees with the corrected one except that it drops the last
   * segment when that segment is the single day `end`, which happens exactly
   * when `end` lies a whole number of 366-day strides after `start`.
   */
  lemma {:induction false} AsWrittenDropsLastDay(start: int, end: int)
    ensures Plan(start, end) == PlanAsWritten(start, end) + Dropped(start, end)
    decreases end - start
  {
    if start + Span >= end {
      ShortRange(start, end);
    } else {
      var next := start + Span + 1;
      AsWrittenDropsLastDay(next, end);
      StrideMod(end - next);
      FullSegmentStep(start, end);
      assert Dropped(start, end) == Dropped(next, end);
    }
  }

  /** A range of at most a year is one segment, which the written loop keeps unless it is a single day. */
  lemma ShortRange(start: int, end: int)
    requires start + Span >= end
    ensures Plan(start, end) == PlanAsWritten(start, end) + Dropped(start, end)
  {
    if start == end {
      assert Dropped(start, end) == [Segment(end, end)];
      assert PlanAsWritten(start, end) == [];
      assert Plan(end + 1, end) == [];
    } else if start < end {
      assert (end - start) % (Span + 1) == end - start;
      assert Dropped(start, end) == [];
      assert PlanAsWritten(end + 1, end) == [] && Plan(end + 1, end) == [];
    } else {
      assert Dropped(start, end) == [];
    }
  }

  /** A range longer than a year starts with one full 366-day segment under both loops. */
  lemma FullSegmentStep(start: int, end: int)
    requires start + Span < end
    ensures Plan(start, end) == [Segment(start, start + Span)] + Plan(start + Span + 1, end)
    ensures PlanAsWritten(start, end) == [Segment(start, start + Span)] + PlanAsWritten(start + Span + 1, end)
  {
  }

  lemma StrideMod(x: int)
    ensures (x + (Span + 1)) % (Span + 1) == x % (Span + 1)
  {
  }

  /** A concrete range the written loop gets wrong: day 366 after the start is never requested. */
  lemma AsWrittenMissesEndDay()
    ensures PlanAsWritten(0, 366) == [Segment(0, 365)]
    ensures !Covered(PlanAsWritten(0, 366), 366)
    ensures Plan(0, 366) == [Segment(0, 365), Segment(366, 366)]
  {
    assert PlanAsWritten(366, 366) == [];
    assert Plan(367, 366) == [];
  }

  /** Some request that answered returned `x`. */
  predicate Answers<T(==)>(segs: seq<Segment>, fetch: Segment -> Option<seq<T>>, x: T) {
    exists i :: 0 <= i < |segs| && fetch(segs[i]).Some? && x in fetch(segs[i]).value
  }

  /** The number of rows all answering requests returned together. */
  function AnsweredCount<T>(segs: seq<Segment>, fetch: Segment -> Option<seq<T>>): nat {
    if |segs| == 0 then 0
    else (if fetch(segs[0]).Some? then |fetch(segs[0]).value| else 0) + AnsweredCount(segs[1..], fetch)
  }

  /**
   * The rows of every request, in request order. A request that raised (None) is
   * logged and contributes nothing, as in `get_index_daily_data`.
   */
  function Gather<T(==,!new)>(segs: seq<Segment>, fetch: Segment -> Option<seq<T>>): (rows: seq<T>)
    ensures forall i :: 0 <= i < |segs| && fetch(segs[i]).Some? ==> multiset(fetch(segs[i]).value) <= multiset(rows)
    ensures forall x :: x in rows <==> Answers(segs, fetch, x)
    ensures |rows| == AnsweredCount(segs, fetch)
  {
    if |segs| == 0 then []
    else
      var first := match fetch(segs[0]) case None => [] case Some(rows) => rows;
      var rest := Gather(segs[1..], fetch);
      assert forall i :: 1 <= i < |segs| ==> segs[i] == segs[1..][i - 1];
      first + rest
  }

  /**
   * The rows of every request when all of them answered; None as soon as one
   * raised, since `get_index_valuation_analysis` then abandons the whole index.
   */
  function GatherAll<T(==,!new)>(segs: seq<Segment>, fetch: Segment -> Option<seq<T>>): (rows: Option<seq<T>>)
    ensures rows.None? <==> exists i :: 0 <= i < |segs| && fetch(segs[i]).None?
    ensures rows.Some? ==> rows.value == Gather(segs, fetch)
  {
    if |segs| == 0 then Some([])
    else
      assert forall i :: 1 <= i < |segs| ==> segs[i] == segs[1..][i - 1];
      match fetch(segs[0])
      case None => None
      case Some(first) =>
        match GatherAll(segs[1..], fetch)
        case None => None
        case Some(rest) => Some(first + rest)
  }

  /** The requests of one index, given the data service for every index. */
  function Requests<T>(code: string, fetch: (string, Segment) -> Option<seq<T>>): (r: Segment -> Option<seq<T>>)
    ensures forall s :: r(s) == fetch(code, s)
  {
    (s: Segment) => fetch(code, s)
  }
}

=== FILE: sentiment.dfy ===
/**
 * The sentiment and volume tool (`get_sentiment_volume`): the row of the
 * requested day is labelled with turnover, volume ratio, OBV direction
 * (against the previous row), BRAR and VR sentiment, an MFI/PSY pair, and an
 * aggregate market sentiment.
 */
module SentimentVolume {
  import opened Base
  import Table

  /** The columns of one daily factor row that the sentiment labels read. */
  datatype Row = Row(
    date: string,
    turnoverF: Option<real>,    // turnover_rate_f, free-float turnover (%)
    turnover: Option<real>,     // turnover_rate, total turnover (%)
    volumeRatio: Option<real>,  // volume_ratio
    obv: Option<real>,          // obv_qfq
    ar: Option<real>,           // brar_ar_qfq
    br: Option<real>,           // brar_br_qfq
    vr: Option<real>,           // vr_qfq
    mfi: Option<real>,          // mfi_qfq
    psy: Option<real>)          // psy_qfq

  datatype Turnover = HighTurnover | NormalTurnover | LowTurnover
  datatype Volume = VolumeSurge | NormalVolume | VolumeDryUp
  datatype ObvTrend = Rising | Falling | Flat | DataUnavailable
  datatype Brar = OverlyBullish | OverlyBearish | NeutralSentiment | BullishSentiment | BearishSentiment
  datatype VrStatus = BullishVolume | BearishVolume | NeutralVolume

  datatype MfiState = MfiOverbought | MfiOversold | MfiNeutral | MfiNa {
    function Name(): string {
      match this
      case MfiOverbought => "mfi_overbought"
      case MfiOversold => "mfi_oversold"
      case MfiNeutral => "mfi_neutral"
      case MfiNa => "mfi_na"
    }
  }

  datatype PsyState = PsyOverbullish | PsyOversold | PsyNeutral | PsyNa {
    function Name(): string {
      match this
      case PsyOverbullish => "psy_overbullish"
      case PsyOversold => "psy_oversold"
      case PsyNeutral => "psy_neutral"
      case PsyNa => "psy_na"
    }
  }

  /** The combined MFI/PSY label: both parts joined by `_`, or one word when both are missing. */
  datatype MfiPsyStatus = MfiPsyUnavailable | Combined(mfi: MfiState, psy: PsyState) {
    function Name(): string {
      match this
      case MfiPsyUnavailable => "mfi_psy_unavailable"
      case Combined(m, p) => m.Name() + "_" + p.Name()
    }
  }

  datatype Sentiment = StronglyBullish | StronglyBearish | Apathetic | NeutralMarket

  datatype Report = Report(
    date: string,
    turnover: Option<Turnover>,
    volume: Option<Volume>,
    obv: ObvTrend,
    brar: Option<Brar>,
    vr: Option<VrStatus>,
    mfiPsy: MfiPsyStatus,
    market: Sentiment)

  function TurnoverLevel(rate: real): (t: Turnover)
    ensures t == HighTurnover <==> rate >= 5.0
    ensures t == LowTurnover <==> rate < 1.0
  {
    if rate >= 5.0 then HighTurnover
    else if rate >= 1.0 then NormalTurnover
    else LowTurnover
  }

  /** Free-float turnover when present, total turnover otherwise. */
  function TurnoverStatus(row: Row): (r: Option<Turnover>)
    ensures r.None? <==> row.turnoverF.None? && row.turnover.None?
    ensures row.turnoverF.Some? ==> r == Some(TurnoverLevel(row.turnoverF.value))
    ensures row.turnoverF.None? && row.turnover.Some? ==> r == Some(TurnoverLevel(row.turnover.value))
  {
    if row.turnoverF.Some? then Some(TurnoverLevel(row.turnoverF.value))
    else if row.turnover.Some? then Some(TurnoverLevel(row.turnover.value))
    else None
  }

  function VolumeStatus(row: Row): (r: Option<Volume>)
    ensures r.None? <==> row.volumeRatio.None?
    ensures r == Some(VolumeSurge) <==> Ge(row.volumeRatio, Some(2.0))
    ensures r == Some(VolumeDryUp) <==> Lt(row.volumeRatio, Some(0.8))
  {
    match row.volumeRatio
    case None => None
    case Some(ratio) =>
      Some(if ratio >= 2.0 then VolumeSurge else if ratio >= 0.8 then NormalVolume else VolumeDryUp)
  }

  /** OBV of the requested row against the row before it; any gap reads as unavailable. */
  function ObvTrendAt(rows: seq<Row>, idx: nat): (r: ObvTrend)
    requires idx < |rows|
    ensures r == Rising <==> idx > 0 && Gt(rows[idx].obv, rows[idx - 1].obv)
    ensures r == Falling <==> idx > 0 && Lt(rows[idx].obv, rows[idx - 1].obv)
    ensures r == Flat <==> idx > 0 && rows[idx].obv.Some? && rows[idx].obv == rows[idx - 1].obv
  {
    match rows[idx].obv
    case None => DataUnavailable
    case Some(current) =>
      if idx > 0 then
        match rows[idx - 1].obv
        case None => DataUnavailable
        case Some(previous) =>
          if current > previous then Rising
          else if current < previous then Falling
          else Flat
      else DataUnavailable
  }

  predicate BullishBrar(b: Option<Brar>) {
    b == Some(BullishSentiment) || b == Some(OverlyBullish)
  }

  predicate BearishBrar(b: Option<Brar>) {
    b == Some(BearishSentiment) || b == Some(OverlyBearish)
  }

  /** Both BRAR values present and neither extreme pattern holds, so the dead-zone test decides. */
  predicate OrdinaryBrar(row: Row) {
    && row.ar.Some? && row.br.Some?
    && !(Gt(row.ar, Some(150.0)) && Lt(row.br, Some(100.0)))
    && !(Gt(row.br, Some(150.0)) && Lt(row.ar, Some(100.0)))
  }

  /** Extremes first (AR > 150 with BR < 100 and its mirror), then AR against BR with a 5-point dead zone. */
  function BrarSentiment(row: Row): (r: Option<Brar>)
    ensures r.None? <==> row.ar.None? || row.br.None?
    ensures r == Some(OverlyBullish) <==> Gt(row.ar, Some(150.0)) && Lt(row.br, Some(100.0))
    ensures r == Some(OverlyBearish) <==> Gt(row.br, Some(150.0)) && Lt(row.ar, Some(100.0))
    ensures BullishBrar(r) ==> Gt(row.ar, row.br)
    ensures BearishBrar(r) ==> Gt(row.br, row.ar)
    ensures r == Some(NeutralSentiment) <==>
      OrdinaryBrar(row) && Abs(row.ar.value - row.br.value) < 5.0
    ensures r == Some(BullishSentiment) <==>
      OrdinaryBrar(row) && Abs(row.ar.value - row.br.value) >= 5.0 && row.ar.value > row.br.value
    ensures r == Some(BearishSentiment) <==>
      OrdinaryBrar(row) && Abs(row.ar.value - row.br.value) >= 5.0 && row.ar.value <= row.br.value
  {
    match (row.ar, row.br)
    case (Some(ar), Some(br)) =>
      if ar > 150.0 && br < 100.0 then Some(OverlyBullish)
      else if br > 150.0 && ar < 100.0 then Some(OverlyBearish)
      else if Abs(ar - br) < 5.0 then Some(NeutralSentiment)
      else if ar > br then Some(BullishSentiment)
      else Some(BearishSentiment)
    case _ => None
  }

  function VrStatusOf(row: Row): (r: Option<VrStatus>)
    ensures r.None? <==> row.vr.None?
    ensures r == Some(BullishVolume) <==> Gt(row.vr, Some(150.0))
    ensures r == Some(BearishVolume) <==> Lt(row.vr, Some(70.0))
  {
    match row.vr
    case None => None
    case Some(vr) =>
      Some(if vr > 150.0 then BullishVolume else if vr < 70.0 then BearishVolume else NeutralVolume)
  }

  function MfiStateOf(mfi: Option<real>): (m: MfiState)
    ensures m == MfiNa <==> mfi.None?
    ensures m == MfiOverbought <==> Ge(mfi, Some(80.0))
    ensures m == MfiOversold <==> Le(mfi, Some(20.0))
  {
    match mfi
    case None => MfiNa
    case Some(x) => if x >= 80.0 then MfiOverbought else if x <= 20.0 then MfiOversold else MfiNeutral
  }

  function PsyStateOf(psy: Option<real>): (p: PsyState)
    ensures p == PsyNa <==> psy.None?
    ensures p == PsyOverbullish <==> Ge(psy, Some(75.0))
    ensures p == PsyOversold <==> Le(psy, Some(25.0))
  {
    match psy
    case None => PsyNa
    case Some(x) => if x >= 75.0 then PsyOverbullish else if x <= 25.0 then PsyOversold else PsyNeutral
  }

  function MfiPsy(row: Row): (r: MfiPsyStatus)
    ensures r == MfiPsyUnavailable <==> row.mfi.None? && row.psy.None?
    ensures r.Combined? ==> r.mfi == MfiStateOf(row.mfi) && r.psy == PsyStateOf(row.psy)
  {
    var m := MfiStateOf(row.mfi);
    var p := PsyStateOf(row.psy);
    if m == MfiNa && p == PsyNa then MfiPsyUnavailable else Combined(m, p)
  }

  /** Heavy participation: high turnover or a volume surge. */
  predicate Active(t: Option<Turnover>, v: Option<Volume>) {
    t == Some(HighTurnover) || v == Some(VolumeSurge)
  }

  predicate BullishConditions(t: Option<Turnover>, v: Option<Volume>, o: ObvTrend, b: Option<Brar>, vr: Option<VrStatus>) {
    Active(t, v) && o == Rising && BullishBrar(b) && vr == Some(BullishVolume)
  }

  predicate BearishConditions(t: Option<Turnover>, v: Option<Volume>, o: ObvTrend, b: Option<Brar>, vr: Option<VrStatus>) {
    Active(t, v) && o == Falling && BearishBrar(b) && vr == Some(BearishVolume)
  }

  predicate ApatheticConditions(t: Option<Turnover>, v: Option<Volume>, o: ObvTrend) {
    t == Some(LowTurnover) && v == Some(VolumeDryUp) && (o == Flat || o == DataUnavailable)
  }

  /** Strongly bullish before strongly bearish before apathetic, neutral otherwise. */
  function MarketSentiment(t: Option<Turnover>, v: Option<Volume>, o: ObvTrend, b: Option<Brar>, vr: Option<VrStatus>): (r: Sentiment)
    ensures r == StronglyBullish <==> BullishConditions(t, v, o, b, vr)
    ensures r == StronglyBearish <==> !BullishConditions(t, v, o, b, vr) && BearishConditions(t, v, o, b, vr)
    ensures r == Apathetic ==> ApatheticConditions(t, v, o)
    ensures r == NeutralMarket ==> !ApatheticConditions(t, v, o)
  {
    if BullishConditions(t, v, o, b, vr) then StronglyBullish
    else if BearishConditions(t, v, o, b, vr) then StronglyBearish
    else if ApatheticConditions(t, v, o) then Apathetic
    else NeutralMarket
  }

  /** The report for row `idx`: its date, the labels of row `idx`, and a verdict read off those labels. */
  function ReportAt(rows: seq<Row>, idx: nat): (r: Report)
    requires idx < |rows|
    ensures r.date == rows[idx].date
    ensures r.turnover == TurnoverStatus(rows[idx]) && r.volume == VolumeStatus(rows[idx])
    ensures r.obv == ObvTrendAt(rows, idx) && r.brar == BrarSentiment(rows[idx])
    ensures r.vr == VrStatusOf(rows[idx]) && r.mfiPsy == MfiPsy(rows[idx])
    ensures r.market == MarketSentiment(r.turnover, r.volume, r.obv, r.brar, r.vr)
  {
    var row := rows[idx];
    var t := TurnoverStatus(row);
    var v := VolumeStatus(row);
    var o := ObvTrendAt(rows, idx);
    var b := BrarSentiment(row);
    var vr := VrStatusOf(row);
    Report(row.date, t, v, o, b, vr, MfiPsy(row), MarketSentiment(t, v, o, b, vr))
  }

  /** The tool: locate the requested day in the sorted table and label it. */
  function GetSentimentVolume(rows: seq<Row>, date: string): (r: Result<Report, Table.Error>)
    ensures r.Ok? <==> exists j :: 0 <= j < |rows| && rows[j].date == date
    ensures r.Ok? ==> r.value.date == date
    ensures r.Err? ==> (r.error == Table.NoData <==> |rows| == 0)
    ensures forall k :: 0 <= k < |rows| && rows[k].date == date && (forall j :: 0 <= j < k ==> rows[j].date != date) ==>
      r == Ok(ReportAt(rows, k))
  {
    var dateOf := (row: Row) => row.date;
    Table.FindIsFirst(rows, dateOf, date);
    match Table.Find(rows, dateOf, date)
    case Err(e) => Err(e)
    case Ok(idx) => Ok(ReportAt(rows, idx))
  }

  // ---------------------------------------------------------------- properties

  /**
   * The three verdict conditions exclude each other pairwise (OBV rising against
   * falling, heavy against thin trading), so the precedence order never decides a tie.
   */
  lemma VerdictConditionsExclusive(t: Option<Turnover>, v: Option<Volume>, o: ObvTrend, b: Option<Brar>, vr: Option<VrStatus>)
    ensures !(BullishConditions(t, v, o, b, vr) && BearishConditions(t, v, o, b, vr))
    ensures !(BullishConditions(t, v, o, b, vr) && ApatheticConditions(t, v, o))
    ensures !(BearishConditions(t, v, o, b, vr) && ApatheticConditions(t, v, o))
  {
  }

  /** A strongly bullish day has VR above 150, AR above BR, and OBV above the previous day's. */
  lemma StronglyBullishEvidence(rows: seq<Row>, date: string)
    requires GetSentimentVolume(rows, date).Ok?
    requires GetSentimentVolume(rows, date).value.market == StronglyBullish
    ensures exists j :: 0 < j < |rows| && rows[j].date == date &&
                        Gt(rows[j].vr, Some(150.0)) && Gt(rows[j].ar, rows[j].br) &&
                        Gt(rows[j].obv, rows[j - 1].obv)
  {
    var idx := Table.Find(rows, (row: Row) => row.date, date).value;
    assert ReportAt(rows, idx).market == StronglyBullish;
    assert idx > 0 && rows[idx].date == date;
  }

  /** A strongly bearish day has VR below 70, BR above AR, and OBV below the previous day's. */
  lemma StronglyBearishEvidence(rows: seq<Row>, date: string)
    requires GetSentimentVolume(rows, date).Ok?
    requires GetSentimentVolume(rows, date).value.market == StronglyBearish
    ensures exists j :: 0 < j < |rows| && rows[j].date == date &&
                        Lt(rows[j].vr, Some(70.0)) && Gt(rows[j].br, rows[j].ar) &&
                        Lt(rows[j].obv, rows[j - 1].obv)
  {
    var idx := Table.Find(rows, (row: Row) => row.date, date).value;
    assert ReportAt(rows, idx).market == StronglyBearish;
    assert idx > 0 && rows[idx].date == date;
  }

  /** The first row of the table has no OBV predecessor, so it is never strongly bullish or bearish. */
  lemma FirstRowHasNoStrongVerdict(rows: seq<Row>)
    requires |rows| > 0
    ensures ReportAt(rows, 0).market != StronglyBullish && ReportAt(rows, 0).market != StronglyBearish
  {
  }

  /** Turnover labels never decrease as the turnover rate rises. */
  lemma TurnoverLevelMonotone(x: real, y: real)
    requires x <= y
    ensures TurnoverLevel(x) == HighTurnover ==> TurnoverLevel(y) == HighTurnover
    ensures TurnoverLevel(y) == LowTurnover ==> TurnoverLevel(x) == LowTurnover
  {
  }
}

=== FILE: table.dfy ===
/**
 * Locating the requested trading day in a fetched, date-sorted factor table.
 *
 * The single-day tools of the technical extension all fetch a window of rows
 * ending at the requested date, sort it by `trade_date`, and then analyse the
 * first row whose date equals the request (`df[df['trade_date'] == d].index[0]`).
 */
module Table {
  import opened Base

  /** Why a single-day tool returned an error object instead of a report. */
  datatype Error =
    | NoData        // the fetch returned an empty table
    | DateNotFound  // no row carries the requested date
    | NoneNotIterable // a TypeError raised while labelling (`in` applied to None)

  /** Index of the first row whose date is `d`, if any. */
  function Locate<R>(rows: seq<R>, dateOf: R -> string, d: string): (r: Option<nat>)
    ensures r.Some? ==> r.value < |rows| && dateOf(rows[r.value]) == d
    ensures r.Some? ==> forall j :: 0 <= j < r.value ==> dateOf(rows[j]) != d
    ensures r.None? <==> forall j :: 0 <= j < |rows| ==> dateOf(rows[j]) != d
  {
    if |rows| == 0 then None
    else if dateOf(rows[0]) == d then Some(0)
    else
      match Locate(rows[1..], dateOf, d)
      case None => None
      case Some(k) => Some(k + 1)
  }

  /** The error-or-index step every single-day tool performs before labelling. */
  function Find<R>(rows: seq<R>, dateOf: R -> string, d: string): (r: Result<nat, Error>)
    ensures r.Err? ==> (r.error == NoData <==> |rows| == 0) && r.error != NoneNotIterable
    ensures r.Ok? ==> r.value < |rows| && dateOf(rows[r.value]) == d
    ensures r.Ok? ==> forall j :: 0 <= j < r.value ==> dateOf(rows[j]) != d
    ensures r.Err? <==> forall j :: 0 <= j < |rows| ==> dateOf(rows[j]) != d
  {
    if |rows| == 0 then Err(NoData)
    else match Locate(rows, dateOf, d)
      case None => Err(DateNotFound)
      case Some(i) => Ok(i)
  }

  /** The index `Find` returns is the only index holding the first row of date `d`. */
  lemma FindIsFirst<R>(rows: seq<R>, dateOf: R -> string, d: string)
    ensures forall k :: 0 <= k < |rows| && dateOf(rows[k]) == d && (forall j :: 0 <= j < k ==> dateOf(rows[j]) != d) ==>
      Find(rows, dateOf, d) == Ok(k)
  {
  }
}

=== FILE: trend.dfy ===
/**
 * The trend-signal tool (`get_trend_signals`): every row of a date-sorted
 * factor table is labelled with its price/MA5 position, MA5/MA20 alignment,
 * MACD state, overall direction, trend strength and momentum change.
 * Crossings compare a row with the row before it; the first row of the table
 * has no predecessor and can only be given a static label.
 */
module TrendSignals {
  import opened Base
  import Table

  /** The columns of one daily factor row that the trend labels read (forward-adjusted). */
  datatype Row = Row(
    date: string,
    close: Option<real>,  // close_qfq
    ma5: Option<real>,    // ma_qfq_5
    ma20: Option<real>,   // ma_qfq_20
    dif: Option<real>,    // macd_dif_qfq
    dea: Option<real>,    // macd_dea_qfq
    macd: Option<real>,   // macd_qfq, the MACD histogram
    mtm: Option<real>)    // mtm_qfq

  datatype PricePosition = CrossingUp | CrossingDown | Above | Below
  datatype Alignment = BullishAlignment | BearishAlignment
  datatype MacdState = GoldenCross | DeathCross | PositiveMomentum | NegativeMomentum | Recovering
  datatype Direction = Up | Down | Sideways
  datatype Strength = Strong | Moderate | Weak
  datatype MomentumChange = Accelerating | Decelerating | AcceleratingDown | DeceleratingDown | Reversing

  /** The labels of one row; `None` is the null the tool emits when an input is missing. */
  datatype Signals = Signals(
    date: string,
    priceVsMa5: Option<PricePosition>,
    ma5VsMa20: Option<Alignment>,
    macdStatus: Option<MacdState>,
    trendDirection: Option<Direction>,
    trendStrength: Option<Strength>,
    momentumChange: Option<MomentumChange>)

  const Zero: Option<real> := Some(0.0)

  /** Close against the 5-day average, with crossings detected against the previous row. */
  function PriceVsMa5(rows: seq<Row>, i: nat): (r: Option<PricePosition>)
    requires i < |rows|
    ensures r.None? <==> rows[i].close.None? || rows[i].ma5.None?
    ensures r == Some(CrossingUp) <==>
      i > 0 && Le(rows[i - 1].close, rows[i - 1].ma5) && Gt(rows[i].close, rows[i].ma5)
    ensures r == Some(CrossingDown) <==>
      i > 0 && Ge(rows[i - 1].close, rows[i - 1].ma5) && Lt(rows[i].close, rows[i].ma5)
    ensures r == Some(Above) ==> Gt(rows[i].close, rows[i].ma5)
    ensures r == Some(Below) ==> Le(rows[i].close, rows[i].ma5)
  {
    match (rows[i].close, rows[i].ma5)
    case (Some(close), Some(ma5)) =>
      var position := if close > ma5 then Above else Below;
      if i > 0 then
        var prev := rows[i - 1];
        if Le(prev.close, prev.ma5) && close > ma5 then Some(CrossingUp)
        else if Ge(prev.close, prev.ma5) && close < ma5 then Some(CrossingDown)
        else Some(position)
      else Some(position)
    case _ => None
  }

  function Ma5VsMa20(row: Row): (r: Option<Alignment>)
    ensures r.None? <==> row.ma5.None? || row.ma20.None?
    ensures r == Some(BullishAlignment) <==> Gt(row.ma5, row.ma20)
  {
    match (row.ma5, row.ma20)
    case (Some(ma5), Some(ma20)) => Some(if ma5 > ma20 then BullishAlignment else BearishAlignment)
    case _ => None
  }

  /** The label of a day on which DIF and DEA did not cross. */
  function MacdLevel(dif: real, dea: real): (r: MacdState)
    ensures r != GoldenCross && r != DeathCross
    ensures r == PositiveMomentum <==> dif > dea && dif > 0.0
    ensures r == NegativeMomentum <==> dif < dea && dif < 0.0
  {
    if dif > dea && dif > 0.0 then PositiveMomentum
    else if dif < dea && dif < 0.0 then NegativeMomentum
    else Recovering
  }

  function MacdStatus(rows: seq<Row>, i: nat): (r: Option<MacdState>)
    requires i < |rows|
    ensures r.None? <==> rows[i].dif.None? || rows[i].dea.None?
    ensures r == Some(GoldenCross) <==>
      i > 0 && Le(rows[i - 1].dif, rows[i - 1].dea) && Gt(rows[i].dif, rows[i].dea)
    ensures r == Some(DeathCross) <==>
      i > 0 && Ge(rows[i - 1].dif, rows[i - 1].dea) && Lt(rows[i].dif, rows[i].dea)
    ensures r.Some? && r.value != GoldenCross && r.value != DeathCross ==>
      r.value == MacdLevel(rows[i].dif.value, rows[i].dea.value)
    ensures r == Some(PositiveMomentum) <==>
      r.Some? && r.value != GoldenCross && r.value != DeathCross && Gt(rows[i].dif, rows[i].dea) && Gt(rows[i].dif, Zero)
    ensures r == Some(NegativeMomentum) <==>
      r.Some? && r.value != GoldenCross && r.value != DeathCross && Lt(rows[i].dif, rows[i].dea) && Lt(rows[i].dif, Zero)
  {
    match (rows[i].dif, rows[i].dea)
    case (Some(dif), Some(dea)) =>
      if i > 0 then
        var prev := rows[i - 1];
        if Le(prev.dif, prev.dea) && dif > dea then Some(GoldenCross)
        else if Ge(prev.dif, prev.dea) && dif < dea then Some(DeathCross)
        else Some(MacdLevel(dif, dea))
      else Some(MacdLevel(dif, dea))
    case _ => None
  }

  /** Up needs MA5 above MA20, close above MA5 and DIF at or above DEA; down is the mirror image. */
  function TrendDirection(row: Row): (r: Option<Direction>)
    ensures r.None? <==>
      row.close.None? || row.ma5.None? || row.ma20.None? || row.dif.None? || row.dea.None?
    ensures r == Some(Up) <==>
      Gt(row.ma5, row.ma20) && Gt(row.close, row.ma5) && Ge(row.dif, row.dea)
    ensures r == Some(Down) <==>
      Lt(row.ma5, row.ma20) && Lt(row.close, row.ma5) && Le(row.dif, row.dea)
  {
    match (row.close, row.ma5, row.ma20, row.dif, row.dea)
    case (Some(close), Some(ma5), Some(ma20), Some(dif), Some(dea)) =>
      if ma5 > ma20 && close > ma5 && dif >= dea then Some(Up)
      else if ma5 < ma20 && close < ma5 && dif <= dea then Some(Down)
      else Some(Sideways)
    case _ => None
  }

  /** |MACD histogram| / close, defined when both are present and close is non-zero. */
  function RelativeMacd(row: Row): Option<real> {
    if row.macd.Some? && row.close.Some? && row.close.value != 0.0
    then Some(Abs(row.macd.value) / row.close.value)
    else None
  }

  predicate HasRelative(row: Row) {
    RelativeMacd(row).Some?
  }

  predicate RelativeBelow(row: Row, current: real) {
    RelativeMacd(row).Some? && RelativeMacd(row).value < current
  }

  /** The trailing window of at most 20 rows that ends with (and includes) row `i`. */
  function Window(rows: seq<Row>, i: nat): (w: seq<Row>)
    requires i < |rows|
    ensures |w| == Min(i + 1, 20)
    ensures |w| > 0 && w[|w| - 1] == rows[i]
    ensures forall k :: 0 <= k < |w| ==> w[k] == rows[i + 1 - |w| + k]
  {
    rows[(if i >= 19 then i - 19 else 0)..i + 1]
  }

  /** Share (in percent) of the window's usable rows whose relative MACD lies strictly below `current`. */
  function WindowPercentile(w: seq<Row>, current: real): (p: real)
    requires Count(w, HasRelative) > 0
    ensures 0.0 <= p <= 100.0
  {
    var below := Count(w, (row: Row) => RelativeBelow(row, current));
    var usable := Count(w, HasRelative);
    CountMonotone(w, (row: Row) => RelativeBelow(row, current), HasRelative);
    100.0 * (below as real) / (usable as real)
  }

  /** The rolling percentile of row `i`: it always lies in [0, 100), since row `i` is in its own window. */
  function StrengthPercentile(rows: seq<Row>, i: nat): (p: real)
    requires i < |rows| && HasRelative(rows[i])
    ensures Count(Window(rows, i), HasRelative) > 0
    ensures 0.0 <= p < 100.0
  {
    var w := Window(rows, i);
    var current := RelativeMacd(rows[i]).value;
    CountStrictlyMonotone(w, (row: Row) => RelativeBelow(row, current), HasRelative, |w| - 1);
    WindowPercentile(w, current)
  }

  /**
   * Strong/weak by the rolling percentile once the window holds at least ten rows
   * (row index 9 onwards); before that, by absolute thresholds of 1% and 0.1%.
   */
  function TrendStrength(rows: seq<Row>, i: nat): (r: Option<Strength>)
    requires i < |rows|
    ensures r.None? <==> !HasRelative(rows[i])
    ensures r.Some? && i >= 9 ==>
      && (r.value == Strong <==> StrengthPercentile(rows, i) >= 75.0)
      && (r.value == Weak <==> StrengthPercentile(rows, i) <= 25.0)
    ensures r.Some? && i < 9 ==>
      && (r.value == Strong <==> RelativeMacd(rows[i]).value > 0.01)
      && (r.value == Weak <==> RelativeMacd(rows[i]).value < 0.001)
  {
    match RelativeMacd(rows[i])
    case None => None
    case Some(relative) =>
      var w := Window(rows, i);
      if |w| >= 10 then
        if Count(w, HasRelative) > 0 then
          var pct := WindowPercentile(w, relative);
          Some(if pct >= 75.0 then Strong else if pct <= 25.0 then Weak else Moderate)
        else Some(Moderate)
      else
        Some(if relative > 0.01 then Strong else if relative < 0.001 then Weak else Moderate)
  }

  /** The momentum changed sign: from at most zero to positive, or from at least zero to negative. */
  predicate SignFlip(prev: Option<real>, current: real) {
    (Le(prev, Zero) && current > 0.0) || (Ge(prev, Zero) && current < 0.0)
  }

  function MomentumChangeAt(rows: seq<Row>, i: nat): (r: Option<MomentumChange>)
    requires i < |rows|
    ensures r.None? <==> rows[i].mtm.None?
    ensures r.Some? && i == 0 ==>
      && (r.value == Accelerating <==> rows[i].mtm.value > 0.0)
      && (r.value == AcceleratingDown <==> rows[i].mtm.value <= 0.0)
    ensures r.Some? && i > 0 ==>
      var flip := SignFlip(rows[i - 1].mtm, rows[i].mtm.value);
      && (r.value == Reversing <==> flip)
      && (r.value == Accelerating <==> !flip && Gt(rows[i].mtm, Zero) && Gt(rows[i].mtm, rows[i - 1].mtm))
      && (r.value == Decelerating <==> !flip && Gt(rows[i].mtm, Zero) && !Gt(rows[i].mtm, rows[i - 1].mtm))
      && (r.value == AcceleratingDown <==> !flip && !Gt(rows[i].mtm, Zero) && Lt(rows[i].mtm, rows[i - 1].mtm))
      && (r.value == DeceleratingDown <==> !flip && !Gt(rows[i].mtm, Zero) && !Lt(rows[i].mtm, rows[i - 1].mtm))
    ensures r == Some(Accelerating) ==> Gt(rows[i].mtm, Zero)
    ensures r == Some(DeceleratingDown) ==> i > 0
  {
    match rows[i].mtm
    case None => None
    case Some(current) =>
      if i > 0 then
        var prev := rows[i - 1].mtm;
        if SignFlip(prev, current) then Some(Reversing)
        else if current > 0.0 then Some(if Gt(Some(current), prev) then Accelerating else Decelerating)
        else Some(if Lt(Some(current), prev) then AcceleratingDown else DeceleratingDown)
      else Some(if current > 0.0 then Accelerating else AcceleratingDown)
  }

  /** The record for row `i`: its date, each label of row `i`, and a trend direction that agrees with the other labels. */
  function SignalsAt(rows: seq<Row>, i: nat): (s: Signals)
    requires i < |rows|
    ensures s.date == rows[i].date
    ensures s.priceVsMa5 == PriceVsMa5(rows, i) && s.ma5VsMa20 == Ma5VsMa20(rows[i])
    ensures s.macdStatus == MacdStatus(rows, i) && s.trendDirection == TrendDirection(rows[i])
    ensures s.trendStrength == TrendStrength(rows, i) && s.momentumChange == MomentumChangeAt(rows, i)
    ensures s.trendDirection == Some(Up) ==>
      s.ma5VsMa20 == Some(BullishAlignment) && s.priceVsMa5 in {Some(Above), Some(CrossingUp)}
    ensures s.trendDirection == Some(Down) ==>
      s.ma5VsMa20 == Some(BearishAlignment) && s.priceVsMa5 in {Some(Below), Some(CrossingDown)}
  {
    DirectionAgreesWithAlignment(rows, i);
    Signals(rows[i].date, PriceVsMa5(rows, i), Ma5VsMa20(rows[i]), MacdStatus(rows, i),
            TrendDirection(rows[i]), TrendStrength(rows, i), MomentumChangeAt(rows, i))
  }

  /** The tool: one `Signals` per row of the sorted table, or an error for an empty table. */
  function GetTrendSignals(rows: seq<Row>): (r: Result<seq<Signals>, Table.Error>)
    ensures r.Err? <==> |rows| == 0
    ensures r.Err? ==> r.error == Table.NoData
    ensures r.Ok? ==> |r.value| == |rows|
    ensures r.Ok? ==> forall i :: 0 <= i < |rows| ==> r.value[i] == SignalsAt(rows, i)
  {
    if |rows| == 0 then Err(Table.NoData)
    else Ok(seq(|rows|, i requires 0 <= i < |rows| => SignalsAt(rows, i)))
  }

  // ---------------------------------------------------------------- properties

  /** The first row has no predecessor, so none of its labels is a crossing. */
  lemma FirstRowHasNoCrossing(rows: seq<Row>)
    requires |rows| > 0
    ensures PriceVsMa5(rows, 0) != Some(CrossingUp) && PriceVsMa5(rows, 0) != Some(CrossingDown)
    ensures MacdStatus(rows, 0) != Some(GoldenCross) && MacdStatus(rows, 0) != Some(DeathCross)
    ensures MomentumChangeAt(rows, 0) != Some(Reversing) && MomentumChangeAt(rows, 0) != Some(Decelerating)
  {
  }

  /** An up (down) trend always agrees with the MA alignment and the price position of the same row. */
  lemma DirectionAgreesWithAlignment(rows: seq<Row>, i: nat)
    requires i < |rows|
    ensures TrendDirection(rows[i]) == Some(Up) ==>
      && Ma5VsMa20(rows[i]) == Some(BullishAlignment)
      && PriceVsMa5(rows, i) in {Some(Above), Some(CrossingUp)}
    ensures TrendDirection(rows[i]) == Some(Down) ==>
      && Ma5VsMa20(rows[i]) == Some(BearishAlignment)
      && PriceVsMa5(rows, i) in {Some(Below), Some(CrossingDown)}
  {
  }

  /** A sign change between consecutive momentum values reverses, whatever the magnitudes. */
  lemma SignChangeReverses(rows: seq<Row>, i: nat)
    requires 0 < i < |rows| && rows[i - 1].mtm.Some? && rows[i].mtm.Some?
    requires rows[i - 1].mtm.value * rows[i].mtm.value < 0.0
    ensures MomentumChangeAt(rows, i) == Some(Reversing)
  {
    SameSignProduct(rows[i - 1].mtm.value, rows[i].mtm.value);
  }

  lemma SameSignProduct(a: real, b: real)
    ensures (a <= 0.0 && b <= 0.0) || (a >= 0.0 && b >= 0.0) ==> a * b >= 0.0
  {
  }

  /**
   * A NaN momentum on the previous row makes every comparison with it false,
   * so a present momentum falls through to the decelerating labels.
   */
  lemma MissingPreviousMomentumDecelerates(rows: seq<Row>, i: nat)
    requires 0 < i < |rows| && rows[i - 1].mtm.None? && rows[i].mtm.Some?
    ensures rows[i].mtm.value > 0.0 ==> MomentumChangeAt(rows, i) == Some(Decelerating)
    ensures rows[i].mtm.value <= 0.0 ==> MomentumChangeAt(rows, i) == Some(DeceleratingDown)
  {
  }

  /** Zero momentum is never read as upward. */
  lemma ZeroMomentumIsDownward(rows: seq<Row>, i: nat)
    requires i < |rows| && rows[i].mtm == Zero
    ensures MomentumChangeAt(rows, i) in {Some(AcceleratingDown), Some(DeceleratingDown)}
  {
  }

  /** With fewer than ten rows in the window, the strength depends on row `i` alone. */
  lemma EarlyStrengthIgnoresHistory(rows: seq<Row>, rows': seq<Row>, i: nat)
    requires i < 9 && i < |rows| && i < |rows'| && rows[i] == rows'[i]
    ensures TrendStrength(rows, i) == TrendStrength(rows', i)
  {
  }
}

=== FILE: valuation.dfy ===
/**
 * The valuation tool (`get_valuation_metrics`): the row of the requested day
 * is labelled with PE, PB and PS status against the history strictly before
 * that day, dividend attractiveness, market-capitalisation class, and a
 * priority-ordered summary verdict.
 *
 * The 30th and 70th historical percentiles come from numpy's interpolating
 * `np.percentile`; that routine is a parameter here (`Quantile`).
 */
module ValuationMetrics {
  import opened Base
  import Table

  /** The columns of one daily factor row that the valuation labels read. */
  datatype Row = Row(
    date: string,
    peTtm: Option<real>,    // pe_ttm
    pe: Option<real>,       // pe
    pb: Option<real>,       // pb
    dvTtm: Option<real>,    // dv_ttm, dividend yield (%)
    dvRatio: Option<real>,  // dv_ratio
    psTtm: Option<real>,    // ps_ttm
    ps: Option<real>,       // ps
    totalMv: Option<real>)  // total_mv, in units of 10,000 yuan

  datatype PeStatus = PeUnprofitable | PeExpensive | PeCheap | PeFair
  datatype PbStatus = DeepDiscount | ExtremePremium | HighPremium | Discount | Reasonable
  datatype Dividend = VeryAttractive | Attractive | ModerateYield | LowYield | NoDividend
  datatype PsStatus = OvervaluedRevenue | UndervaluedRevenue | FairRevenue | ExtremelyHigh | ReasonableRevenue
  datatype MarketCap = LargeCap | MidCap | SmallCap | UnknownCap
  datatype Verdict = Unprofitable | Undervalued | Overvalued | GrowthPriced | Speculative | NeutralValuation

  datatype Report = Report(
    date: string,
    pe: Option<PeStatus>,
    pb: Option<PbStatus>,
    dividend: Dividend,
    ps: Option<PsStatus>,
    marketCap: MarketCap,
    summary: Verdict)

  /** `np.percentile(series, q)` as the caller's numpy computes it. */
  type Quantile = (seq<real>, real) -> real

  /** Percentile thresholds are used only with at least this many historical points. */
  const MinHistory: nat := 100

  /** The values of one column over the rows strictly before `idx`. */
  function Before(rows: seq<Row>, idx: nat, column: Row -> Option<real>): (c: seq<Option<real>>)
    requires idx <= |rows|
    ensures |c| == idx
    ensures forall j :: 0 <= j < idx ==> c[j] == column(rows[j])
  {
    seq(idx, j requires 0 <= j < idx => column(rows[j]))
  }

  /** A present value above zero: the `notna() & > 0` row filter. */
  predicate IsPositive(o: Option<real>) {
    o.Some? && o.value > 0.0
  }

  /** A present value of at least zero: the `notna() & >= 0` row filter. */
  predicate IsNonNegative(o: Option<real>) {
    o.Some? && o.value >= 0.0
  }

  /** The positive present values of `c`, one per qualifying cell. */
  function Positive(c: seq<Option<real>>): (h: seq<real>)
    ensures |h| == Count(c, IsPositive)
    ensures forall x :: x in h <==> x > 0.0 && Some(x) in c
  {
    if |c| == 0 then []
    else
      assert c == [c[0]] + c[1..];
      (if IsPositive(c[0]) then [c[0].value] else []) + Positive(c[1..])
  }

  /** The non-negative present values of `c`, one per qualifying cell. */
  function NonNegative(c: seq<Option<real>>): (h: seq<real>)
    ensures |h| == Count(c, IsNonNegative)
    ensures forall x :: x in h <==> x >= 0.0 && Some(x) in c
  {
    if |c| == 0 then []
    else
      assert c == [c[0]] + c[1..];
      (if IsNonNegative(c[0]) then [c[0].value] else []) + NonNegative(c[1..])
  }

  function PeTtmOf(r: Row): Option<real> { r.peTtm }
  function PeOf(r: Row): Option<real> { r.pe }
  function PbOf(r: Row): Option<real> { r.pb }
  function PsTtmOf(r: Row): Option<real> { r.psTtm }
  function PsOf(r: Row): Option<real> { r.ps }

  /** pe_ttm, falling back to pe when pe_ttm is NaN. */
  function ChosenPe(row: Row): Option<real> {
    if row.peTtm.Some? then row.peTtm else row.pe
  }

  function ChosenPs(row: Row): Option<real> {
    if row.psTtm.Some? then row.psTtm else row.ps
  }

  function ChosenDividend(row: Row): Option<real> {
    if row.dvTtm.Some? then row.dvTtm else row.dvRatio
  }

  /**
   * The PE history: the positive pe_ttm values of the rows before `idx`, or,
   * when fewer than 100 rows have one, the positive pe values instead.
   */
  function PeHistory(rows: seq<Row>, idx: nat): (h: seq<real>)
    requires idx <= |rows|
    ensures var n := Count(Before(rows, idx, PeTtmOf), IsPositive);
      && (n >= MinHistory ==> |h| == n && forall x :: x in h <==> x > 0.0 && Some(x) in Before(rows, idx, PeTtmOf))
      && (n < MinHistory ==>
            && |h| == Count(Before(rows, idx, PeOf), IsPositive)
            && forall x :: x in h <==> x > 0.0 && Some(x) in Before(rows, idx, PeOf))
  {
    var ttm := Positive(Before(rows, idx, PeTtmOf));
    if |ttm| < MinHistory then Positive(Before(rows, idx, PeOf)) else ttm
  }

  /** The PB history: the non-negative pb values of the rows before `idx`. */
  function PbHistory(rows: seq<Row>, idx: nat): (h: seq<real>)
    requires idx <= |rows|
    ensures |h| == Count(Before(rows, idx, PbOf), IsNonNegative)
    ensures forall x :: x in h <==> x >= 0.0 && Some(x) in Before(rows, idx, PbOf)
  {
    NonNegative(Before(rows, idx, PbOf))
  }

  /**
   * The PS history: the non-negative ps_ttm values of the rows before `idx`,
   * or, when fewer than 100 rows have one, the non-negative ps values instead.
   */
  function PsHistory(rows: seq<Row>, idx: nat): (h: seq<real>)
    requires idx <= |rows|
    ensures var n := Count(Before(rows, idx, PsTtmOf), IsNonNegative);
      && (n >= MinHistory ==> |h| == n && forall x :: x in h <==> x >= 0.0 && Some(x) in Before(rows, idx, PsTtmOf))
      && (n < MinHistory ==>
            && |h| == Count(Before(rows, idx, PsOf), IsNonNegative)
            && forall x :: x in h <==> x >= 0.0 && Some(x) in Before(rows, idx, PsOf))
  {
    var ttm := NonNegative(Before(rows, idx, PsTtmOf));
    if |ttm| < MinHistory then NonNegative(Before(rows, idx, PsOf)) else ttm
  }

  function PeStatusAt(rows: seq<Row>, idx: nat, quantile: Quantile): (r: Option<PeStatus>)
    requires idx < |rows|
    ensures r.None? <==> ChosenPe(rows[idx]).None?
    ensures r == Some(PeUnprofitable) <==> Le(ChosenPe(rows[idx]), Some(0.0))
    ensures r.Some? && r.value != PeUnprofitable && |PeHistory(rows, idx)| >= MinHistory ==>
      var pe, h := ChosenPe(rows[idx]).value, PeHistory(rows, idx);
      && (r.value == PeExpensive <==> pe > quantile(h, 70.0))
      && (r.value == PeCheap <==> pe <= quantile(h, 70.0) && pe < quantile(h, 30.0))
    ensures r.Some? && r.value != PeUnprofitable && |PeHistory(rows, idx)| < MinHistory ==>
      var pe := ChosenPe(rows[idx]).value;
      && (r.value == PeExpensive <==> pe > 50.0)
      && (r.value == PeCheap <==> pe < 15.0)
  {
    match ChosenPe(rows[idx])
    case None => None
    case Some(pe) =>
      if pe <= 0.0 then Some(PeUnprofitable)
      else
        var h := PeHistory(rows, idx);
        if |h| >= MinHistory then
          var p30, p70 := quantile(h, 30.0), quantile(h, 70.0);
          Some(if pe > p70 then PeExpensive else if pe < p30 then PeCheap else PeFair)
        else
          Some(if pe > 50.0 then PeExpensive else if pe < 15.0 then PeCheap else PeFair)
  }

  function PbStatusAt(rows: seq<Row>, idx: nat, quantile: Quantile): (r: Option<PbStatus>)
    requires idx < |rows|
    ensures r.None? <==> rows[idx].pb.None?
    ensures r == Some(DeepDiscount) <==> Lt(rows[idx].pb, Some(0.5))
    ensures r == Some(ExtremePremium) <==> |PbHistory(rows, idx)| >= MinHistory && Gt(rows[idx].pb, Some(10.0))
    ensures r.Some? && r.value != DeepDiscount && r.value != ExtremePremium && |PbHistory(rows, idx)| >= MinHistory ==>
      var pb, h := rows[idx].pb.value, PbHistory(rows, idx);
      && (r.value == HighPremium <==> pb > quantile(h, 70.0))
      && (r.value == Discount <==> pb <= quantile(h, 70.0) && pb < quantile(h, 30.0))
    ensures r.Some? && r.value != DeepDiscount && |PbHistory(rows, idx)| < MinHistory ==>
      var pb := rows[idx].pb.value;
      && (r.value == HighPremium <==> pb > 5.0)
      && (r.value == Discount <==> pb <= 5.0 && pb < 1.0)
  {
    match rows[idx].pb
    case None => None
    case Some(pb) =>
      var h := PbHistory(rows, idx);
      if |h| >= MinHistory then
        var p30, p70 := quantile(h, 30.0), quantile(h, 70.0);
        Some(if pb < 0.5 then DeepDiscount
             else if pb > 10.0 then ExtremePremium
             else if pb > p70 then HighPremium
             else if pb < p30 then Discount
             else Reasonable)
      else
        Some(if pb < 0.5 then DeepDiscount
             else if pb > 5.0 then HighPremium
             else if pb < 1.0 then Discount
             else Reasonable)
  }

  function DividendAt(row: Row): (d: Dividend)
    ensures d == NoDividend <==> ChosenDividend(row).None?
    ensures d == VeryAttractive <==> Ge(ChosenDividend(row), Some(5.0))
    ensures d == LowYield <==> Lt(ChosenDividend(row), Some(1.0))
    ensures d == Attractive <==> Ge(ChosenDividend(row), Some(3.0)) && Lt(ChosenDividend(row), Some(5.0))
  {
    match ChosenDividend(row)
    case None => NoDividend
    case Some(y) =>
      if y >= 5.0 then VeryAttractive
      else if y >= 3.0 then Attractive
      else if y >= 1.0 then ModerateYield
      else LowYield
  }

  /**
   * With a long history the PS labels are overvalued/undervalued/fair revenue;
   * with a short one they are extremely high/reasonable/fair revenue.
   */
  function PsStatusAt(rows: seq<Row>, idx: nat, quantile: Quantile): (r: Option<PsStatus>)
    requires idx < |rows|
    ensures r.None? <==> ChosenPs(rows[idx]).None?
    ensures r == Some(OvervaluedRevenue) || r == Some(UndervaluedRevenue) ==> |PsHistory(rows, idx)| >= MinHistory
    ensures r == Some(ExtremelyHigh) || r == Some(ReasonableRevenue) ==> |PsHistory(rows, idx)| < MinHistory
    ensures r.Some? && |PsHistory(rows, idx)| >= MinHistory ==>
      var ps, h := ChosenPs(rows[idx]).value, PsHistory(rows, idx);
      && (r.value == OvervaluedRevenue <==> ps > quantile(h, 70.0))
      && (r.value == UndervaluedRevenue <==> ps <= quantile(h, 70.0) && ps < quantile(h, 30.0))
    ensures r.Some? && |PsHistory(rows, idx)| < MinHistory ==>
      var ps := ChosenPs(rows[idx]).value;
      && (r.value == ExtremelyHigh <==> ps > 20.0)
      && (r.value == ReasonableRevenue <==> ps < 2.0)
  {
    match ChosenPs(rows[idx])
    case None => None
    case Some(ps) =>
      var h := PsHistory(rows, idx);
      if |h| >= MinHistory then
        var p30, p70 := quantile(h, 30.0), quantile(h, 70.0);
        Some(if ps > p70 then OvervaluedRevenue else if ps < p30 then UndervaluedRevenue else FairRevenue)
      else
        Some(if ps > 20.0 then ExtremelyHigh else if ps < 2.0 then ReasonableRevenue else FairRevenue)
  }

  /** Large from 100 billion yuan, mid from 20 billion (total_mv is in units of 10,000 yuan). */
  function MarketCapAt(row: Row): (c: MarketCap)
    ensures c == UnknownCap <==> row.totalMv.None?
    ensures c == LargeCap <==> Ge(row.totalMv, Some(10000000.0))
    ensures c == SmallCap <==> Lt(row.totalMv, Some(2000000.0))
  {
    match row.totalMv
    case None => UnknownCap
    case Some(mv) =>
      if mv >= 10000000.0 then LargeCap else if mv >= 2000000.0 then MidCap else SmallCap
  }

  predicate HasDividend(d: Dividend) {
    d == Attractive || d == VeryAttractive || d == ModerateYield
  }

  /** Any of PE, PB, PS cheap, with some dividend, and not a small cap (an unknown cap qualifies). */
  predicate UndervaluedCase(pe: Option<PeStatus>, pb: Option<PbStatus>, ps: Option<PsStatus>, d: Dividend, cap: MarketCap) {
    && (pe == Some(PeCheap) || pb == Some(Discount) || pb == Some(DeepDiscount) || ps == Some(UndervaluedRevenue))
    && HasDividend(d)
    && cap != SmallCap
  }

  /** PE and PB both rich, or PS rich on a small cap. */
  predicate OvervaluedCase(pe: Option<PeStatus>, pb: Option<PbStatus>, ps: Option<PsStatus>, cap: MarketCap) {
    || (pe == Some(PeExpensive) && (pb == Some(HighPremium) || pb == Some(ExtremePremium)))
    || (ps == Some(OvervaluedRevenue) && cap == SmallCap)
  }

  /** A rich PE with a reasonable PS on a large or mid cap. */
  predicate GrowthPricedCase(pe: Option<PeStatus>, ps: Option<PsStatus>, cap: MarketCap) {
    pe == Some(PeExpensive) && (ps == Some(FairRevenue) || ps == Some(ReasonableRevenue))
    && (cap == LargeCap || cap == MidCap)
  }

  /** A rich PE on a small cap with little or no dividend. */
  predicate SpeculativeCase(pe: Option<PeStatus>, d: Dividend, cap: MarketCap) {
    cap == SmallCap && pe == Some(PeExpensive) && (d == LowYield || d == NoDividend)
  }

  /** Priority: unprofitable, undervalued, overvalued, growth-priced, speculative, neutral. */
  function Summary(pe: Option<PeStatus>, pb: Option<PbStatus>, ps: Option<PsStatus>, d: Dividend, cap: MarketCap): (v: Verdict)
    ensures v == Unprofitable <==> pe == Some(PeUnprofitable)
    ensures v == Undervalued <==> pe != Some(PeUnprofitable) && UndervaluedCase(pe, pb, ps, d, cap)
    ensures v == Overvalued <==>
      pe != Some(PeUnprofitable) && !UndervaluedCase(pe, pb, ps, d, cap) && OvervaluedCase(pe, pb, ps, cap)
    ensures v == GrowthPriced <==>
      !UndervaluedCase(pe, pb, ps, d, cap) && !OvervaluedCase(pe, pb, ps, cap) && GrowthPricedCase(pe, ps, cap)
    ensures v == Speculative <==>
      && pe != Some(PeUnprofitable) && !UndervaluedCase(pe, pb, ps, d, cap) && !OvervaluedCase(pe, pb, ps, cap)
      && !GrowthPricedCase(pe, ps, cap) && SpeculativeCase(pe, d, cap)
    ensures v == NeutralValuation <==>
      && pe != Some(PeUnprofitable) && !UndervaluedCase(pe, pb, ps, d, cap) && !OvervaluedCase(pe, pb, ps, cap)
      && !GrowthPricedCase(pe, ps, cap) && !SpeculativeCase(pe, d, cap)
  {
    if pe == Some(PeUnprofitable) then Unprofitable
    else if UndervaluedCase(pe, pb, ps, d, cap) then Undervalued
    else if OvervaluedCase(pe, pb, ps, cap) then Overvalued
    else if GrowthPricedCase(pe, ps, cap) then GrowthPriced
    else if SpeculativeCase(pe, d, cap) then Speculative
    else NeutralValuation
  }

  /** The report for row `idx`: its date, the labels of row `idx`, and a summary read off those labels. */
  function ReportAt(rows: seq<Row>, idx: nat, quantile: Quantile): (r: Report)
    requires idx < |rows|
    ensures r.date == rows[idx].date
    ensures r.pe == PeStatusAt(rows, idx, quantile) && r.pb == PbStatusAt(rows, idx, quantile)
    ensures r.ps == PsStatusAt(rows, idx, quantile)
    ensures r.dividend == DividendAt(rows[idx]) && r.marketCap == MarketCapAt(rows[idx])
    ensures r.summary == Summary(r.pe, r.pb, r.ps, r.dividend, r.marketCap)
  {
    var row := rows[idx];
    var pe := PeStatusAt(rows, idx, quantile);
    var pb := PbStatusAt(rows, idx, quantile);
    var d := DividendAt(row);
    var ps := PsStatusAt(rows, idx, quantile);
    var cap := MarketCapAt(row);
    Report(row.date, pe, pb, d, ps, cap, Summary(pe, pb, ps, d, cap))
  }

  /** The tool: locate the requested day in the sorted table and label it. */
  function GetValuationMetrics(rows: seq<Row>, date: string, quantile: Quantile): (r: Result<Report, Table.Error>)
    ensures r.Ok? <==> exists j :: 0 <= j < |rows| && rows[j].date == date
    ensures r.Ok? ==> r.value.date == date
    ensures r.Err? ==> (r.error == Table.NoData <==> |rows| == 0)
    ensures forall k :: 0 <= k < |rows| && rows[k].date == date && (forall j :: 0 <= j < k ==> rows[j].date != date) ==>
      r == Ok(ReportAt(rows, k, quantile))
  {
    var dateOf := (row: Row) => row.date;
    Table.FindIsFirst(rows, dateOf, date);
    match Table.Find(rows, dateOf, date)
    case Err(e) => Err(e)
    case Ok(idx) => Ok(ReportAt(rows, idx, quantile))
  }

  // ---------------------------------------------------------------- properties

  /** The summary is "unprofitable" exactly when the chosen PE is at most zero, whatever else holds. */
  lemma UnprofitableIffNonPositivePe(rows: seq<Row>, idx: nat, quantile: Quantile)
    requires idx < |rows|
    ensures ReportAt(rows, idx, quantile).summary == Unprofitable <==> Le(ChosenPe(rows[idx]), Some(0.0))
  {
  }

  lemma {:induction false} BeforeIgnoresLaterRows(rows: seq<Row>, idx: nat, later: seq<Row>, column: Row -> Option<real>)
    requires idx <= |rows|
    ensures Before(rows, idx, column) == Before(rows[..idx] + later, idx, column)
  {
    var a, b := Before(rows, idx, column), Before(rows[..idx] + later, idx, column);
    assert forall j :: 0 <= j < idx ==> a[j] == b[j];
  }

  /**
   * The PE, PB and PS labels of a day use only that day and the rows before it:
   * replacing every later row leaves them unchanged.
   */
  lemma {:induction false} LabelsIgnoreLaterRows(rows: seq<Row>, idx: nat, later: seq<Row>, quantile: Quantile)
    requires idx < |rows|
    ensures PeStatusAt(rows, idx, quantile) == PeStatusAt(rows[..idx + 1] + later, idx, quantile)
    ensures PbStatusAt(rows, idx, quantile) == PbStatusAt(rows[..idx + 1] + later, idx, quantile)
    ensures PsStatusAt(rows, idx, quantile) == PsStatusAt(rows[..idx + 1] + later, idx, quantile)
  {
    var rows' := rows[..idx + 1] + later;
    assert rows'[..idx] == rows[..idx];
    assert rows'[idx] == rows[idx];
    BeforeIgnoresLaterRows(rows, idx, rows'[idx..], PeTtmOf);
    BeforeIgnoresLaterRows(rows, idx, rows'[idx..], PeOf);
    BeforeIgnoresLaterRows(rows, idx, rows'[idx..], PbOf);
    BeforeIgnoresLaterRows(rows, idx, rows'[idx..], PsTtmOf);
    BeforeIgnoresLaterRows(rows, idx, rows'[idx..], PsOf);
    BeforeIgnoresLaterRows(rows', idx, rows'[idx..], PeTtmOf);
    BeforeIgnoresLaterRows(rows', idx, rows'[idx..], PeOf);
    BeforeIgnoresLaterRows(rows', idx, rows'[idx..], PbOf);
    BeforeIgnoresLaterRows(rows', idx, rows'[idx..], PsTtmOf);
    BeforeIgnoresLaterRows(rows', idx, rows'[idx..], PsOf);
  }

  /** With fewer than 100 usable historical points the PE label does not consult the percentile routine. */
  lemma ShortPeHistoryIgnoresQuantile(rows: seq<Row>, idx: nat, q1: Quantile, q2: Quantile)
    requires idx < |rows| && |PeHistory(rows, idx)| < MinHistory
    ensures PeStatusAt(rows, idx, q1) == PeStatusAt(rows, idx, q2)
  {
  }

  /** The first row of the table has no history, so its labels use the absolute thresholds. */
  lemma FirstRowUsesAbsoluteThresholds(rows: seq<Row>, q1: Quantile, q2: Quantile)
    requires |rows| > 0
    ensures ReportAt(rows, 0, q1) == ReportAt(rows, 0, q2)
  {
    assert |PeHistory(rows, 0)| == 0 && |PbHistory(rows, 0)| == 0 && |PsHistory(rows, 0)| == 0;
  }

  /** A speculative verdict needs a small cap and a rich PE; a growth-priced one a large or mid cap. */
  lemma VerdictCapClasses(rows: seq<Row>, idx: nat, quantile: Quantile)
    requires idx < |rows|
    ensures ReportAt(rows, idx, quantile).summary == Speculative ==>
      Lt(rows[idx].totalMv, Some(2000000.0)) && Gt(ChosenPe(rows[idx]), Some(0.0))
    ensures ReportAt(rows, idx, quantile).summary == GrowthPriced ==> Ge(rows[idx].totalMv, Some(2000000.0))
  {
  }
}

=== FILE: volatility.dfy ===
/**
 * The volatility tool (`get_volatility_profile`): ATR against its 20-day mean,
 * the close inside the Bollinger and Keltner channels, the Mass index, the
 * freshness of price extremes, and the regime and risk labels built from them.
 */
module VolatilityProfile {
  import opened Base
  import Table

  /** The columns of one daily factor row that the volatility labels read. */
  datatype Row = Row(
    date: string,
    atr: Option<real>,        // atr_qfq
    close: Option<real>,      // close_qfq
    bollUpper: Option<real>,  // boll_upper_qfq
    bollLower: Option<real>,  // boll_lower_qfq
    bollMid: Option<real>,    // boll_mid_qfq
    mass: Option<real>,       // mass_qfq
    ktnUpper: Option<real>,   // ktn_upper_qfq
    ktnDown: Option<real>,    // ktn_down_qfq
    topdays: Option<real>,    // days since the last higher high
    lowdays: Option<real>,    // days since the last lower low
    high: Option<real>,       // high_qfq
    low: Option<real>)        // low_qfq

  datatype Atr = HighVolatility | LowVolatility | NormalVolatility

  /** Where the close sits relative to the Bollinger bands. */
  datatype Position = AboveUpper | BelowLower | UpperHalf | LowerHalf

  /** The relative band width: above 0.15 wide, below 0.08 narrow, else unremarkable. */
  datatype Width = Wide | Narrow | Unremarkable

  /** The ten combined Bollinger labels the tool reports. */
  datatype Band =
    | AboveUpperWithWideBand | AboveUpperWithNarrowBand | AboveUpperBand
    | BelowLowerWithWideBand | BelowLowerWithNarrowBand | BelowLowerBand
    | UpperHalfNarrowBand | UpperHalfBand
    | LowerHalfNarrowBand | LowerHalfBand
  {
    function Name(): string {
      match this
      case AboveUpperWithWideBand => "above_upper_with_wide_band"
      case AboveUpperWithNarrowBand => "above_upper_with_narrow_band"
      case AboveUpperBand => "above_upper_band"
      case BelowLowerWithWideBand => "below_lower_with_wide_band"
      case BelowLowerWithNarrowBand => "below_lower_with_narrow_band"
      case BelowLowerBand => "below_lower_band"
      case UpperHalfNarrowBand => "upper_half_narrow_band"
      case UpperHalfBand => "upper_half"
      case LowerHalfNarrowBand => "lower_half_narrow_band"
      case LowerHalfBand => "lower_half"
    }
  }

  /** The labels whose name contains "wide_band". */
  predicate IsWide(b: Band) {
    b == AboveUpperWithWideBand || b == BelowLowerWithWideBand
  }

  /** The labels whose name contains "narrow_band". */
  predicate IsNarrow(b: Band) {
    b == AboveUpperWithNarrowBand || b == BelowLowerWithNarrowBand || b == UpperHalfNarrowBand || b == LowerHalfNarrowBand
  }

  /** The labels whose name contains "above_upper". */
  predicate IsAboveUpper(b: Band) {
    b == AboveUpperWithWideBand || b == AboveUpperWithNarrowBand || b == AboveUpperBand
  }

  /** The labels whose name contains "below_lower". */
  predicate IsBelowLower(b: Band) {
    b == BelowLowerWithWideBand || b == BelowLowerWithNarrowBand || b == BelowLowerBand
  }

  datatype Mass = MassReversalSignal | HighMass | LowMass | ReversalZone
  datatype Keltner = AboveKeltnerUpper | BelowKeltnerLower | WithinKeltnerChannel
  datatype Extreme = RecentNewHigh | RecentNewLow | NearNewHigh | NoExtremePrice
  datatype Regime = ElevatedVolatility | CompressionBeforeBreakout | NormalRegime
  datatype Risk = HighShortTermRisk | HighShortTermOpportunity | LowRiskConsolidation | NoRisk

  datatype Report = Report(
    date: string,
    atr: Option<Atr>,
    bollinger: Option<Band>,
    mass: Option<Mass>,
    keltner: Option<Keltner>,
    extreme: Extreme,
    regime: Regime,
    risk: Risk)

  // ---------------------------------------------------------------- ATR

  function AtrAbsolute(atr: real): (s: Atr)
    ensures s == HighVolatility <==> atr > 2.0
    ensures s == LowVolatility <==> atr < 0.5
  {
    if atr > 2.0 then HighVolatility else if atr < 0.5 then LowVolatility else NormalVolatility
  }

  function AtrRelative(atr: real, mean: real): (s: Atr)
    ensures s == HighVolatility <==> atr > 1.5 * mean
    ensures s == LowVolatility <==> atr <= 1.5 * mean && atr < 0.7 * mean
  {
    if atr > 1.5 * mean then HighVolatility else if atr < 0.7 * mean then LowVolatility else NormalVolatility
  }

  /** The ATR cells of the 20 rows ending at `idx`, the current row included. */
  function AtrWindow(rows: seq<Row>, idx: nat): (w: seq<Option<real>>)
    requires 19 <= idx < |rows|
    ensures |w| == 20 && w[19] == rows[idx].atr
    ensures forall j :: 0 <= j < 20 ==> w[j] == rows[idx - 19 + j].atr
  {
    seq(20, j requires 0 <= j < 20 => rows[idx - 19 + j].atr)
  }

  function Mean(xs: seq<real>): real
    requires |xs| > 0
  {
    Sum(xs) / (|xs| as real)
  }

  /** Whether the relative thresholds apply: 20 rows of history, at least 15 ATR values among them. */
  predicate HasAtrHistory(rows: seq<Row>, idx: nat)
    requires idx < |rows|
  {
    idx >= 19 && |Present(AtrWindow(rows, idx))| >= 15
  }

  /**
   * With 20 rows of history holding at least 15 ATR values, ATR above 1.5 times
   * their mean is high and below 0.7 times low; otherwise the absolute bounds 2.0 and 0.5.
   */
  function AtrStatus(rows: seq<Row>, idx: nat): (r: Option<Atr>)
    requires idx < |rows|
    ensures r.None? <==> rows[idx].atr.None?
    ensures r.Some? && HasAtrHistory(rows, idx) ==>
      r.value == AtrRelative(rows[idx].atr.value, Mean(Present(AtrWindow(rows, idx))))
    ensures r.Some? && !HasAtrHistory(rows, idx) ==> r.value == AtrAbsolute(rows[idx].atr.value)
  {
    match rows[idx].atr
    case None => None
    case Some(atr) =>
      if HasAtrHistory(rows, idx) then Some(AtrRelative(atr, Mean(Present(AtrWindow(rows, idx)))))
      else Some(AtrAbsolute(atr))
  }

  /** The sum of values no smaller than `lo` is at least `lo` times their number. */
  lemma {:induction false} SumAtLeast(xs: seq<real>, lo: real)
    requires forall i :: 0 <= i < |xs| ==> xs[i] >= lo
    ensures Sum(xs) >= (|xs| as real) * lo
  {
    if |xs| > 0 {
      SumAtLeast(xs[1..], lo);
    }
  }

  /** The sum of values no larger than `hi` is at most `hi` times their number. */
  lemma {:induction false} SumAtMost(xs: seq<real>, hi: real)
    requires forall i :: 0 <= i < |xs| ==> xs[i] <= hi
    ensures Sum(xs) <= (|xs| as real) * hi
  {
    if |xs| > 0 {
      SumAtMost(xs[1..], hi);
    }
  }

  /** The mean lies between any lower and upper bound of the values. */
  lemma MeanBetween(xs: seq<real>, lo: real, hi: real)
    requires |xs| > 0
    requires forall i :: 0 <= i < |xs| ==> lo <= xs[i] <= hi
    ensures lo <= Mean(xs) <= hi
  {
    SumAtLeast(xs, lo);
    SumAtMost(xs, hi);
    var n := |xs| as real;
    assert Sum(xs) / n >= lo by {
      assert Sum(xs) >= n * lo;
    }
    assert Sum(xs) / n <= hi by {
      assert Sum(xs) <= n * hi;
    }
  }

  /**
   * A positive ATR that has held steady over the whole 20-day window is normal
   * volatility: it is neither 1.5 times above nor 0.7 times below its own mean.
   */
  lemma SteadyAtrIsNormal(rows: seq<Row>, idx: nat, a: real)
    requires 19 <= idx < |rows| && a > 0.0
    requires forall j :: idx - 19 <= j <= idx ==> rows[j].atr == Some(a)
    ensures AtrStatus(rows, idx) == Some(NormalVolatility)
  {
    var w := AtrWindow(rows, idx);
    var valid := Present(w);
    assert forall j :: 0 <= j < 20 ==> w[j] == Some(a);
    PresentOfAllSome(w, a);
    assert |valid| == 20;
    MeanBetween(valid, a, a);
  }

  lemma {:induction false} PresentOfAllSome(s: seq<Option<real>>, a: real)
    requires forall j :: 0 <= j < |s| ==> s[j] == Some(a)
    ensures |Present(s)| == |s|
    ensures forall i :: 0 <= i < |Present(s)| ==> Present(s)[i] == a
  {
    if |s| > 0 {
      PresentOfAllSome(s[1..], a);
    }
  }

  // ---------------------------------------------------------------- Bollinger

  function BandPosition(close: real, upper: real, lower: real, mid: real): (p: Position)
    ensures p == AboveUpper <==> close >= upper
    ensures p == BelowLower <==> close < upper && close <= lower
    ensures p == UpperHalf <==> close < upper && close > lower && close > mid
  {
    if close >= upper then AboveUpper
    else if close <= lower then BelowLower
    else if close > mid then UpperHalf
    else LowerHalf
  }

  /**
   * The class of the relative width (upper - lower) / mid. The division is done in
   * floating point, so a zero middle band yields an infinity of the numerator's sign
   * (wide when positive, narrow when negative) or NaN (neither) when the bands meet.
   */
  function BandWidth(upper: real, lower: real, mid: real): (w: Width)
    ensures mid != 0.0 ==> (w == Wide <==> (upper - lower) / mid > 0.15)
    ensures mid != 0.0 ==> (w == Narrow <==> (upper - lower) / mid < 0.08)
    ensures mid == 0.0 ==> (w == Wide <==> upper > lower) && (w == Narrow <==> upper < lower)
  {
    if mid != 0.0 then
      var width := (upper - lower) / mid;
      if width > 0.15 then Wide else if width < 0.08 then Narrow else Unremarkable
    else if upper - lower > 0.0 then Wide
    else if upper - lower < 0.0 then Narrow
    else Unremarkable
  }

  /** The combined label; inside the bands a wide width is not reported. */
  function Combine(p: Position, w: Width): Band {
    match p
    case AboveUpper => if w == Wide then AboveUpperWithWideBand else if w == Narrow then AboveUpperWithNarrowBand else AboveUpperBand
    case BelowLower => if w == Wide then BelowLowerWithWideBand else if w == Narrow then BelowLowerWithNarrowBand else BelowLowerBand
    case UpperHalf => if w == Narrow then UpperHalfNarrowBand else UpperHalfBand
    case LowerHalf => if w == Narrow then LowerHalfNarrowBand else LowerHalfBand
  }

  /** What each of the substring tests on the combined label says about its parts. */
  lemma CombineReadsBack(p: Position, w: Width)
    ensures IsNarrow(Combine(p, w)) <==> w == Narrow
    ensures IsWide(Combine(p, w)) <==> w == Wide && (p == AboveUpper || p == BelowLower)
    ensures IsAboveUpper(Combine(p, w)) <==> p == AboveUpper
    ensures IsBelowLower(Combine(p, w)) <==> p == BelowLower
  {
  }

  /** Distinct (position, width) pairs give distinct labels, except that inside the bands wide and unremarkable coincide. */
  lemma CombineInjective(p: Position, w: Width, p': Position, w': Width)
    requires Combine(p, w) == Combine(p', w')
    ensures p == p'
    ensures w == w' || ((p == UpperHalf || p == LowerHalf) && w != Narrow && w' != Narrow)
  {
  }

  function BollingerStatus(row: Row): (r: Option<Band>)
    ensures r.None? <==>
      row.close.None? || row.bollUpper.None? || row.bollLower.None? || row.bollMid.None?
    ensures r.Some? ==> r.value == Combine(
      BandPosition(row.close.value, row.bollUpper.value, row.bollLower.value, row.bollMid.value),
      BandWidth(row.bollUpper.value, row.bollLower.value, row.bollMid.value))
  {
    match (row.close, row.bollUpper, row.bollLower, row.bollMid)
    case (Some(close), Some(upper), Some(lower), Some(mid)) =>
      Some(Combine(BandPosition(close, upper, lower, mid), BandWidth(upper, lower, mid)))
    case _ => None
  }

  // ---------------------------------------------------------------- Mass, Keltner

  function MassLevel(mass: real): (m: Mass)
    ensures m == HighMass <==> mass > 27.0
    ensures m == LowMass <==> mass < 26.5
    ensures m != MassReversalSignal
  {
    if mass > 27.0 then HighMass else if mass < 26.5 then LowMass else ReversalZone
  }

  /** A Mass index falling below 27 from at least 27 the day before is the reversal signal; otherwise its level. */
  function MassStatus(rows: seq<Row>, idx: nat): (r: Option<Mass>)
    requires idx < |rows|
    ensures r.None? <==> rows[idx].mass.None?
    ensures r == Some(MassReversalSignal) <==>
      idx > 0 && Lt(rows[idx].mass, Some(27.0)) && Ge(rows[idx - 1].mass, Some(27.0))
    ensures r.Some? && r.value != MassReversalSignal ==> r.value == MassLevel(rows[idx].mass.value)
  {
    match rows[idx].mass
    case None => None
    case Some(mass) =>
      if idx > 0 && rows[idx - 1].mass.Some? && mass < 27.0 && rows[idx - 1].mass.value >= 27.0 then
        Some(MassReversalSignal)
      else Some(MassLevel(mass))
  }

  function KeltnerStatus(row: Row): (r: Option<Keltner>)
    ensures r.None? <==> row.close.None? || row.ktnUpper.None? || row.ktnDown.None?
    ensures r == Some(AboveKeltnerUpper) <==> r.Some? && Ge(row.close, row.ktnUpper)
    ensures r == Some(BelowKeltnerLower) <==> r.Some? && Lt(row.close, row.ktnUpper) && Le(row.close, row.ktnDown)
  {
    match (row.close, row.ktnUpper, row.ktnDown)
    case (Some(close), Some(upper), Some(down)) =>
      Some(if close >= upper then AboveKeltnerUpper else if close <= down then BelowKeltnerLower else WithinKeltnerChannel)
    case _ => None
  }

  // ---------------------------------------------------------------- extremes

  /** The largest present value, skipping NaN as pandas' `max` does; None when every value is NaN. */
  function MaxPresent(s: seq<Option<real>>): (m: Option<real>)
    ensures m.None? <==> forall i :: 0 <= i < |s| ==> s[i].None?
    ensures m.Some? ==> m in s
    ensures m.Some? ==> forall i :: 0 <= i < |s| && s[i].Some? ==> s[i].value <= m.value
  {
    if |s| == 0 then None
    else
      var rest := MaxPresent(s[1..]);
      assert forall i :: 1 <= i < |s| ==> s[i] == s[1..][i - 1];
      if s[0].None? then rest
      else if rest.None? || s[0].value >= rest.value then s[0]
      else rest
  }

  /** The smallest present value, skipping NaN; None when every value is NaN. */
  function MinPresent(s: seq<Option<real>>): (m: Option<real>)
    ensures m.None? <==> forall i :: 0 <= i < |s| ==> s[i].None?
    ensures m.Some? ==> m in s
    ensures m.Some? ==> forall i :: 0 <= i < |s| && s[i].Some? ==> m.value <= s[i].value
  {
    if |s| == 0 then None
    else
      var rest := MinPresent(s[1..]);
      assert forall i :: 1 <= i < |s| ==> s[i] == s[1..][i - 1];
      if s[0].None? then rest
      else if rest.None? || s[0].value <= rest.value then s[0]
      else rest
  }

  /** The highs (or lows) of the 20 rows before `idx`, the current row excluded. */
  function PriorHighs(rows: seq<Row>, idx: nat): (h: seq<Option<real>>)
    requires 20 <= idx < |rows|
    ensures |h| == 20 && forall j :: 0 <= j < 20 ==> h[j] == rows[idx - 20 + j].high
  {
    seq(20, j requires 0 <= j < 20 => rows[idx - 20 + j].high)
  }

  function PriorLows(rows: seq<Row>, idx: nat): (l: seq<Option<real>>)
    requires 20 <= idx < |rows|
    ensures |l| == 20 && forall j :: 0 <= j < 20 ==> l[j] == rows[idx - 20 + j].low
  {
    seq(20, j requires 0 <= j < 20 => rows[idx - 20 + j].low)
  }

  predicate HasStreakData(row: Row) {
    row.topdays.Some? || row.lowdays.Some?
  }

  /**
   * With a streak count present, at least 20 days since a higher high is a new high
   * (or the same for lows). Without one, and with 20 earlier rows, the high is compared
   * with their highest high and the low with their lowest low; within 2% below the
   * highest high is near a new high.
   */
  function ExtremeStatus(rows: seq<Row>, idx: nat): (e: Extreme)
    requires idx < |rows|
    ensures HasStreakData(rows[idx]) ==>
      && (e == RecentNewHigh <==> Ge(rows[idx].topdays, Some(20.0)))
      && (e == RecentNewLow <==> !Ge(rows[idx].topdays, Some(20.0)) && Ge(rows[idx].lowdays, Some(20.0)))
      && e != NearNewHigh
    ensures !HasStreakData(rows[idx]) && idx < 20 ==> e == NoExtremePrice
    ensures !HasStreakData(rows[idx]) && idx >= 20 ==>
      && (e == RecentNewHigh <==> Gt(rows[idx].high, MaxPresent(PriorHighs(rows, idx))))
      && (e == RecentNewLow <==>
            !Gt(rows[idx].high, MaxPresent(PriorHighs(rows, idx))) && Lt(rows[idx].low, MinPresent(PriorLows(rows, idx))))
      && (e == NearNewHigh <==>
            && !Gt(rows[idx].high, MaxPresent(PriorHighs(rows, idx))) && !Lt(rows[idx].low, MinPresent(PriorLows(rows, idx)))
            && Ge(rows[idx].high, Times(MaxPresent(PriorHighs(rows, idx)), 0.98)))
  {
    var row := rows[idx];
    if HasStreakData(row) then
      if Ge(row.topdays, Some(20.0)) then RecentNewHigh
      else if Ge(row.lowdays, Some(20.0)) then RecentNewLow
      else NoExtremePrice
    else if idx >= 20 then
      var histHigh := MaxPresent(PriorHighs(rows, idx));
      var histLow := MinPresent(PriorLows(rows, idx));
      if Gt(row.high, histHigh) then RecentNewHigh
      else if Lt(row.low, histLow) then RecentNewLow
      else if Ge(row.high, Times(histHigh, 0.98)) then NearNewHigh
      else NoExtremePrice
    else NoExtremePrice
  }

  /** A new high found from prices alone tops every one of the 20 earlier highs that is known. */
  lemma PriceNewHighTopsHistory(rows: seq<Row>, idx: nat, j: nat)
    requires idx < |rows| && !HasStreakData(rows[idx]) && ExtremeStatus(rows, idx) == RecentNewHigh
    requires idx - 20 <= j < idx && rows[j].high.Some?
    ensures idx >= 20 && rows[idx].high.Some? && rows[idx].high.value > rows[j].high.value
  {
    var h := PriorHighs(rows, idx);
    assert h[j - (idx - 20)] == rows[j].high;
  }

  // ---------------------------------------------------------------- regime and risk

  /**
   * The regime as written: the narrow-band test applies `in` to the Bollinger label
   * without guarding it, so a missing label raises a TypeError and the whole tool
   * answers with an error object.
   */
  function RegimeAsWritten(atr: Option<Atr>, band: Option<Band>, mass: Option<Mass>, extreme: Extreme): (r: Result<Regime, Table.Error>)
    ensures r.Err? <==> band.None?
    ensures r.Err? ==> r.error == Table.NoneNotIterable
  {
    var isWide := band.Some? && IsWide(band.value);
    var isExtreme := extreme == RecentNewHigh || extreme == RecentNewLow;
    if atr == Some(HighVolatility) && isWide && isExtreme then Ok(ElevatedVolatility)
    else if band.None? then Err(Table.NoneNotIterable)
    else if (IsNarrow(band.value) || mass == Some(LowMass)) && atr == Some(LowVolatility) then Ok(CompressionBeforeBreakout)
    else Ok(NormalRegime)
  }

  /**
   * The regime with the narrow-band test guarded the way the wide-band test and
   * the risk warning already are: a missing label is neither wide nor narrow.
   */
  function RegimeOf(atr: Option<Atr>, band: Option<Band>, mass: Option<Mass>, extreme: Extreme): (r: Regime)
    ensures r == ElevatedVolatility <==>
      atr == Some(HighVolatility) && band.Some? && IsWide(band.value) && (extreme == RecentNewHigh || extreme == RecentNewLow)
    ensures r == CompressionBeforeBreakout <==>
      atr == Some(LowVolatility) && ((band.Some? && IsNarrow(band.value)) || mass == Some(LowMass))
  {
    var isWide := band.Some? && IsWide(band.value);
    var isNarrow := band.Some? && IsNarrow(band.value);
    var isExtreme := extreme == RecentNewHigh || extreme == RecentNewLow;
    if atr == Some(HighVolatility) && isWide && isExtreme then ElevatedVolatility
    else if (isNarrow || mass == Some(LowMass)) && atr == Some(LowVolatility) then CompressionBeforeBreakout
    else NormalRegime
  }

  /** Wherever the written regime answers at all, the guarded one gives the same answer. */
  lemma RegimeGuardKeepsAnswers(atr: Option<Atr>, band: Option<Band>, mass: Option<Mass>, extreme: Extreme)
    ensures RegimeAsWritten(atr, band, mass, extreme).Ok? ==>
      RegimeAsWritten(atr, band, mass, extreme).value == RegimeOf(atr, band, mass, extreme)
  {
  }

  function RiskWarning(atr: Option<Atr>, band: Option<Band>, extreme: Extreme): (r: Risk)
    ensures r == HighShortTermRisk <==>
      band.Some? && IsAboveUpper(band.value) && extreme == RecentNewHigh && atr == Some(HighVolatility)
    ensures r == HighShortTermOpportunity <==>
      band.Some? && IsBelowLower(band.value) && extreme == RecentNewLow && atr == Some(HighVolatility)
    ensures r == LowRiskConsolidation <==> band.Some? && IsNarrow(band.value) && atr == Some(LowVolatility)
  {
    if band.Some? && IsAboveUpper(band.value) && extreme == RecentNewHigh && atr == Some(HighVolatility) then HighShortTermRisk
    else if band.Some? && IsBelowLower(band.value) && extreme == RecentNewLow && atr == Some(HighVolatility) then HighShortTermOpportunity
    else if band.Some? && IsNarrow(band.value) && atr == Some(LowVolatility) then LowRiskConsolidation
    else NoRisk
  }

  /** A low-risk consolidation is exactly a compression regime on a narrow band. */
  lemma ConsolidationIsNarrowCompression(atr: Option<Atr>, band: Option<Band>, mass: Option<Mass>, extreme: Extreme)
    ensures RiskWarning(atr, band, extreme) == LowRiskConsolidation <==>
      RegimeOf(atr, band, mass, extreme) == CompressionBeforeBreakout && band.Some? && IsNarrow(band.value)
  {
  }

  /** A high short-term risk or opportunity on a wide band is always an elevated regime. */
  lemma WideBreakoutRiskIsElevated(atr: Option<Atr>, band: Option<Band>, mass: Option<Mass>, extreme: Extreme)
    requires band.Some? && IsWide(band.value)
    requires RiskWarning(atr, band, extreme) in {HighShortTermRisk, HighShortTermOpportunity}
    ensures RegimeOf(atr, band, mass, extreme) == ElevatedVolatility
  {
  }

  // ---------------------------------------------------------------- the tool

  /** The profile of row `idx`: its date, the labels of row `idx`, and a regime and risk read off those labels. */
  function ReportAt(rows: seq<Row>, idx: nat): (r: Report)
    requires idx < |rows|
    ensures r.date == rows[idx].date
    ensures r.atr == AtrStatus(rows, idx) && r.bollinger == BollingerStatus(rows[idx])
    ensures r.mass == MassStatus(rows, idx) && r.keltner == KeltnerStatus(rows[idx])
    ensures r.extreme == ExtremeStatus(rows, idx)
    ensures r.regime == RegimeOf(r.atr, r.bollinger, r.mass, r.extreme)
    ensures r.risk == RiskWarning(r.atr, r.bollinger, r.extreme)
  {
    var row := rows[idx];
    var atr := AtrStatus(rows, idx);
    var band := BollingerStatus(row);
    var mass := MassStatus(rows, idx);
    var extreme := ExtremeStatus(rows, idx);
    Report(row.date, atr, band, mass, KeltnerStatus(row), extreme,
           RegimeOf(atr, band, mass, extreme), RiskWarning(atr, band, extreme))
  }

  /** The tool with the guarded regime: it answers for every day the table holds. */
  function GetVolatilityProfile(rows: seq<Row>, date: string): (r: Result<Report, Table.Error>)
    ensures r.Ok? <==> exists j :: 0 <= j < |rows| && rows[j].date == date
    ensures r.Ok? ==> r.value.date == date
    ensures r.Err? ==> (r.error == Table.NoData <==> |rows| == 0)
    ensures forall k :: 0 <= k < |rows| && rows[k].date == date && (forall j :: 0 <= j < k ==> rows[j].date != date) ==>
      r == Ok(ReportAt(rows, k))
  {
    var dateOf := (row: Row) => row.date;
    Table.FindIsFirst(rows, dateOf, date);
    match Table.Find(rows, dateOf, date)
    case Err(e) => Err(e)
    case Ok(idx) => Ok(ReportAt(rows, idx))
  }

  /** The tool as written: a day without a Bollinger label is an error. */
  function GetVolatilityProfileAsWritten(rows: seq<Row>, date: string): (r: Result<Report, Table.Error>)
    ensures r.Ok? ==> r.value.date == date
    ensures r.Ok? ==> exists j :: 0 <= j < |rows| && rows[j].date == date && BollingerStatus(rows[j]).Some?
    ensures forall k :: 0 <= k < |rows| && rows[k].date == date && (forall j :: 0 <= j < k ==> rows[j].date != date) ==>
      r == if BollingerStatus(rows[k]).None? then Err(Table.NoneNotIterable) else Ok(ReportAt(rows, k))
  {
    var dateOf := (row: Row) => row.date;
    Table.FindIsFirst(rows, dateOf, date);
    match Table.Find(rows, dateOf, date)
    case Err(e) => Err(e)
    case Ok(idx) =>
      var report := ReportAt(rows, idx);
      match RegimeAsWritten(report.atr, report.bollinger, report.mass, report.extreme)
      case Err(e) => Err(e)
      case Ok(regime) => Ok(report.(regime := regime))
  }

  /**
   * The two tools agree whenever the written one answers, and the written one
   * fails on a day whose close is missing even though ATR, Mass and the extremes
   * could all be labelled.
   */
  lemma AsWrittenFailsOnlyWithoutBand(rows: seq<Row>, date: string)
    ensures GetVolatilityProfileAsWritten(rows, date).Ok? ==>
      GetVolatilityProfileAsWritten(rows, date) == GetVolatilityProfile(rows, date)
    ensures GetVolatilityProfile(rows, date).Ok? && GetVolatilityProfile(rows, date).value.bollinger.None? ==>
      GetVolatilityProfileAsWritten(rows, date) == Err(Table.NoneNotIterable)
  {
    match Table.Find(rows, (row: Row) => row.date, date)
    case Err(e) =>
    case Ok(idx) =>
      var report := ReportAt(rows, idx);
      RegimeGuardKeepsAnswers(report.atr, report.bollinger, report.mass, report.extreme);
  }

  /** A concrete day that the written tool rejects: the close is NaN, the ATR is known. */
  lemma MissingCloseRejected()
    ensures var row := Row("20240115", Some(1.0), None, Some(11.0), Some(9.0), Some(10.0), Some(27.0),
                           None, None, None, None, None, None);
      && GetVolatilityProfileAsWritten([row], "20240115") == Err(Table.NoneNotIterable)
      && GetVolatilityProfile([row], "20240115").Ok?
      && GetVolatilityProfile([row], "20240115").value.atr == Some(NormalVolatility)
  {
    var row := Row("20240115", Some(1.0), None, Some(11.0), Some(9.0), Some(10.0), Some(27.0),
                   None, None, None, None, None, None);
    assert Table.Find([row], (r: Row) => r.date, "20240115") == Ok(0);
  }
}
